=== FILE: README.md ===
# SkillSwap core, modelled in Dafny

SkillSwap is a skill-exchange platform. Users offer and want skills. They propose
exchanges to each other, schedule sessions inside an exchange, meet in a browser video
room, and review each other after an exchange is completed. This project models the
core of that system and proves properties of the model:

- **Video room, server side** (`session_video.dfy`). A class `Hub` holds the per-session
  membership map, the per-connection data and an outbox of emitted events. Its methods
  are the socket handlers: join with its authentication gate, leave, chat, the
  offer/answer/ICE relays, and disconnect.
- **Video room, client side** (`session_room.dfy`, `webrtc_service.dfy`). A class `Rtc`
  holds the peer connection, the tracks, the local and remote streams, and the messages
  sent on the socket. A class `Room` holds the page's state and drives `Rtc`. Offerer
  election picks the least participant id in code-unit order.
- **Availability** (`availability.dfy`). Clock-text conversion, interval merging and
  subtraction, weekly rules with dated exceptions, and slot generation on a step grid.
  Slots are filtered against booked sessions. The module also covers the
  exact-slot availability test.
- **Matching** (`matching.dfy`). The skill-match score with level bonus and mutual
  bonus, clock-slot overlap, the activity score, and `findMatches`' threshold filter
  and stable descending sort.
- **Client helpers and form schemas** (`helpers.dfy`, `validators.dfy`). Initials,
  truncation, capitalisation, colour lookups, avatars, `groupBy` and `sortByDate`. Each
  form schema is given as data, together with an interpreter of the schema rules the
  forms use.
- **Controllers** (`exchange_controller.dfy`, `session_controller.dfy`,
  `review_controller.dfy`, `user_controller.dfy`). Each handler is a method on a class
  `Db` (`store.dfy`). `Db` holds the users, exchanges and sessions by id, and the
  reviews in collection order. A handler's reply is its HTTP status; its effect is the
  new state of the collections.

`js_strings.dfy` and `sorting.dfy` give the JavaScript string primitives (`trim`,
`split`, `parseInt`, `Number`, ASCII case mapping) and the stable sorts that the
modules use. `common.dfy` gives `Option` and the reply codes. Strings are sequences of
Dafny characters (Unicode scalar values), each taken to stand for one UTF-16 code unit
of the JavaScript string, which holds for text inside the Basic Multilingual Plane. Times are integer milliseconds, or minutes where the source uses
minutes. An availability window is kept as its two minute counts, not as the "HH:mm"
text the source stores, and an exception's date is kept as a day index.

An incoming ICE candidate (`client/src/services/webrtcService.js:69-75`) is handed to
the peer connection at once. When no remote description is set, that call fails and
the error is logged; `WebRtc.Rtc.OnRemoteCandidate` leaves the connection unchanged in
that case.

## Model

| member | source | states |
|---|---|---|
| SessionVideo.AddMemberEffect | server/sockets/sessionVideoHandler.js:51-55 | after the add the session's members are the old members plus the user, entries stay duplicate-free and non-empty, and no other session changes |
| SessionVideo.AddMemberIdempotent | server/sockets/sessionVideoHandler.js:51-55 | joining twice with the same user leaves the same membership as joining once |
| SessionVideo.FirstJoinDetection | server/sockets/sessionVideoHandler.js:57-63 | the room has exactly one member after the add iff it was empty before or held only this user |
| SessionVideo.RemoveMemberEffect | server/sockets/sessionVideoHandler.js:84-91 | after removal the session holds the old members except the user, the entry is deleted iff the user was its only member, and other sessions are untouched |
| SessionVideo.RemoveMemberIdempotent | server/sockets/sessionVideoHandler.js:84-91 | leaving twice gives the same membership as leaving once |
| SessionVideo.RemoveFromAllEffect | server/sockets/sessionVideoHandler.js:135-143 | removing the user from each of its sessions leaves it in none of them and leaves sessions it did not join unchanged |
| SessionVideo.Gate | server/sockets/sessionVideoHandler.js:13-45 | refuses with "no token" on an empty token and "token failed" on an unverifiable one; admits iff the token verifies, the session exists and the user is its teacher or learner; the admitted id is the token's |
| SessionVideo.DisconnectNoticesShape | server/sockets/sessionVideoHandler.js:130-149 | every notice of a disconnect is a departure naming the user and not sent to the closed socket, or a non-empty duplicate-free list without the user |
| SessionVideo.Hub.constructor | server/sockets/sessionVideoHandler.js:5 | starts with no rooms, no connections and nothing emitted |
| SessionVideo.Hub.Connect | server/sockets/sessionVideoHandler.js:11 | registers a connection with no user, no rooms and no authorised sessions; nothing else changes |
| SessionVideo.Hub.Join | server/sockets/sessionVideoHandler.js:11-77 | the outcome is Gate's; a refused join emits only the error to the caller and changes nothing else; an admitted one adds the user, authorises the session, requests "in-progress" iff the entry then has one member, and emits joined, participant-joined to the others and the list to the whole room |
| SessionVideo.Hub.Leave | server/sockets/sessionVideoHandler.js:80-97 | with no authorisation check, takes the socket out of the room and its user out of the entry (deleting an emptied entry); sends the departure to the other sockets and the remaining list to the room |
| SessionVideo.Hub.SendChat | server/sockets/sessionVideoHandler.js:100-105 | an unauthorised chat emits nothing; an authorised one goes to every socket of the room, sender included, with the sender's user and the time; nothing else changes |
| SessionVideo.Hub.Relay | server/sockets/sessionVideoHandler.js:108-127 | offer, answer and ICE messages reach the other members only from an authorised connection, never the sender |
| SessionVideo.Hub.Disconnect | server/sockets/sessionVideoHandler.js:130-149 | forgets the connection and removes its user from each of its sessions in order, emitting that session's notices |
| SessionVideo.Hub.LeaveAll | server/sockets/sessionVideoHandler.js:135-146 | the user leaves each authorised session in turn: membership becomes RemoveFromAll of the old rooms and the outbox grows by exactly DisconnectNotices, connections untouched |
| SessionVideo.Hub.LeaveOnDisconnect | server/sockets/sessionVideoHandler.js:135-143 | one step of the disconnect loop: membership after is RemoveMember of the old membership, notices appended |
| SessionRoom.Offerer | client/src/pages/SessionRoom.jsx:99-106 | the elected offerer is a participant and precedes every other participant in code-unit order |
| SessionRoom.OffererIsTheMinimum | client/src/pages/SessionRoom.jsx:99-106 | any participant that precedes all others is the one elected |
| SessionRoom.OffererOrderIndependent | client/src/pages/SessionRoom.jsx:99-106 | two lists with the same participants elect the same offerer |
| SessionRoom.AtMostOneElected | client/src/pages/SessionRoom.jsx:99-106 | two participants who both see themselves elected are the same participant |
| SessionRoom.ShouldOffer | client/src/pages/SessionRoom.jsx:99-106 | offer iff elected among at least two, with a peer connection that is stable and not connected |
| SessionRoom.JoinError | client/src/pages/SessionRoom.jsx:148 | the error shown is the failure's message, never empty |
| SessionRoom.Room.constructor | client/src/pages/SessionRoom.jsx:37-48 | initial page state (no participants, not in call, not muted, camera on, empty chat and error) and the setup effect has given the service the session and a fresh peer, registering listeners only if the socket exists |
| SessionRoom.Room.OnParticipants | client/src/pages/SessionRoom.jsx:96-109 | stores the list; makes an offer exactly when ShouldOffer holds, sending it when the service holds a socket; otherwise the peer and the sent messages are unchanged |
| SessionRoom.Room.HandleReconnect | client/src/pages/SessionRoom.jsx:121-126 | re-sends the join request iff in the call and the service holds a socket |
| SessionRoom.Room.SetInCall | client/src/pages/SessionRoom.jsx:88-132 | changing inCall re-runs the setup effect, which replaces the peer by a fresh one; setting the same value changes nothing else |
| SessionRoom.Room.HandleJoin | client/src/pages/SessionRoom.jsx:134-152 | join succeeds iff media is granted and its tracks can be added (a peer exists or there are none); on success it records "in-progress" and sends a join request when the service holds a socket, and a first join then replaces the peer by a fresh one; on failure the error is shown and nothing is sent |
| SessionRoom.Room.HandleJoinKeepingPeer | client/src/pages/SessionRoom.jsx:134-152 | the corrected join: same replies, but the peer that received the local tracks is kept |
| SessionRoom.Room.HandleLeave | client/src/pages/SessionRoom.jsx:154-159 | sends leave when the service holds a socket, drops the streams, records "completed" and navigates to the dashboard |
| SessionRoom.Room.ToggleMute | client/src/pages/SessionRoom.jsx:161-165 | flips muted and sets every local audio track's enabled flag to the new unmuted state |
| SessionRoom.Room.ToggleCamera | client/src/pages/SessionRoom.jsx:167-171 | flips cameraOff and sets every local video track's enabled flag accordingly |
| SessionRoom.Room.HandleScreenShare | client/src/pages/SessionRoom.jsx:173-179 | shows "Failed to start screen share" iff capture is refused or there is no peer |
| SessionRoom.Room.OnChatMessage | client/src/services/webrtcService.js:81-83 | an arriving chat message is appended to the shown messages once per registered chat listener |
| SessionRoom.JoinShowsChatTwice | client/src/pages/SessionRoom.jsx:110-132 | after an in-app navigation and the join as written, one chat message is shown twice |
| SessionRoom.DirectLoadJoinShowsChatOnce | client/src/pages/SessionRoom.jsx:110-132 | on a directly loaded page the first setup registers nothing, so after the join one chat message is shown once |
| SessionRoom.JoinKeepingPeerShowsChatOnce | client/src/pages/SessionRoom.jsx:110-132 | after an in-app navigation and the corrected join, one chat message is shown once |
| SessionRoom.Room.EditChat | client/src/pages/SessionRoom.jsx:181-185 | sets the chat input to the typed text |
| SessionRoom.Room.SendChat | client/src/pages/SessionRoom.jsx:181-185 | a blank input sends nothing; otherwise sends the trimmed text (when the service holds a socket) and clears the input |
| SessionRoom.JoinLeavesTracksUnsent | client/src/pages/SessionRoom.jsx:132 | after the join as written, two local tracks exist and none is on the live peer connection |
| SessionRoom.JoinKeepingPeerSendsTracks | client/src/pages/SessionRoom.jsx:134-152 | after the corrected join both local tracks are on the live peer connection |
| WebRtc.SenderTracks | client/src/services/webrtcService.js:102 | a track is in the result iff some sender carries it |
| WebRtc.FirstVideoSender | client/src/services/webrtcService.js:102 | the first sender whose track is video, or none iff no sender carries video |
| WebRtc.FirstVideoTrack | client/src/services/webrtcService.js:144-150 | a video track of the stream, or none iff the stream has no video track |
| WebRtc.AsSenders | client/src/services/webrtcService.js:97-110 | one sender per added track, in order |
| WebRtc.FirstVideoSenderFrame | client/src/services/webrtcService.js:102 | the sender lookup does not depend on tracks outside the senders |
| WebRtc.Rtc.constructor | client/src/services/webrtcService.js:6-15 | no peer, no streams, no session, nothing sent |
| WebRtc.Rtc.ConnectSocket | client/src/services/socketService.js:10-20 | a connected socket is kept with its listeners; otherwise a new socket starts with none |
| WebRtc.Rtc.Init | client/src/services/webrtcService.js:17-84 | sets the session and a fresh peer connection and, when a socket exists, counts one more registration of the socket listeners; tracks, streams and sent messages unchanged |
| WebRtc.Rtc.NewTrack | client/src/services/webrtcService.js:97-110 | allocates a fresh enabled, live track; nothing else changes |
| WebRtc.Rtc.OnTrack | client/src/services/webrtcService.js:38-46 | a remote track creates the remote stream on first arrival and is appended to it afterwards |
| WebRtc.Rtc.OnLocalCandidate | client/src/services/webrtcService.js:29-36 | a candidate is sent to the session when the service holds a socket; the end-of-candidates event, or a missing socket, sends nothing |
| WebRtc.Rtc.OnConnectionState | client/src/services/webrtcService.js:48-52 | records the new connection state on the peer, if any |
| WebRtc.Rtc.StartLocalMedia | client/src/services/webrtcService.js:97-110 | refused media changes nothing; granted media creates one fresh track per kind and makes them the local stream; with a peer they are appended to its senders in order, and without one (and some tracks) the call fails with the stream already stored |
| WebRtc.Rtc.CreateTracks | client/src/services/webrtcService.js:98 | the granted stream holds one fresh, enabled track per requested kind, in order; existing tracks are kept as they were |
| WebRtc.Rtc.AddSenders | client/src/services/webrtcService.js:99 | each track of the stream is added to the peer connection in order: the senders grow by exactly those tracks, nothing else changes |
| WebRtc.Rtc.SetEnabled | client/src/services/webrtcService.js:126-134 | sets the enabled flag of exactly the given tracks of one kind |
| WebRtc.Rtc.ToggleMute | client/src/services/webrtcService.js:126-129 | audio tracks of the local stream get enabled = not muted; nothing else changes |
| WebRtc.Rtc.ToggleCamera | client/src/services/webrtcService.js:131-134 | video tracks of the local stream get enabled = not off; nothing else changes |
| WebRtc.Rtc.StartScreenShare | client/src/services/webrtcService.js:136-156 | refused capture fails with no change; otherwise a screen track is created; with a peer the first video sender, if any, is switched to it, and with no peer the share fails |
| WebRtc.Rtc.OnScreenShareEnded | client/src/services/webrtcService.js:144-150 | when sharing ends the camera's video track goes back on the first video sender |
| WebRtc.Rtc.JoinSession | client/src/services/webrtcService.js:112-115 | sends exactly one join request for the session when the service holds a socket, nothing otherwise |
| WebRtc.Rtc.MakeOffer | client/src/services/webrtcService.js:117-124 | with a peer, sets the local offer and sends it (when the service holds a socket); without a peer, nothing |
| WebRtc.Rtc.OnOffer | client/src/services/webrtcService.js:55-63 | an accepted offer sets remote and local descriptions and sends the answer when the service holds a socket |
| WebRtc.Rtc.OnAnswer | client/src/services/webrtcService.js:65-67 | an accepted answer sets the remote description and returns to stable |
| WebRtc.Rtc.OnRemoteCandidate | client/src/services/webrtcService.js:69-75 | a candidate is added only when a remote description is set; otherwise the failure leaves the peer unchanged |
| WebRtc.Rtc.SendChat | client/src/services/webrtcService.js:158-160 | sends exactly one chat message when the service holds a socket, nothing otherwise |
| WebRtc.Rtc.StopTracks | client/src/services/webrtcService.js:167-169 | stops exactly the listed tracks |
| WebRtc.Rtc.Leave | client/src/services/webrtcService.js:162-177 | sends leave when the service holds a socket; stops local tracks, closes the peer and clears both streams |
| Availability.Pad | server/utils/availability.js:4 | the text is at least two digits, denotes n, and has a leading zero iff n < 10 |
| Availability.RemMinutes | server/utils/availability.js:13 | JavaScript `%` by 60: within 0..59 for non-negative input, within -59..0 for negative |
| Availability.ToMinutes | server/utils/availability.js:6-9 | text without a colon does not parse |
| Availability.FromMinutes | server/utils/availability.js:11-15 | a minute of the day is written as two digits, ':' and two digits |
| Availability.MinutesRoundTrip | server/utils/availability.js:6-15 | parsing the formatted text of m gives m back |
| Availability.MergeFrom | server/utils/availability.js:34-46 | the merge loop keeps the first interval's start |
| Availability.MergeFromShape | server/utils/availability.js:34-46 | the loop's output is sorted by start, separated, and covers exactly the points of its input |
| Availability.MergeSpecShape | server/utils/availability.js:29-47 | a merge is sorted, separated and covers exactly the input's points; empty input gives empty output |
| Availability.MergeIntervals | server/utils/availability.js:29-47 | the method computes the merge; its result is sorted, separated and covers exactly the input's points |
| Availability.FoldSorted | server/utils/availability.js:34-46 | the loop over the sorted copy, extending or pushing the current interval, yields MergeFrom of the first interval and the rest |
| Availability.Cut | server/utils/availability.js:57-68 | cutting one interval yields at most two pieces, each inside it |
| Availability.CutPoints | server/utils/availability.js:57-68 | a point is in the pieces iff it is in the base and not in the removed interval |
| Availability.CutAllPoints | server/utils/availability.js:56-69 | one pass keeps exactly the points outside the removed interval |
| Availability.SubtractPoints | server/utils/availability.js:49-73 | subtraction keeps exactly the base points outside every removed interval |
| Availability.CutEach | server/utils/availability.js:56-69 | the inner loop computes one subtraction pass |
| Availability.SubtractIntervals | server/utils/availability.js:49-73 | the method computes the subtraction, with the same point characterisation |
| Availability.Weekday | server/utils/availability.js:82 | the UTC weekday is within 0..6 |
| Availability.OnDayAll | server/utils/availability.js:86-90 | one absolute interval per rule window, in order |
| Availability.FindRule | server/utils/availability.js:84 | the first rule for the weekday, or past the end if none |
| Availability.DailyBase | server/utils/availability.js:80-91 | no schedule or no matching rule gives no intervals; otherwise that rule's windows on the day |
| Availability.ExceptionsOn | server/utils/availability.js:96 | exactly the exceptions dated on that day |
| Availability.ApplyOnePoints | server/utils/availability.js:99-109 | an "unavailable" exception removes its points and an "available" one adds them |
| Availability.FreeAfterLast | server/utils/availability.js:99-109 | a point is free after all exceptions iff the last exception covering it is "available", or none covers it and it was free before |
| Availability.FreeAfterUncovered | server/utils/availability.js:99-109 | an exception that does not cover a point does not change whether it is free |
| Availability.ApplyPoints | server/utils/availability.js:93-111 | applying the exceptions in order frees exactly the points FreeAfter describes; no exceptions changes nothing |
| Availability.ApplyExceptionsForDate | server/utils/availability.js:93-111 | the method applies the day's exceptions in order and returns the input when there are none |
| Availability.SlotsFromShape | server/utils/availability.js:118-120 | slots of one interval start on the step grid from its start, last the duration and end inside it |
| Availability.GenerateShape | server/utils/availability.js:113-123 | a slot is generated iff it lies on some interval's grid |
| Availability.SlotsOf | server/utils/availability.js:118-120 | the inner loop produces one interval's grid slots |
| Availability.GenerateSlots | server/utils/availability.js:113-123 | the method produces the grid slots of all intervals with minutes turned into milliseconds |
| Availability.StepAsWritten | server/utils/availability.js:162 | the step as written: a negative step passes through, a zero step only comes from a zero duration, and a positive duration without a negative step gives a positive step |
| Availability.SlotStep | server/utils/availability.js:162 | the step actually used is always positive |
| Availability.StepCorrection | server/utils/availability.js:162 | for a positive or absent step it equals the step the source computes |
| Availability.NegativeQueryStep | server/utils/availability.js:162 | a query step of "-30" parses to -30 and the source uses it as the step |
| Availability.NegativeStepNeverEnds | server/utils/availability.js:118 | with a negative step every slot of the loop ends inside the interval, so the loop never stops |
| Availability.IntervalsFromSessions | server/utils/availability.js:125-131 | each session becomes one busy interval from its start, lasting its duration or 60 minutes when the duration is absent or zero |
| Availability.OverlapsIffSharedPoint | server/utils/availability.js:139 | the overlap test holds iff slot and busy interval share a point |
| Availability.Filter | server/utils/availability.js:135-144 | keeps exactly the elements that pass, in order |
| Availability.FilterAppend | server/utils/availability.js:135-144 | filtering distributes over concatenation |
| Availability.FilterFree | server/utils/availability.js:133-145 | no busy intervals keeps every slot; otherwise a slot is kept iff it overlaps no busy interval |
| Availability.AllDaysPoints | server/utils/availability.js:171-179 | a point is available iff it is free on some day of the range |
| Availability.CollectDays | server/utils/availability.js:171-179 | the day loop collects every day's intervals in order |
| Availability.BookableMembers | server/utils/availability.js:160-193 | every bookable slot lies on the merged grid, inside the window, and overlaps no busy interval, and conversely |
| Availability.GridSlotAvailable | server/utils/availability.js:181-182 | each point of a generated slot is free on some day |
| Availability.MergedPointFree | server/utils/availability.js:181 | each point of a merged interval is free on some day |
| Availability.ComputeBookableSlots | server/utils/availability.js:160-193 | the method computes the bookable slots, with the corrected step SlotStep in place of `stepMin \|\| durationMin` |
| Availability.ExactSlotIff | server/utils/availability.js:195-201 | a slot at the requested start exists iff the requested slot itself is on the grid and free |
| Availability.IsSlotAvailable | server/utils/availability.js:195-201 | for a positive duration, answers true iff the requested slot is on the merged grid and overlaps no busy interval |
| Availability.NonPositiveDurationNeverEnds | server/utils/availability.js:195-199 | a duration of zero or less becomes the step, and then every iteration of the slot loop passes its guard |
| Availability.IsSlotAvailableChecked | server/utils/availability.js:195-201 | a duration of zero or less is refused; a positive one is answered as IsSlotAvailable answers it |
| Matching.LevelRank | server/utils/matchingAlgorithm.js:96-104 | ranks are 1..4 |
| Matching.LevelBonus | server/utils/matchingAlgorithm.js:95-117 | 10 iff the offered level is at least the desired, 5 iff exactly one below, 0 otherwise |
| Matching.UnknownLevelIsBeginner | server/utils/matchingAlgorithm.js:103-104 | an unknown level counts as beginner on either side |
| Matching.LevelBonusMonotone | server/utils/matchingAlgorithm.js:95-117 | a better offered level never lowers the bonus |
| Matching.FindOffered | server/utils/matchingAlgorithm.js:55-57 | the first offered skill whose name matches ignoring case |
| Matching.EntryFor | server/utils/matchingAlgorithm.js:54-75 | an entry exists iff some offered skill matches the name, and it records the desired skill |
| Matching.SkillScore | server/utils/matchingAlgorithm.js:49-93 | the score is between 0 and 40 |
| Matching.ForwardScoreNonNegative | server/utils/matchingAlgorithm.js:54-75 | the forward part is never negative |
| Matching.ForwardScoreIsSum | server/utils/matchingAlgorithm.js:54-75 | the forward part is the sum of the entries' scores |
| Matching.MatchesShape | server/utils/matchingAlgorithm.js:54-75 | at most one entry per desired skill, exactly those with a match, each scored 20, 25 or 30 |
| Matching.MatchesAppend | server/utils/matchingAlgorithm.js:54-75 | entries of a concatenation are the concatenated entries |
| Matching.MutualCounts | server/utils/matchingAlgorithm.js:78-87 | mutual bonuses number at most the desired skills, and none iff no desired skill matches |
| Matching.CalculateSkillMatch | server/utils/matchingAlgorithm.js:49-93 | the two loops compute the capped score and the entries |
| Matching.TimeToMinutes | server/utils/matchingAlgorithm.js:207-210 | text without a colon does not parse |
| Matching.TimeToMinutesOfNumerals | server/utils/matchingAlgorithm.js:207-210 | two digit strings around a ':' read as 60 times the hours plus the minutes |
| Matching.TimeToMinutesOfClock | server/utils/matchingAlgorithm.js:207-210 | the padded "HH:mm" text of h and m reads as 60h + m |
| Matching.SlotsOverlap | server/utils/matchingAlgorithm.js:198-205 | an overlap implies both times of the first slot parse |
| Matching.SlotsOverlapSymmetric | server/utils/matchingAlgorithm.js:198-205 | overlap is symmetric |
| Matching.SlotsOverlapIffSharedMinute | server/utils/matchingAlgorithm.js:198-205 | on parsed times, overlap holds iff the two slots share a minute |
| Matching.ActivityScore | server/utils/matchingAlgorithm.js:212-224 | 5 when never active; otherwise one of 10, 8, 6, 4, 2, with 10 iff under a day and 2 iff 90 days or more |
| Matching.ActivityNonIncreasing | server/utils/matchingAlgorithm.js:212-224 | longer inactivity never raises the score |
| Matching.KeepAbove | server/utils/matchingAlgorithm.js:251 | keeps exactly the candidates at or above the threshold, as a sub-multiset |
| Matching.FindMatches | server/utils/matchingAlgorithm.js:251-252 | the result is a permutation of the candidates at 30 or more, sorted by percentage descending |
| Matching.FindMatchesStable | server/utils/matchingAlgorithm.js:252 | candidates with equal percentage keep their original order |
| Helpers.Heads | client/src/utils/helpers.js:21-23 | one character per word at most |
| Helpers.GetInitials | client/src/utils/helpers.js:18-26 | empty for an empty name; at most two characters, all upper-case |
| Helpers.HeadsTwo | client/src/utils/helpers.js:21-23 | two non-empty words give their first characters |
| Helpers.InitialsOfTwoWords | client/src/utils/helpers.js:18-26 | "first last" gives the upper-cased first letters of both |
| Helpers.InitialsOfOneWord | client/src/utils/helpers.js:18-26 | one word gives its upper-cased first letter |
| Helpers.TruncateText | client/src/utils/helpers.js:28-32 | empty stays empty, short text is unchanged, long text is its prefix plus "...", and a negative length slices from the end |
| Helpers.TruncateKeepsPrefix | client/src/utils/helpers.js:28-32 | the result is at most three longer than the limit and starts with the text's prefix |
| Helpers.CapitalizeFirst | client/src/utils/helpers.js:34-37 | same length, first character upper-cased, rest unchanged |
| Helpers.CapitalizeFirstIdempotent | client/src/utils/helpers.js:34-37 | capitalising twice is capitalising once |
| Helpers.FormatSkillLevelCapitalises | client/src/utils/helpers.js:39-47 | known levels are capitalised, others returned unchanged |
| Helpers.FallbackColorIffUnknown | client/src/utils/helpers.js:49-69 | the fallback colour appears iff the level or status is unknown |
| Helpers.ValidatePassword | client/src/utils/helpers.js:76-78 | true iff the password has at least 6 code units |
| Helpers.GenerateAvatar | client/src/utils/helpers.js:80-94 | initials as GetInitials; colour from the palette at the first code unit mod 10; no colour iff the name is empty |
| Helpers.AvatarColorByFirstChar | client/src/utils/helpers.js:87-88 | names with the same first code unit get the same colour |
| Helpers.GroupSpecShape | client/src/utils/helpers.js:108-117 | groups exist exactly for keys that occur, each holds that key's items in order, and the sizes add up to the input |
| Helpers.GroupBy | client/src/utils/helpers.js:108-117 | the reduce loop builds the grouping |
| Helpers.SortByDate | client/src/utils/helpers.js:119-125 | a permutation of the input, descending for "desc" and ascending otherwise |
| Helpers.SortByDateStable | client/src/utils/helpers.js:119-125 | items with equal dates keep their original order |
| Validators.LoginAccepts | client/src/utils/validators.js:3-9 | the login form passes iff e-mail and password are filled |
| Validators.RegisterAccepts | client/src/utils/validators.js:11-24 | register passes iff the name has at least 2 characters, e-mail is filled, the password has at least 6 and the confirmation equals it |
| Validators.RegisterPasswordValid | client/src/utils/validators.js:11-24 | an accepted registration's password satisfies validatePassword and matches the confirmation |
| Validators.ProfileAccepts | client/src/utils/validators.js:26-37 | profile passes iff its name has at least 2 characters and the bio at most 500; city, country and timezone take any value |
| Validators.SkillAccepts | client/src/utils/validators.js:39-47 | skill passes iff the name is filled, the level is one of the four levels and the description has at most 200 characters |
| Validators.SkillLevelDisplayed | client/src/utils/validators.js:39-47 | an accepted skill's level is displayed capitalised with its own colour |
| Validators.ExchangeAccepts | client/src/utils/validators.js:49-69 | exchange passes iff the required fields are filled, the duration reads as a number in 1..52, the frequency is known and the notes have at most 1000 characters |
| Validators.SessionAccepts | client/src/utils/validators.js:71-89 | session passes iff the date is not before the schema's build time, the duration reads as a number in 15..480, the type is known and the agenda has at most 500 characters |
| Validators.ReviewAccepts | client/src/utils/validators.js:91-104 | review passes iff the rating reads as a number in 1..5, the comment has at most 500 characters and each category rating is absent or reads as a number in 1..5 |
| Validators.Cast | client/src/utils/validators.js:60-63 | a text field reads a number as its decimal text, a number field reads a signed decimal text as its number, and `.trim()` trims |
| Validators.NumberTextReadBack | client/src/utils/validators.js:60-63 | a number typed as its decimal text, with whitespace around it, is read back as that number |
| Validators.MessageAccepts | client/src/utils/validators.js:106-112 | message passes iff the trimmed text is non-empty and within length |
| Validators.BlankMessageRefused | client/src/utils/validators.js:106-112 | a message of only whitespace is refused |
| ExchangeController.NewExchange | server/controllers/exchangeController.js:44-54 | the new exchange is pending, between caller and recipient, with zero progress, no dates, and 4 weeks by default |
| ExchangeController.CreatedExchangeBlocksRepeat | server/controllers/exchangeController.js:29-42 | once created, an open exchange exists between the two users in both directions |
| ExchangeController.CreateExchange | server/controllers/exchangeController.js:23-54 | unknown recipient gives 404, an open exchange gives 400, otherwise 201 and the new exchange is stored |
| ExchangeController.MaySetStatusIff | server/controllers/exchangeController.js:154-169 | accept and reject only by the recipient, cancel only by a party, any other status by anyone; the current status does not matter |
| ExchangeController.WithStatus | server/controllers/exchangeController.js:171-179 | accepting makes the exchange active with start now and end after its duration; other statuses are stored as given; nothing else changes |
| ExchangeController.AcceptedBecomesActive | server/controllers/exchangeController.js:171-179 | no exchange is left "accepted", and an accepted one ends after it starts |
| ExchangeController.UpdateExchangeStatus | server/controllers/exchangeController.js:150-190 | 404 when missing, 403 when not allowed, otherwise the exchange becomes WithStatus |
| ExchangeController.CompleteExchange | server/controllers/exchangeController.js:198-221 | 404 when missing, 403 for a stranger, otherwise the status becomes "completed" and nothing else changes |
| ExchangeController.StrangerDeletesActiveExchange | server/controllers/exchangeController.js:236-244 | an active exchange passes the delete guard for a user who is not a party |
| ExchangeController.DeleteExchange | server/controllers/exchangeController.js:228-250 | 404 when missing, 403 when the guard fails, otherwise the exchange is removed |
| ExchangeController.MayDeleteAsIntendedIff | server/controllers/exchangeController.js:236-244 | the corrected guard admits only parties: the requester while pending, either party otherwise |
| ExchangeController.DeleteExchangeAsIntended | server/controllers/exchangeController.js:228-250 | the corrected delete removes an exchange only at a party's request |
| SessionController.WithSessionAdded | server/controllers/sessionController.js:46-48 | total sessions go up by one; completed and everything else unchanged |
| SessionController.WithSessionCompleted | server/controllers/sessionController.js:210-213 | completed sessions go up by one; total and everything else unchanged |
| SessionController.RepeatedCompletionCountsTwice | server/controllers/sessionController.js:183-223 | completing a session twice counts it twice on the exchange |
| SessionController.NewSession | server/controllers/sessionController.js:24-51 | the new session is scheduled, not reminded, 60 minutes and virtual by default, with no notes or feedback |
| SessionController.CreateSession | server/controllers/sessionController.js:24-51 | 404 for a missing exchange, 403 for a non-party, otherwise 201, the session stored and the exchange's total incremented |
| SessionController.CopyFieldsStep | server/controllers/sessionController.js:157-163 | the whitelist loop copies one field per step |
| SessionController.PatchedFields | server/controllers/sessionController.js:157-163 | each whitelisted field takes the body's value iff truthy (a date whenever present); all others are unchanged |
| SessionController.PatchIgnoresOtherFields | server/controllers/sessionController.js:157-163 | teacher and learner in the body are ignored; applying a patch twice is applying it once |
| SessionController.UpdateSession | server/controllers/sessionController.js:141-176 | 404 when missing, 403 for a non-attendee, otherwise the session becomes Patched |
| SessionController.Completed | server/controllers/sessionController.js:198-208 | status "completed"; notes and feedback go to the caller's role slot, teacher if the caller teaches and learner otherwise; the other slot and the rest are unchanged |
| SessionController.BothSlotsKept | server/controllers/sessionController.js:198-208 | teacher and learner completing in turn keep both feedbacks |
| SessionController.CompleteSession | server/controllers/sessionController.js:183-223 | 404 when missing, 403 for a non-attendee, 500 with nothing saved when its exchange is gone, otherwise the session is Completed and the exchange's completed count incremented |
| SessionController.CancelSession | server/controllers/sessionController.js:230-253 | 404 when missing, 403 for a non-attendee, otherwise status "cancelled" |
| SessionController.Reminded | server/controllers/sessionController.js:274-289 | a session counts iff it was found, still exists and its e-mail was delivered; no duplicates |
| SessionController.MarkReminded | server/controllers/sessionController.js:284-286 | marked sessions get reminderSent and the send time; the others are unchanged |
| SessionController.ReminderCountIsMarkedCount | server/controllers/sessionController.js:260-295 | the reported count equals the number of sessions newly marked |
| SessionController.RemindedStep | server/controllers/sessionController.js:274-289 | one loop step appends the session iff its e-mail goes out |
| SessionController.MarkAppend | server/controllers/sessionController.js:284-286 | marking one more session extends the marking |
| SessionController.SendReminders | server/controllers/sessionController.js:260-295 | the loop returns the count of reminded sessions and marks exactly those |
| SessionController.TotalPages | server/controllers/sessionController.js:89-97 | none iff limit is 0; otherwise the least page count covering all items |
| SessionController.EveryItemOnOnePage | server/controllers/sessionController.js:89-97 | each item lies on exactly one page, index / limit + 1 |
| ReviewController.Ratings | server/controllers/reviewController.js:237-238 | the matched ratings are no more than the reviews |
| ReviewController.RatingOf | server/controllers/reviewController.js:237-247 | the count is the number of matched reviews; no reviews gives 0; otherwise the average in tenths is the rounded mean |
| ReviewController.RatingsAppend | server/controllers/reviewController.js:237-238 | matching distributes over concatenation |
| ReviewController.SumBounds | server/controllers/reviewController.js:239-240 | a sum of ratings lies between count times the lowest and count times the highest |
| ReviewController.RatingsWithin | server/controllers/reviewController.js:237-238 | every matched rating is 1..5 |
| ReviewController.AverageWithinStars | server/controllers/reviewController.js:237-247 | any non-empty average is between 1.0 and 5.0 stars |
| ReviewController.TextKeyMatchesNothing | server/controllers/reviewController.js:65 | matching by a string id finds no review, so the rating becomes 0 with count 0 |
| ReviewController.Rerated | server/controllers/reviewController.js:243-247 | only the reviewee's rating changes, to RatingOf |
| ReviewController.UpdateUserRating | server/controllers/reviewController.js:223-248 | stores Rerated; the other collections are unchanged |
| ReviewController.AppendKeepsDistinct | server/controllers/reviewController.js:43-51 | adding a review whose triple is new keeps triples distinct |
| ReviewController.RemoveKeepsDistinct | server/controllers/reviewController.js:211 | deleting keeps triples distinct |
| ReviewController.NewReview | server/controllers/reviewController.js:53-62 | the review has the caller as reviewer, the request's fields, and is public by default |
| ReviewController.CreateRefusal | server/controllers/reviewController.js:22-51 | refuses in order: 404 missing exchange, 400 not completed, 403 not a party, 400 duplicate; accepts iff none applies |
| ReviewController.SecondReviewRefused | server/controllers/reviewController.js:43-51 | the same review a second time is refused with 400, and adding it kept triples distinct |
| ReviewController.CreateReview | server/controllers/reviewController.js:22-65 | refusals change nothing; otherwise 201, the review appended and the rating recomputed with the string id |
| ReviewController.CreatedReviewNotCounted | server/controllers/reviewController.js:65 | after a create the reviewee's rating is 0 with count 0, though a review for them exists |
| ReviewController.CreateReviewAsIntended | server/controllers/reviewController.js:22-65 | the same, with the rating recomputed from an object id |
| ReviewController.CreatedReviewCounted | server/controllers/reviewController.js:224-247 | the corrected create counts the new review: count rises by one and the sum by its rating |
| ReviewController.Edited | server/controllers/reviewController.js:172-176 | the rating changes only for a truthy value; categories, comment and visibility whenever given; other fields unchanged |
| ReviewController.EditKeepsTriples | server/controllers/reviewController.js:172-180 | an edit keeps the review's triple, is idempotent, and keeps triples distinct |
| ReviewController.UpdateReview | server/controllers/reviewController.js:157-190 | 404 when missing, 403 for another reviewer, otherwise the review is Edited and the rating recomputed |
| ReviewController.RatingsAround | server/controllers/reviewController.js:237-238 | matching around one review splits into its parts |
| ReviewController.SplitUncounts | server/controllers/reviewController.js:237-240 | dropping one review lowers count by one and the sum by its rating |
| ReviewController.DeletionUncounts | server/controllers/reviewController.js:211-214 | a deleted review leaves the reviewee's count and sum without it |
| ReviewController.SumAppend | server/controllers/reviewController.js:239-240 | the sum distributes over concatenation |
| ReviewController.DeleteReview | server/controllers/reviewController.js:197-220 | 404 when missing, 403 for another reviewer, otherwise the review is removed and the rating recomputed |
| Store.FindReview | server/controllers/reviewController.js:159 | the first review with the id, or none iff no review has it |
| Store.RemoveAt | server/controllers/reviewController.js:211 | the collection without that one review, the others in order |
| UserController.Updated | server/controllers/userController.js:36-45 | name, bio and timezone change iff the body's text is non-empty, the name trimmed; location and availability whenever given; the picture iff a file came; skills and rating unchanged |
| UserController.UpdatedNameTrimmed | server/models/User.js:6-10 | a given name is stored without whitespace at either end, and is blank iff it was all whitespace |
| UserController.UpdateProfileStable | server/controllers/userController.js:36-45 | an empty body changes nothing; updating twice is updating once |
| UserController.UpdateProfile | server/controllers/userController.js:28-53 | 404 for an unknown caller; 500 with nothing saved when the updated profile has a blank name or a bio over 500 code units (so a given name of only whitespace is refused); otherwise the caller becomes Updated |
| UserController.NewSkill | server/controllers/userController.js:70 | the skill keeps name and description; the level defaults to "intermediate" for offered skills and "beginner" for desired ones |
| UserController.DropSkill | server/controllers/userController.js:104-110 | keeps exactly the skills with another id, in order |
| UserController.DropSkillAppend | server/controllers/userController.js:104-110 | removal distributes over concatenation |
| UserController.DropAbsent | server/controllers/userController.js:104-110 | removing an id nobody has changes nothing |
| UserController.AddThenRemove | server/controllers/userController.js:60-121 | removing a freshly added skill restores the list; removing again changes nothing |
| UserController.AddSkill | server/controllers/userController.js:60-86 | 404 for an unknown caller, 400 for another kind, otherwise 201 and the skill appended to that list |
| UserController.RemoveSkill | server/controllers/userController.js:93-121 | 404 for an unknown caller, 400 for another kind, otherwise the list without that id |
| UserController.Threshold | server/controllers/userController.js:168 | no minScore means 30 |
| UserController.GetMatches | server/controllers/userController.js:175-177 | keeps exactly the matches at or above the threshold; an unparseable threshold keeps none |
| UserController.KeepAboveAll | server/controllers/userController.js:175-177 | when all pass, the filter changes nothing |
| UserController.KeepAboveSorted | server/controllers/userController.js:175-177 | filtering a descending list keeps it descending |
| UserController.GetMatchesOnFindMatches | server/controllers/userController.js:166-183 | the default threshold is a no-op on findMatches' result, and any threshold keeps it descending |

## Left out

- Schema validation at save time is not modelled, except for the required name and the bio's length in `updateProfile`: enums, min and max, other maxlength limits and integer ratings are not checked. Handlers store what they are given.
- The password hashing hook, JWT signing and OAuth are not modelled. Token verification is a parameter of `SessionVideo.Gate`.
- E-mail delivery is an oracle `delivered` in `SendReminders`. The reminder query's date window is given as the list of found ids.
- `populate` and the JSON reply bodies are not modelled; a reply is its status code. Exchange goals are also left out.
- Each request reads the clock once, as a `now` parameter. The source reads it separately for `tomorrow`, for `sentAt`, and for an exchange's start and end dates.
- ReviewController.RatingOf: keeps the average in integer tenths with halves rounded up. It does not model floating-point rounding of `Math.round(avg * 10) / 10` at values a double cannot represent.
- Yup's messages, e-mail and url checks, and `oneOf` on optional fields are not modelled.
- `debounce`, the date formatters and `validateEmail` are not modelled. Also left out: the float parts of the match score (rating, schedule overlap ratio, location), `calculateMatchPercentage`, and `getSessions`/`searchUsers` queries beyond the page arithmetic.
- Lookups in the helpers' colour and label tables ignore inherited object keys such as "constructor". Case mapping is ASCII only.
- UserController.Threshold: a `minScore` with a sign, a decimal point or an exponent is treated as unparseable, so every match is dropped. JavaScript would compare against the number it denotes.
- Save failures inside the reminder loop are not modelled: every save succeeds.
- SessionController.CompleteSession: a session whose exchange was deleted replies 500 with nothing saved. This follows from the required `exchange` path being null after population.
- SessionController.PatchedFields: any `scheduledDate` value in the body counts as truthy.
- `createSession` does not check that teacher and learner belong to the exchange, and the model keeps that. `createReview` lets the reviewee be anyone, the caller included, and the model keeps that too.
- Concurrency between handlers and Socket.IO transport are not modelled. A disconnect is taken to fire after the socket has left its rooms.
- Availability.DailyBase and Availability.ApplyExceptionsForDate: a window is taken as two minute counts, where the source joins its "HH:mm" text to the date and parses the result, so malformed text such as "9:00" gives NaN bounds and no slots. An exception's date is taken as a day index, where the source compares "YYYY-MM-DD" strings with `===`. The exception kind has only the two known values, where the source skips an exception of any other stored type.
- Matching.TimeToMinutes: each part must be blank or decimal digits after trimming. A part with a sign, a decimal point or an exponent reads as NaN here, where `Number` reads it as a number.
- JsString: a Dafny character is a Unicode scalar value, so text is taken to lie in the Basic Multilingual Plane (U+0000 to U+FFFF) with no surrogate pairs. A character outside it counts as one unit here where JavaScript's `length`, `charCodeAt`, `slice` and default sort see two code units, which affects the bio length limit, `Helpers.TruncateText`, `Helpers.GetInitials`, `Helpers.CapitalizeFirst`, the avatar colour and the code-unit sort order.
- WebRtc.Rtc.Init: the model counts the listener registrations that pile up with each call while the service has a socket (a first call before the app connects one registers nothing), but only incoming chat is delivered once per registration (`SessionRoom.Room.OnChatMessage`). Offers, answers, ICE candidates and participant lists are handled once per event, where the page as written runs one handler chain per registration, with their awaits interleaved.
- Validators.Cast: a number field reads only an optional sign followed by decimal digits. Decimals, exponents, hexadecimal and "Infinity" are refused, where the library reads them as numbers. A date field reads only a number of milliseconds, not a date text.
- Browser media and network primitives are not modelled. Capture success, offer/answer acceptance and candidate validity are boolean parameters.

## Findings

| source | as written | input that shows it | evidently intended | confidence | as-written member | corrected member |
|---|---|---|---|---|---|---|
| server/utils/availability.js:162 | `stepMin \|\| durationMin` passes a negative step straight to the slot loop | `GET /availability/:id/slots?step=-30` with an interval of at least one duration: `t` decreases and `t + durationMs <= intv.end` stays true | a non-positive step falls back to the duration | not executed; the loop condition is proved to hold for every iteration | Availability.NegativeStepNeverEnds | Availability.StepCorrection |
| server/utils/availability.js:195-199 | `isSlotAvailable` passes its duration as the step, and `durationMin \|\| durationMin` keeps a zero or negative duration | `isSlotAvailable(userId, start, 0)` for a user with any availability on that day: the slot loop's `t` never grows | a duration of zero or less is refused | not executed; no caller in the repository passes such a duration | Availability.NonPositiveDurationNeverEnds | Availability.IsSlotAvailableChecked |
| client/src/services/webrtcService.js:54-83 | every `init` registers the five socket listeners again and nothing removes them; the page calls `init` again whenever `inCall` changes | a join reached by navigating inside the app (the socket already exists when the page mounts), then one chat message: the message is shown twice | register the listeners once, or remove them in the effect's cleanup | not executed; follows from Socket.IO keeping every listener added with `on` | SessionRoom.JoinShowsChatTwice | SessionRoom.JoinKeepingPeerShowsChatOnce |
| client/src/pages/SessionRoom.jsx:132 | the setup effect depends on `inCall`, so `setInCall(true)` in `handleJoin` re-creates the peer connection after the local tracks were added | any successful join: the two local tracks end up on a discarded connection | set up the connection once per session and keep it across the join | not executed; follows from React re-running an effect whose dependency changed | SessionRoom.JoinLeavesTracksUnsent | SessionRoom.JoinKeepingPeerSendsTracks |
| server/controllers/exchangeController.js:236-244 | the guard refuses only a non-requester on a pending exchange, so any user may delete a non-pending exchange | a stranger deleting an active exchange of two other users | only a party may delete; the requester alone while pending | not executed | ExchangeController.StrangerDeletesActiveExchange | ExchangeController.MayDeleteAsIntendedIff |
| server/controllers/reviewController.js:65 | the rating is recomputed with the string `revieweeId`, which an aggregate `$match` does not cast to an object id | any accepted review: the reviewee's rating becomes 0 with count 0 | recompute with the reviewee's object id, as update and delete do | not executed; relies on Mongoose not casting aggregate pipelines | ReviewController.CreatedReviewNotCounted | ReviewController.CreatedReviewCounted |

=== FILE: availability.dfy ===
/**
 * Bookable slots from a user's weekly availability: "HH:MM" clock text, an algebra of
 * half-open millisecond intervals (merge, subtract), per-date exceptions, slot
 * generation and the filtering of slots against the user's scheduled sessions.
 *
 * An interval `Interval(s, e)` stands for the points `s <= x < e`; the properties of
 * merge, subtract and the exceptions are stated point by point through `InAny`.
 * Each operation that loops in the source is a method proved equal to a specification
 * function, and the point-set properties are lemmas about those functions.
 */
module Availability {
  import opened Common
  import opened JsString
  import opened Sorting

  const MinuteMs: int := 60 * 1000
  const DayMs: int := 24 * 60 * 60 * 1000

  function Max(a: int, b: int): int { if a >= b then a else b }
  function Min(a: int, b: int): int { if a <= b then a else b }

  // ---------------------------------------------------------------- clock text

  /** `pad`: a leading zero below ten. */
  function Pad(n: int): (r: string)
    ensures n >= 0 ==> |r| >= 2 && (forall i :: 0 <= i < |r| ==> IsDigit(r[i])) && DigitsValue(r) == n
    ensures n >= 0 ==> (r[0] == '0' <==> n < 10)
    ensures 0 <= n < 100 ==> |r| == 2
  {
    if n < 10 then
      (if n >= 0 then DigitsLeadingZero(NatToString(n)); DigitsOfNat(n); "0" + IntToString(n)
       else "0" + IntToString(n))
    else
      DigitsOfNat(n); IntToString(n)
  }

  /** JavaScript's `mins % 60`, whose remainder takes the sign of the dividend. */
  function RemMinutes(mins: int): (r: int)
    ensures mins >= 0 ==> 0 <= r < 60 && r == mins % 60
    ensures mins < 0 ==> -60 < r <= 0
  {
    if mins >= 0 then mins % 60 else -((-mins) % 60)
  }

  /** `toMinutes`: hours and minutes read with `parseInt` from the text around the first ':'; NaN is `None`. */
  function ToMinutes(s: string): (r: Option<int>)
    ensures ':' !in s ==> r.None?
  {
    var parts := Split(s, ':');
    if |parts| < 2 then None
    else
      match (ParseInt(parts[0]), ParseInt(parts[1]))
      case (Some(h), Some(m)) => Some(h * 60 + m)
      case _ => None
  }

  /**
   * `fromMinutes`: floored hours and the remainder minutes, each padded. A minute of the
   * day is written "HH:mm": two digits, a ':' and two digits.
   */
  function FromMinutes(mins: int): (r: string)
    ensures 0 <= mins < 24 * 60 ==>
      && |r| == 5 && r[2] == ':'
      && IsDigit(r[0]) && IsDigit(r[1]) && IsDigit(r[3]) && IsDigit(r[4])
  {
    Pad(mins / 60) + ":" + Pad(RemMinutes(mins))
  }

  lemma NoColonInDigits(s: string)
    requires forall i :: 0 <= i < |s| ==> IsDigit(s[i])
    ensures ':' !in s
  {
  }

  lemma ParsePad(n: nat)
    ensures ParseInt(Pad(n)) == Some(n)
  {
    ParseIntDigits(Pad(n));
  }

  /** The text of a non-negative minute count splits at its one ':' into the padded hours and minutes. */
  lemma FromMinutesSplit(m: nat)
    ensures Split(FromMinutes(m), ':') == [Pad(m / 60), Pad(m % 60)]
  {
    var a, b := Pad(m / 60), Pad(m % 60);
    assert FromMinutes(m) == a + [':'] + b;
    NoColonInDigits(a);
    NoColonInDigits(b);
    SplitAt(a, ':', b);
  }

  lemma HoursAndMinutes(m: nat)
    ensures (m / 60) * 60 + m % 60 == m
  {
  }

  /** Clock text round trip: every non-negative minute count comes back from its text. */
  lemma MinutesRoundTrip(m: nat)
    ensures ToMinutes(FromMinutes(m)) == Some(m)
  {
    FromMinutesSplit(m);
    HoursAndMinutes(m);
    ToMinutesOfPads(FromMinutes(m), m / 60, m % 60, m);
  }

  lemma ToMinutesOfPads(s: string, h: nat, mm: nat, total: int)
    requires Split(s, ':') == [Pad(h), Pad(mm)] && h * 60 + mm == total
    ensures ToMinutes(s) == Some(total)
  {
    ParsePad(h);
    ParsePad(mm);
    ToMinutesOfParts(s, Pad(h), Pad(mm), h, mm, total);
  }

  /** Text splitting into two numerals reads as hours and minutes. */
  lemma ToMinutesOfParts(s: string, a: string, b: string, h: int, mm: int, total: int)
    requires Split(s, ':') == [a, b] && ParseInt(a) == Some(h) && ParseInt(b) == Some(mm) && h * 60 + mm == total
    ensures ToMinutes(s) == Some(total)
  {
    var parts := Split(s, ':');
    assert |parts| == 2 && parts[0] == a && parts[1] == b;
  }

  // ---------------------------------------------------------------- intervals as point sets

  datatype Interval = Interval(start: int, end: int)

  predicate In(x: int, iv: Interval) { iv.start <= x < iv.end }

  /** `x` lies in some interval of `ivs`. */
  predicate InAny(x: int, ivs: seq<Interval>) {
    exists iv :: iv in ivs && In(x, iv)
  }

  lemma InAnyAppend(a: seq<Interval>, b: seq<Interval>)
    ensures forall x :: InAny(x, a + b) <==> InAny(x, a) || InAny(x, b)
  {
    forall x ensures InAny(x, a + b) ==> InAny(x, a) || InAny(x, b) {
      if InAny(x, a + b) {
        var iv :| iv in a + b && In(x, iv);
      }
    }
  }

  lemma InAnyOne(iv: Interval)
    ensures forall x :: InAny(x, [iv]) <==> In(x, iv)
  {
    forall x ensures InAny(x, [iv]) <==> In(x, iv) {
      assert iv in [iv];
    }
  }

  lemma InAnySameMembers(a: seq<Interval>, b: seq<Interval>)
    requires forall iv :: iv in a <==> iv in b
    ensures forall x :: InAny(x, a) <==> InAny(x, b)
  {
    forall x ensures InAny(x, a) ==> InAny(x, b) {
      if InAny(x, a) {
        var iv :| iv in a && In(x, iv);
      }
    }
  }

  function StartOf(iv: Interval): int { iv.start }

  /** Each interval ends strictly before the next one starts. */
  predicate Separated(ivs: seq<Interval>) {
    forall k :: 0 <= k < |ivs| - 1 ==> ivs[k].end < ivs[k + 1].start
  }

  // ---------------------------------------------------------------- merge

  /** The merge loop from the current interval `cur` over the rest of the sorted list. */
  function MergeFrom(cur: Interval, rest: seq<Interval>): (r: seq<Interval>)
    ensures r != [] && r[0].start == cur.start
    decreases |rest|
  {
    if rest == [] then [cur]
    else if rest[0].start <= cur.end then MergeFrom(Interval(cur.start, Max(cur.end, rest[0].end)), rest[1..])
    else [cur] + MergeFrom(rest[0], rest[1..])
  }

  /** `mergeIntervals`: sort copies by start, then fold overlapping or touching neighbours. */
  function MergeSpec(ivs: seq<Interval>): seq<Interval> {
    if ivs == [] then []
    else
      var sorted := SortByKey(ivs, StartOf);
      MergeFrom(sorted[0], sorted[1..])
  }

  lemma {:induction false} MergeFromShape(cur: Interval, rest: seq<Interval>)
    requires SortedBy(rest, StartOf) && (rest != [] ==> cur.start <= rest[0].start)
    ensures var r := MergeFrom(cur, rest);
      && SortedBy(r, StartOf) && Separated(r)
      && forall x :: InAny(x, r) <==> In(x, cur) || InAny(x, rest)
    decreases |rest|
  {
    if rest != [] {
      var next := rest[0];
      var tail := rest[1..];
      assert rest == [next] + tail;
      assert SortedBy(tail, StartOf);
      InAnyAppend([next], tail);
      InAnyOne(next);
      if next.start <= cur.end {
        var merged := Interval(cur.start, Max(cur.end, next.end));
        MergeFromShape(merged, tail);
        assert forall x :: In(x, merged) <==> In(x, cur) || In(x, next);
      } else {
        MergeFromShape(next, tail);
        var r := MergeFrom(cur, rest);
        var m := MergeFrom(next, tail);
        assert r == [cur] + m;
        InAnyAppend([cur], m);
        InAnyOne(cur);
        forall i, j | 0 <= i < j < |r| ensures r[i].start <= r[j].start {
          if i == 0 && j > 1 { assert m[0].start <= m[j - 1].start; }
        }
      }
    }
  }

  /**
   * Merging gives intervals sorted by start, each ending strictly before the next starts
   * (touching intervals are joined), covering exactly the points of the input.
   */
  lemma MergeSpecShape(ivs: seq<Interval>)
    ensures ivs == [] ==> MergeSpec(ivs) == []
    ensures SortedBy(MergeSpec(ivs), StartOf) && Separated(MergeSpec(ivs))
    ensures forall x :: InAny(x, MergeSpec(ivs)) <==> InAny(x, ivs)
  {
    if ivs != [] {
      var sorted := SortByKey(ivs, StartOf);
      assert sorted == [sorted[0]] + sorted[1..];
      MergeFromShape(sorted[0], sorted[1..]);
      InAnyAppend([sorted[0]], sorted[1..]);
      InAnyOne(sorted[0]);
      SortByKeyMembers(ivs, StartOf);
      InAnySameMembers(sorted, ivs);
    }
  }

  /** `mergeIntervals` as written: a loop over a sorted copy, extending or pushing the current interval. */
  method MergeIntervals(ivs: seq<Interval>) returns (r: seq<Interval>)
    ensures r == MergeSpec(ivs)
    ensures SortedBy(r, StartOf) && Separated(r)
    ensures forall x :: InAny(x, r) <==> InAny(x, ivs)
  {
    if |ivs| == 0 {
      return [];
    }
    var sorted := SortByKey(ivs, StartOf);
    r := FoldSorted(sorted);
    MergeSpecShape(ivs);
  }

  /** The loop of `mergeIntervals` over the sorted copy: extend the current interval or push it. */
  method FoldSorted(sorted: seq<Interval>) returns (r: seq<Interval>)
    requires sorted != []
    ensures r == MergeFrom(sorted[0], sorted[1..])
  {
    var result: seq<Interval> := [];
    var cur := sorted[0];
    var i := 1;
    while i < |sorted|
      invariant 1 <= i <= |sorted|
      invariant result + MergeFrom(cur, sorted[i..]) == MergeFrom(sorted[0], sorted[1..])
    {
      var next := sorted[i];
      assert sorted[i..] == [next] + sorted[i + 1..];
      if next.start <= cur.end {
        cur := Interval(cur.start, Max(cur.end, next.end));
      } else {
        AppendAssoc(result, [cur], MergeFrom(next, sorted[i + 1..]));
        result := result + [cur];
        cur := next;
      }
      i := i + 1;
    }
    assert sorted[i..] == [];
    r := result + [cur];
  }

  // ---------------------------------------------------------------- subtract

  /** What is left of `b` once `e` is taken out: nothing, one piece or two. */
  function Cut(b: Interval, e: Interval): (r: seq<Interval>)
    ensures |r| <= 2
    ensures forall iv :: iv in r ==> b.start <= iv.start && iv.end <= b.end
  {
    if e.end <= b.start || e.start >= b.end then [b]
    else
      (if e.start > b.start then [Interval(b.start, Min(e.start, b.end))] else [])
      + (if e.end < b.end then [Interval(Max(e.end, b.start), b.end)] else [])
  }

  /** Cutting keeps exactly the points of `b` outside `e`, even when `e` is inverted or empty. */
  lemma CutPoints(b: Interval, e: Interval)
    ensures forall x :: InAny(x, Cut(b, e)) <==> In(x, b) && !In(x, e)
  {
    var r := Cut(b, e);
    forall x ensures InAny(x, r) <==> In(x, b) && !In(x, e) {
      if InAny(x, r) {
        var iv :| iv in r && In(x, iv);
      }
      if In(x, b) && !In(x, e) {
        if e.end <= b.start || e.start >= b.end {
          assert b in r;
        } else if x < e.start {
          assert Interval(b.start, Min(e.start, b.end)) in r;
        } else {
          assert Interval(Max(e.end, b.start), b.end) in r;
        }
      }
    }
  }

  /** One removal applied to every interval of `bs`, in order. */
  function CutAll(bs: seq<Interval>, e: Interval): seq<Interval> {
    if bs == [] then [] else CutAll(bs[..|bs| - 1], e) + Cut(bs[|bs| - 1], e)
  }

  /** `subtractIntervals`: the removals applied one after the other. */
  function SubtractSpec(base: seq<Interval>, rems: seq<Interval>): seq<Interval> {
    if rems == [] then base else CutAll(SubtractSpec(base, rems[..|rems| - 1]), rems[|rems| - 1])
  }

  lemma {:induction false} CutAllPoints(bs: seq<Interval>, e: Interval)
    ensures forall x :: InAny(x, CutAll(bs, e)) <==> InAny(x, bs) && !In(x, e)
  {
    if bs != [] {
      var init := bs[..|bs| - 1];
      var last := bs[|bs| - 1];
      CutAllPoints(init, e);
      CutPoints(last, e);
      InAnyAppend(CutAll(init, e), Cut(last, e));
      assert bs == init + [last];
      InAnyAppend(init, [last]);
      InAnyOne(last);
    }
  }

  /**
   * Subtracting keeps exactly the points of the base that lie in no removal; with no
   * removal the base comes back unchanged and an empty base gives nothing.
   */
  lemma {:induction false} SubtractPoints(base: seq<Interval>, rems: seq<Interval>)
    ensures forall x :: InAny(x, SubtractSpec(base, rems)) <==> InAny(x, base) && !InAny(x, rems)
    ensures base == [] ==> SubtractSpec(base, rems) == []
  {
    if rems != [] {
      var init := rems[..|rems| - 1];
      var last := rems[|rems| - 1];
      SubtractPoints(base, init);
      CutAllPoints(SubtractSpec(base, init), last);
      assert rems == init + [last];
      InAnyAppend(init, [last]);
      InAnyOne(last);
      if base == [] {
        assert CutAll([], last) == [];
      }
    }
  }

  /** The inner loop of `subtractIntervals`: every current interval split around one removal. */
  method CutEach(bs: seq<Interval>, rem: Interval) returns (next: seq<Interval>)
    ensures next == CutAll(bs, rem)
  {
    next := [];
    for j := 0 to |bs|
      invariant next == CutAll(bs[..j], rem)
    {
      assert bs[..j + 1][..j] == bs[..j];
      var b := bs[j];
      if rem.end <= b.start || rem.start >= b.end {
        next := next + [b];
      } else {
        var before := next;
        if rem.start > b.start {
          next := next + [Interval(b.start, Min(rem.start, b.end))];
        }
        if rem.end < b.end {
          next := next + [Interval(Max(rem.end, b.start), b.end)];
        }
        assert next == before + Cut(b, rem);
      }
    }
    assert bs[..|bs|] == bs;
  }

  /** `subtractIntervals` as written: for each removal, every current interval is split around it. */
  method SubtractIntervals(base: seq<Interval>, rems: seq<Interval>) returns (r: seq<Interval>)
    ensures r == SubtractSpec(base, rems)
    ensures forall x :: InAny(x, r) <==> InAny(x, base) && !InAny(x, rems)
  {
    SubtractPoints(base, rems);
    if |base| == 0 {
      return [];
    }
    if |rems| == 0 {
      return base;
    }
    var result := base;
    for i := 0 to |rems|
      invariant result == SubtractSpec(base, rems[..i])
    {
      assert rems[..i + 1][..i] == rems[..i];
      result := CutEach(result, rems[i]);
    }
    assert rems[..|rems|] == rems;
    r := result;
  }

  // ---------------------------------------------------------------- the weekly schedule

  /** A clock window of a rule or an exception, in minutes after midnight UTC. */
  datatype Window = Window(startMin: int, endMin: int)

  /** A weekly rule: `day` is 0 for Sunday up to 6 for Saturday. */
  datatype Rule = Rule(day: int, windows: seq<Window>)

  datatype ExceptionKind = Available | Unavailable

  /** An exception for one date; `date` is a day index, the number of days since 1970-01-01. */
  datatype DateException = DateException(date: int, kind: ExceptionKind, windows: seq<Window>)

  /** A user's availability document. */
  datatype Schedule = Schedule(rules: seq<Rule>, exceptions: seq<DateException>)

  /** `getUTCDay` of day index `d`; 1970-01-01 was a Thursday. */
  function Weekday(d: int): (w: int)
    ensures 0 <= w < 7
  {
    (d + 4) % 7
  }

  /** A window placed on day `d`, in milliseconds. */
  function OnDay(d: int, w: Window): Interval {
    Interval(d * DayMs + w.startMin * MinuteMs, d * DayMs + w.endMin * MinuteMs)
  }

  function OnDayAll(d: int, ws: seq<Window>): (r: seq<Interval>)
    ensures |r| == |ws|
    ensures forall i :: 0 <= i < |ws| ==> r[i] == OnDay(d, ws[i])
  {
    seq(|ws|, i requires 0 <= i < |ws| => OnDay(d, ws[i]))
  }

  /** The position `rules.find(r => r.day === day)` stops at; `|rules|` when no rule matches. */
  function FindRule(rules: seq<Rule>, day: int): (k: nat)
    ensures k <= |rules|
    ensures forall j :: 0 <= j < k ==> rules[j].day != day
    ensures k < |rules| ==> rules[k].day == day
  {
    if rules == [] then 0
    else if rules[0].day == day then 0
    else 1 + FindRule(rules[1..], day)
  }

  /**
   * `buildDailyBaseIntervalsForDate`: the windows of the first rule for the day's weekday,
   * placed on that day, in order; no document, no rule or no window gives nothing.
   */
  function DailyBase(doc: Option<Schedule>, d: int): (r: seq<Interval>)
    ensures doc.None? ==> r == []
    ensures doc.Some? ==>
              var k := FindRule(doc.value.rules, Weekday(d));
              r == if k < |doc.value.rules| then OnDayAll(d, doc.value.rules[k].windows) else []
  {
    if doc.None? || doc.value.rules == [] then []
    else
      var k := FindRule(doc.value.rules, Weekday(d));
      if k == |doc.value.rules| then [] else OnDayAll(d, doc.value.rules[k].windows)
  }

  // ---------------------------------------------------------------- exceptions

  /** The exceptions for date `d`, in document order. */
  function ExceptionsOn(exs: seq<DateException>, d: int): (r: seq<DateException>)
    ensures forall e :: e in r <==> e in exs && e.date == d
    ensures |r| <= |exs|
  {
    if exs == [] then []
    else
      var last := exs[|exs| - 1];
      assert exs == exs[..|exs| - 1] + [last];
      ExceptionsOn(exs[..|exs| - 1], d) + (if last.date == d then [last] else [])
  }

  function ExceptionsFor(doc: Option<Schedule>, d: int): seq<DateException> {
    if doc.None? then [] else ExceptionsOn(doc.value.exceptions, d)
  }

  /** One exception applied: 'unavailable' subtracts its windows, 'available' merges them in. */
  function ApplyOne(r: seq<Interval>, d: int, ex: DateException): seq<Interval> {
    match ex.kind
    case Unavailable => SubtractSpec(r, OnDayAll(d, ex.windows))
    case Available => MergeSpec(r + OnDayAll(d, ex.windows))
  }

  /** The exceptions applied in order. */
  function ApplySpec(ivs: seq<Interval>, d: int, exs: seq<DateException>): seq<Interval> {
    if exs == [] then ivs else ApplyOne(ApplySpec(ivs, d, exs[..|exs| - 1]), d, exs[|exs| - 1])
  }

  predicate Covers(x: int, d: int, ex: DateException) {
    InAny(x, OnDayAll(d, ex.windows))
  }

  /**
   * The meaning of a day's exceptions at point `x`: the last exception whose windows
   * cover `x` decides (free exactly when it is 'available'); when none covers `x`, the
   * rule's intervals decide.
   */
  ghost predicate FreeAfter(x: int, ivs: seq<Interval>, d: int, exs: seq<DateException>) {
    || ((forall k :: 0 <= k < |exs| ==> !Covers(x, d, exs[k])) && InAny(x, ivs))
    || exists k :: 0 <= k < |exs| && Covers(x, d, exs[k]) && exs[k].kind == Available
                  && forall j :: k < j < |exs| ==> !Covers(x, d, exs[j])
  }

  lemma ApplyOnePoints(r: seq<Interval>, d: int, ex: DateException)
    ensures forall x :: InAny(x, ApplyOne(r, d, ex)) <==>
                          if Covers(x, d, ex) then ex.kind == Available else InAny(x, r)
  {
    var w := OnDayAll(d, ex.windows);
    if ex.kind == Unavailable {
      SubtractPoints(r, w);
    } else {
      MergeSpecShape(r + w);
      InAnyAppend(r, w);
    }
  }

  /** The last exception decides the points it covers; elsewhere the earlier ones do. */
  lemma FreeAfterLast(x: int, ivs: seq<Interval>, d: int, exs: seq<DateException>)
    requires exs != []
    ensures FreeAfter(x, ivs, d, exs) <==>
              if Covers(x, d, exs[|exs| - 1]) then exs[|exs| - 1].kind == Available
              else FreeAfter(x, ivs, d, exs[..|exs| - 1])
  {
    var n := |exs| - 1;
    if Covers(x, d, exs[n]) {
      if exs[n].kind == Unavailable {
        forall k | 0 <= k < |exs| && Covers(x, d, exs[k]) && exs[k].kind == Available
          ensures exists j :: k < j < |exs| && Covers(x, d, exs[j])
        {
          assert k != n;
        }
      }
    } else {
      FreeAfterUncovered(x, ivs, d, exs);
    }
  }

  lemma FreeAfterUncovered(x: int, ivs: seq<Interval>, d: int, exs: seq<DateException>)
    requires exs != [] && !Covers(x, d, exs[|exs| - 1])
    ensures FreeAfter(x, ivs, d, exs) <==> FreeAfter(x, ivs, d, exs[..|exs| - 1])
  {
    if FreeAfter(x, ivs, d, exs) {
      FreeAfterDropLast(x, ivs, d, exs);
    }
    if FreeAfter(x, ivs, d, exs[..|exs| - 1]) {
      FreeAfterAddLast(x, ivs, d, exs);
    }
  }

  lemma FreeAfterDropLast(x: int, ivs: seq<Interval>, d: int, exs: seq<DateException>)
    requires exs != [] && !Covers(x, d, exs[|exs| - 1]) && FreeAfter(x, ivs, d, exs)
    ensures FreeAfter(x, ivs, d, exs[..|exs| - 1])
  {
    var n := |exs| - 1;
    var init := exs[..n];
    if !((forall k :: 0 <= k < |exs| ==> !Covers(x, d, exs[k])) && InAny(x, ivs)) {
      var k :| 0 <= k < |exs| && Covers(x, d, exs[k]) && exs[k].kind == Available
               && forall j :: k < j < |exs| ==> !Covers(x, d, exs[j]);
      assert k < n;
      assert init[k] == exs[k];
      forall j | k < j < |init| ensures !Covers(x, d, init[j]) {
        assert init[j] == exs[j];
      }
    }
  }

  lemma FreeAfterAddLast(x: int, ivs: seq<Interval>, d: int, exs: seq<DateException>)
    requires exs != [] && !Covers(x, d, exs[|exs| - 1]) && FreeAfter(x, ivs, d, exs[..|exs| - 1])
    ensures FreeAfter(x, ivs, d, exs)
  {
    var n := |exs| - 1;
    var init := exs[..n];
    if !((forall k :: 0 <= k < |init| ==> !Covers(x, d, init[k])) && InAny(x, ivs)) {
      var k :| 0 <= k < |init| && Covers(x, d, init[k]) && init[k].kind == Available
               && forall j :: k < j < |init| ==> !Covers(x, d, init[j]);
      assert exs[k] == init[k];
      forall j | k < j < |exs| ensures !Covers(x, d, exs[j]) {
        if j < n { assert exs[j] == init[j]; }
      }
    } else {
      forall k | 0 <= k < |exs| ensures !Covers(x, d, exs[k]) {
        if k < n { assert exs[k] == init[k]; }
      }
    }
  }

  /** Applying the exceptions in order gives exactly the points `FreeAfter` describes. */
  lemma {:induction false} ApplyPoints(ivs: seq<Interval>, d: int, exs: seq<DateException>)
    ensures exs == [] ==> ApplySpec(ivs, d, exs) == ivs
    ensures forall x :: InAny(x, ApplySpec(ivs, d, exs)) <==> FreeAfter(x, ivs, d, exs)
  {
    if exs != [] {
      var init := exs[..|exs| - 1];
      ApplyPoints(ivs, d, init);
      ApplyOnePoints(ApplySpec(ivs, d, init), d, exs[|exs| - 1]);
      forall x ensures InAny(x, ApplySpec(ivs, d, exs)) <==> FreeAfter(x, ivs, d, exs) {
        FreeAfterLast(x, ivs, d, exs);
      }
    }
  }

  lemma ApplySpecSnoc(ivs: seq<Interval>, d: int, exs: seq<DateException>, i: nat)
    requires i < |exs|
    ensures ApplySpec(ivs, d, exs[..i + 1]) == ApplyOne(ApplySpec(ivs, d, exs[..i]), d, exs[i])
  {
    assert exs[..i + 1][..i] == exs[..i];
  }

  /** `applyExceptionsForDate` as written: a loop over the date's exceptions, rebuilding the intervals. */
  method ApplyExceptionsForDate(doc: Option<Schedule>, d: int, intervals: seq<Interval>) returns (r: seq<Interval>)
    ensures r == ApplySpec(intervals, d, ExceptionsFor(doc, d))
    ensures ExceptionsFor(doc, d) == [] ==> r == intervals
  {
    if doc.None? || |doc.value.exceptions| == 0 {
      return intervals;
    }
    var exceptions := ExceptionsOn(doc.value.exceptions, d);
    if |exceptions| == 0 {
      return intervals;
    }
    var result := intervals;
    for i := 0 to |exceptions|
      invariant result == ApplySpec(intervals, d, exceptions[..i])
    {
      ApplySpecSnoc(intervals, d, exceptions, i);
      var ex := exceptions[i];
      var exIntervals := OnDayAll(d, ex.windows);
      if ex.kind == Unavailable {
        result := SubtractIntervals(result, exIntervals);
      } else {
        result := MergeIntervals(result + exIntervals);
      }
    }
    assert exceptions[..|exceptions|] == exceptions;
    r := result;
  }

  // ---------------------------------------------------------------- slot generation

  /** The `k`-th slot of the grid that starts at `t`. */
  function SlotAt(t: int, k: nat, dur: int, step: int): Interval {
    Interval(t + k * step, t + k * step + dur)
  }

  /** `s` is a grid slot of one of `ivs` that ends inside it. */
  ghost predicate OnGrid(s: Interval, ivs: seq<Interval>, dur: int, step: int) {
    exists iv, k: nat :: iv in ivs && s == SlotAt(iv.start, k, dur, step) && s.end <= iv.end
  }

  /** The slots of one interval: starts `t, t + step, ...` for as long as the slot ends by `end`. */
  function SlotsFrom(t: int, end: int, dur: int, step: int): seq<Interval>
    requires dur > 0 && step > 0
    decreases end - t
  {
    if t + dur <= end then [Interval(t, t + dur)] + SlotsFrom(t + step, end, dur, step) else []
  }

  /**
   * The slots of one interval are exactly the grid slots `t + k * step` that end by `end`,
   * in order of `k`, each `dur` long.
   */
  lemma {:induction false} SlotsFromShape(t: int, end: int, dur: int, step: int)
    requires dur > 0 && step > 0
    ensures var r := SlotsFrom(t, end, dur, step);
      && (forall k: nat :: k < |r| ==> r[k] == SlotAt(t, k, dur, step))
      && (forall k: nat :: SlotAt(t, k, dur, step).end <= end <==> k < |r|)
    decreases end - t
  {
    var r := SlotsFrom(t, end, dur, step);
    if t + dur <= end {
      var rest := SlotsFrom(t + step, end, dur, step);
      SlotsFromShape(t + step, end, dur, step);
      forall k: nat | k < |r| ensures r[k] == SlotAt(t, k, dur, step) {
        if k > 0 {
          assert r[k] == rest[k - 1] == SlotAt(t + step, k - 1, dur, step);
          assert (k - 1) * step + step == k * step;
        }
      }
      forall k: nat ensures SlotAt(t, k, dur, step).end <= end <==> k < |r| {
        if k > 0 {
          assert SlotAt(t, k, dur, step) == SlotAt(t + step, k - 1, dur, step) by {
            assert (k - 1) * step + step == k * step;
          }
        }
      }
    } else {
      forall k: nat ensures SlotAt(t, k, dur, step).end > end {
        assert k * step >= 0;
      }
    }
  }

  /** `generateSlotsFromIntervals` with durations already in ms: the intervals' slots, interval by interval. */
  function GenerateSpec(ivs: seq<Interval>, dur: int, step: int): seq<Interval>
    requires dur > 0 && step > 0
  {
    if ivs == [] then []
    else GenerateSpec(ivs[..|ivs| - 1], dur, step) + SlotsFrom(ivs[|ivs| - 1].start, ivs[|ivs| - 1].end, dur, step)
  }

  /**
   * A slot is generated exactly when it is a grid slot `iv.start + k * step` of one of the
   * intervals that ends inside that interval.
   */
  lemma {:induction false} GenerateShape(ivs: seq<Interval>, dur: int, step: int)
    requires dur > 0 && step > 0
    ensures forall s :: s in GenerateSpec(ivs, dur, step) <==> OnGrid(s, ivs, dur, step)
  {
    if ivs != [] {
      var init := ivs[..|ivs| - 1];
      var last := ivs[|ivs| - 1];
      GenerateShape(init, dur, step);
      SlotsFromShape(last.start, last.end, dur, step);
      assert ivs == init + [last];
      var own := SlotsFrom(last.start, last.end, dur, step);
      forall s ensures s in GenerateSpec(ivs, dur, step) <==> OnGrid(s, ivs, dur, step) {
        if s in own {
          var k :| 0 <= k < |own| && own[k] == s;
          assert s == SlotAt(last.start, k, dur, step);
        }
        if s in GenerateSpec(init, dur, step) {
          var iv, k: nat :| iv in init && s == SlotAt(iv.start, k, dur, step) && s.end <= iv.end;
          assert iv in ivs;
        }
        if OnGrid(s, ivs, dur, step) {
          var iv, k: nat :| iv in ivs && s == SlotAt(iv.start, k, dur, step) && s.end <= iv.end;
          if iv == last {
            assert own[k] == s;
          }
        }
      }
    }
  }

  /** The inner loop of `generateSlotsFromIntervals` over one interval. */
  method SlotsOf(iv: Interval, dur: int, step: int) returns (slots: seq<Interval>)
    requires dur > 0 && step > 0
    ensures slots == SlotsFrom(iv.start, iv.end, dur, step)
  {
    slots := [];
    var t := iv.start;
    while t + dur <= iv.end
      invariant slots + SlotsFrom(t, iv.end, dur, step) == SlotsFrom(iv.start, iv.end, dur, step)
      decreases iv.end - t
    {
      slots := slots + [Interval(t, t + dur)];
      t := t + step;
    }
  }

  /** `generateSlotsFromIntervals` as written, for a positive duration and step in minutes. */
  method GenerateSlots(ivs: seq<Interval>, durationMin: int, stepMin: int) returns (slots: seq<Interval>)
    requires durationMin > 0 && stepMin > 0
    ensures slots == GenerateSpec(ivs, durationMin * MinuteMs, stepMin * MinuteMs)
  {
    var durationMs := durationMin * 60 * 1000;
    var stepMs := stepMin * 60 * 1000;
    slots := [];
    for i := 0 to |ivs|
      invariant slots == GenerateSpec(ivs[..i], durationMs, stepMs)
    {
      assert ivs[..i + 1][..i] == ivs[..i];
      var own := SlotsOf(ivs[i], durationMs, stepMs);
      slots := slots + own;
    }
    assert ivs[..|ivs|] == ivs;
  }

  // ---------------------------------------------------------------- the step

  /**
   * `stepMin || durationMin` as written: `None` is a missing or NaN step, and only 0 falls
   * back. A negative step passes through, and a positive duration with no negative step
   * gives a positive step.
   */
  function StepAsWritten(stepMin: Option<int>, durationMin: int): (step: int)
    ensures stepMin.Some? && stepMin.value < 0 ==> step < 0
    ensures step == 0 ==> durationMin == 0
    ensures durationMin > 0 && (stepMin.None? || stepMin.value >= 0) ==> step > 0
  {
    if stepMin.Some? && stepMin.value != 0 then stepMin.value else durationMin
  }

  /** The step the slot loop needs: a positive step as given, anything else falls back to the duration. */
  function SlotStep(stepMin: Option<int>, durationMin: int): (step: int)
    requires durationMin > 0
    ensures step > 0
  {
    if stepMin.Some? && stepMin.value > 0 then stepMin.value else durationMin
  }

  /** The corrected step differs from the written one exactly on a negative step. */
  lemma StepCorrection(stepMin: Option<int>, durationMin: int)
    requires durationMin > 0
    ensures SlotStep(stepMin, durationMin) == StepAsWritten(stepMin, durationMin)
            <==> stepMin.None? || stepMin.value >= 0
  {
  }

  /** The query text "-30" reaches the slot loop as a step of -30 minutes. */
  lemma NegativeQueryStep()
    ensures ParseInt("-30") == Some(-30)
    ensures StepAsWritten(ParseInt("-30"), 60) == -30
  {
    var s := "-30";
    ParseIntNegative(s);
    assert s[1..] == "30";
    assert DigitsValue("30") == 30 by {
      assert "30"[..1] == "3";
      assert "3"[..0] == "";
    }
  }

  /**
   * With a negative step the slot loop as written never stops: once one slot fits, every
   * later start `t + k * step` fits as well, so the guard holds forever.
   */
  lemma NegativeStepNeverEnds(iv: Interval, durMs: int, stepMs: int)
    requires stepMs < 0 && iv.start + durMs <= iv.end
    ensures forall k: nat :: SlotAt(iv.start, k, durMs, stepMs).end <= iv.end
  {
    forall k: nat ensures SlotAt(iv.start, k, durMs, stepMs).end <= iv.end {
      assert k * stepMs <= 0;
    }
  }

  /**
   * `isSlotAvailable` passes its duration as the step, so a duration of zero or less
   * becomes a step of zero or less and, as with a negative step, the slot loop never
   * stops on any interval of the merged availability.
   */
  lemma NonPositiveDurationNeverEnds(iv: Interval, durationMin: int)
    requires durationMin <= 0 && iv.start <= iv.end
    ensures StepAsWritten(Some(durationMin), durationMin) == durationMin
    ensures forall k: nat :: SlotAt(iv.start, k, durationMin * MinuteMs, durationMin * MinuteMs).end <= iv.end
  {
    var ms := durationMin * MinuteMs;
    assert ms <= 0;
    forall k: nat ensures SlotAt(iv.start, k, ms, ms).end <= iv.end {
      assert k * ms <= 0;
    }
  }

  // ---------------------------------------------------------------- busy sessions

  /** A scheduled session as the busy query returns it: its start in ms and its optional duration in minutes. */
  datatype BookedSession = BookedSession(scheduledAt: int, duration: Option<int>)

  /** `s.duration || 60`. */
  function SessionMinutes(s: BookedSession): int {
    if s.duration.Some? && s.duration.value != 0 then s.duration.value else 60
  }

  /**
   * `intervalsFromSessions`: one interval per session, in order, from its start for its
   * duration, and for 60 minutes when the duration is missing or zero.
   */
  function IntervalsFromSessions(ss: seq<BookedSession>): (r: seq<Interval>)
    ensures |r| == |ss|
    ensures forall i :: 0 <= i < |ss| ==> r[i].start == ss[i].scheduledAt
    ensures forall i :: 0 <= i < |ss| && (ss[i].duration.None? || ss[i].duration == Some(0)) ==>
              r[i].end == r[i].start + 60 * MinuteMs
    ensures forall i :: 0 <= i < |ss| && ss[i].duration.Some? && ss[i].duration.value != 0 ==>
              r[i].end == r[i].start + ss[i].duration.value * MinuteMs
  {
    seq(|ss|, i requires 0 <= i < |ss| =>
      Interval(ss[i].scheduledAt, ss[i].scheduledAt + SessionMinutes(ss[i]) * 60 * 1000))
  }

  /** Strict overlap of half-open spans. */
  predicate Overlaps(s: Interval, b: Interval) {
    s.end > b.start && s.start < b.end
  }

  /** For non-empty spans, strict overlap means a shared point. */
  lemma OverlapsIffSharedPoint(s: Interval, b: Interval)
    requires s.start < s.end && b.start < b.end
    ensures Overlaps(s, b) <==> exists x :: In(x, s) && In(x, b)
  {
    if Overlaps(s, b) {
      var x := Max(s.start, b.start);
      assert In(x, s) && In(x, b);
    }
  }

  predicate Clear(s: Interval, busy: seq<Interval>) {
    forall b :: b in busy ==> !Overlaps(s, b)
  }

  /** `Array.prototype.filter` on intervals. */
  function Filter(s: seq<Interval>, p: Interval -> bool): (r: seq<Interval>)
    ensures forall x :: x in r <==> x in s && p(x)
    ensures |r| <= |s|
  {
    if s == [] then []
    else
      assert s == s[..|s| - 1] + [s[|s| - 1]];
      Filter(s[..|s| - 1], p) + (if p(s[|s| - 1]) then [s[|s| - 1]] else [])
  }

  lemma FilterSnoc(s: seq<Interval>, x: Interval, p: Interval -> bool)
    ensures Filter(s + [x], p) == Filter(s, p) + (if p(x) then [x] else [])
  {
    assert (s + [x])[..|s|] == s;
  }

  /** Filtering keeps the input order: it distributes over concatenation. */
  lemma {:induction false} FilterAppend(a: seq<Interval>, b: seq<Interval>, p: Interval -> bool)
    ensures Filter(a + b, p) == Filter(a, p) + Filter(b, p)
  {
    if b != [] {
      var init := b[..|b| - 1];
      var last := b[|b| - 1];
      var tail := if p(last) then [last] else [];
      assert b == init + [last];
      assert a + b == (a + init) + [last];
      FilterAppend(a, init, p);
      FilterSnoc(a + init, last, p);
      FilterSnoc(init, last, p);
      AppendAssoc(Filter(a, p), Filter(init, p), tail);
    } else {
      assert a + b == a;
    }
  }

  /**
   * `filterSlotsAgainstBusy`: with no busy interval the slots come back unchanged;
   * otherwise exactly the slots that overlap no busy interval are kept, in order.
   */
  function FilterFree(slots: seq<Interval>, busy: seq<Interval>): (r: seq<Interval>)
    ensures busy == [] ==> r == slots
    ensures forall s :: s in r <==> s in slots && Clear(s, busy)
  {
    if busy == [] then slots else Filter(slots, (s: Interval) => Clear(s, busy))
  }

  // ---------------------------------------------------------------- bookable slots

  /** One day's availability: the rule's windows with the day's exceptions applied. */
  function DayIntervals(doc: Option<Schedule>, d: int): seq<Interval> {
    ApplySpec(DailyBase(doc, d), d, ExceptionsFor(doc, d))
  }

  /** The day loop of `computeBookableSlots`: days `d0` to `d1` inclusive, in order. */
  function AllDays(doc: Option<Schedule>, d0: int, d1: int): seq<Interval>
    decreases d1 - d0 + 1
  {
    if d1 < d0 then [] else AllDays(doc, d0, d1 - 1) + DayIntervals(doc, d1)
  }

  lemma DayIntervalsStep(doc: Option<Schedule>, d0: int, d: int, before: seq<Interval>, day: seq<Interval>)
    requires d0 <= d && before == AllDays(doc, d0, d - 1)
    requires day == ApplySpec(DailyBase(doc, d), d, ExceptionsFor(doc, d))
    ensures before + day == AllDays(doc, d0, d)
  {
  }

  /** A point is available over a range of days exactly when it is free on one of those days. */
  lemma {:induction false} AllDaysPoints(doc: Option<Schedule>, d0: int, d1: int)
    ensures forall x :: InAny(x, AllDays(doc, d0, d1)) <==>
              exists d :: d0 <= d <= d1 && FreeAfter(x, DailyBase(doc, d), d, ExceptionsFor(doc, d))
    decreases d1 - d0 + 1
  {
    if d1 >= d0 {
      AllDaysPoints(doc, d0, d1 - 1);
      ApplyPoints(DailyBase(doc, d1), d1, ExceptionsFor(doc, d1));
      forall x ensures InAny(x, AllDays(doc, d0, d1)) <==>
                       exists d :: d0 <= d <= d1 && FreeAfter(x, DailyBase(doc, d), d, ExceptionsFor(doc, d))
      {
        AllDaysPointStep(doc, d0, d1, x);
      }
    }
  }

  /** One more day: a point is in the longer range exactly when it was before or is free on the new day. */
  lemma AllDaysPointStep(doc: Option<Schedule>, d0: int, d1: int, x: int)
    requires d0 <= d1
    requires InAny(x, AllDays(doc, d0, d1 - 1)) <==>
             exists d :: d0 <= d <= d1 - 1 && FreeAfter(x, DailyBase(doc, d), d, ExceptionsFor(doc, d))
    requires InAny(x, DayIntervals(doc, d1)) <==> FreeAfter(x, DailyBase(doc, d1), d1, ExceptionsFor(doc, d1))
    ensures InAny(x, AllDays(doc, d0, d1)) <==>
            exists d :: d0 <= d <= d1 && FreeAfter(x, DailyBase(doc, d), d, ExceptionsFor(doc, d))
  {
    InAnyAppend(AllDays(doc, d0, d1 - 1), DayIntervals(doc, d1));
    if exists d :: d0 <= d <= d1 && FreeAfter(x, DailyBase(doc, d), d, ExceptionsFor(doc, d)) {
      var d :| d0 <= d <= d1 && FreeAfter(x, DailyBase(doc, d), d, ExceptionsFor(doc, d));
      if d < d1 {
        assert exists e :: d0 <= e <= d1 - 1 && FreeAfter(x, DailyBase(doc, e), e, ExceptionsFor(doc, e));
      }
    }
  }

  /** `start` and `end` taken back to midnight UTC, as day indexes. */
  function DayOf(ms: int): int { ms / DayMs }

  /** The slot grid of `computeBookableSlots`: merged availability of the days from `start` to `end`. */
  function MergedDays(doc: Option<Schedule>, start: int, end: int): seq<Interval> {
    MergeSpec(AllDays(doc, DayOf(start), DayOf(end)))
  }

  lemma PositiveMs(m: int)
    requires m > 0
    ensures m * MinuteMs > 0
  {
  }

  /** What `computeBookableSlots` returns, with the corrected step. */
  function BookableSlots(doc: Option<Schedule>, start: int, end: int, durationMin: int,
                         stepMin: Option<int>, sessions: seq<BookedSession>): seq<Interval>
    requires durationMin > 0
  {
    PositiveMs(durationMin);
    PositiveMs(SlotStep(stepMin, durationMin));
    var slots := GenerateSpec(MergedDays(doc, start, end), durationMin * MinuteMs, SlotStep(stepMin, durationMin) * MinuteMs);
    FilterFree(Filter(slots, (s: Interval) => s.start >= start && s.end <= end), IntervalsFromSessions(sessions))
  }

  /**
   * Bookable slots are exactly the grid slots of the merged availability that lie within
   * `[start, end]` and overlap no busy session.
   */
  lemma BookableMembers(doc: Option<Schedule>, start: int, end: int, durationMin: int,
                        stepMin: Option<int>, sessions: seq<BookedSession>)
    requires durationMin > 0
    ensures var merged := MergedDays(doc, start, end);
            var step := SlotStep(stepMin, durationMin) * MinuteMs;
            forall s :: s in BookableSlots(doc, start, end, durationMin, stepMin, sessions) <==>
              && OnGrid(s, merged, durationMin * MinuteMs, step)
              && start <= s.start && s.end <= end
              && Clear(s, IntervalsFromSessions(sessions))
  {
    var merged := MergedDays(doc, start, end);
    var dur := durationMin * MinuteMs;
    var step := SlotStep(stepMin, durationMin) * MinuteMs;
    var slots := GenerateSpec(merged, dur, step);
    var windowed := Filter(slots, (s: Interval) => s.start >= start && s.end <= end);
    var busy := IntervalsFromSessions(sessions);
    assert BookableSlots(doc, start, end, durationMin, stepMin, sessions) == FilterFree(windowed, busy);
    GenerateShape(merged, dur, step);
    forall s ensures s in FilterFree(windowed, busy) <==>
                     OnGrid(s, merged, dur, step) && start <= s.start && s.end <= end && Clear(s, busy)
    {
      assert s in windowed <==> s in slots && s.start >= start && s.end <= end;
    }
  }

  /**
   * A grid slot of the merged availability of days `d0` to `d1` is `dur` long and each of
   * its points is available on one of those days, after that day's exceptions.
   */
  lemma GridSlotAvailable(doc: Option<Schedule>, d0: int, d1: int, dur: int, step: int, s: Interval, x: int)
    requires step > 0
    requires OnGrid(s, MergeSpec(AllDays(doc, d0, d1)), dur, step)
    ensures s.end - s.start == dur
    ensures In(x, s) ==> exists d :: d0 <= d <= d1 && FreeAfter(x, DailyBase(doc, d), d, ExceptionsFor(doc, d))
  {
    var iv, k: nat :| iv in MergeSpec(AllDays(doc, d0, d1)) && s == SlotAt(iv.start, k, dur, step) && s.end <= iv.end;
    SlotAfterStart(iv.start, k, dur, step);
    if In(x, s) {
      MergedPointFree(doc, d0, d1, x, iv);
    }
  }

  lemma SlotAfterStart(t: int, k: nat, dur: int, step: int)
    requires step > 0
    ensures t <= SlotAt(t, k, dur, step).start
  {
    assert k * step >= 0;
  }

  lemma MergedPointFree(doc: Option<Schedule>, d0: int, d1: int, x: int, iv: Interval)
    requires iv in MergeSpec(AllDays(doc, d0, d1)) && In(x, iv)
    ensures exists d :: d0 <= d <= d1 && FreeAfter(x, DailyBase(doc, d), d, ExceptionsFor(doc, d))
  {
    var all := AllDays(doc, d0, d1);
    assert InAny(x, MergeSpec(all));
    MergeSpecShape(all);
    assert InAny(x, all);
    AllDaysPoints(doc, d0, d1);
  }

  /** The day loop of `computeBookableSlots`. */
  method CollectDays(doc: Option<Schedule>, d0: int, d1: int) returns (all: seq<Interval>)
    ensures all == AllDays(doc, d0, d1)
  {
    all := [];
    var d := d0;
    while d <= d1
      invariant d == d0 || d0 < d <= d1 + 1
      invariant all == AllDays(doc, d0, d - 1)
      decreases d1 - d
    {
      var intervals := DailyBase(doc, d);
      intervals := ApplyExceptionsForDate(doc, d, intervals);
      DayIntervalsStep(doc, d0, d, all, intervals);
      all := all + intervals;
      d := d + 1;
    }
  }

  /** `computeBookableSlots` as written, with the busy sessions passed in and the corrected step. */
  method ComputeBookableSlots(doc: Option<Schedule>, start: int, end: int, durationMin: int,
                              stepMin: Option<int>, sessions: seq<BookedSession>) returns (r: seq<Interval>)
    requires durationMin > 0
    ensures r == BookableSlots(doc, start, end, durationMin, stepMin, sessions)
  {
    var step := SlotStep(stepMin, durationMin);
    var allIntervals := CollectDays(doc, DayOf(start), DayOf(end));
    var merged := MergeIntervals(allIntervals);
    var slots := GenerateSlots(merged, durationMin, step);
    slots := Filter(slots, (s: Interval) => s.start >= start && s.end <= end);
    var busyIntervals := IntervalsFromSessions(sessions);
    r := FilterFree(slots, busyIntervals);
  }

  /** `slots.some(s => s.start.getTime() === t)`. */
  predicate HasSlotAt(slots: seq<Interval>, t: int) {
    exists s :: s in slots && s.start == t
  }

  /** The requested span: from `start` for `durationMin` minutes. */
  function Requested(start: int, durationMin: int): Interval {
    Interval(start, start + durationMin * MinuteMs)
  }

  /**
   * With the window `[start, start + duration]` and the step equal to the duration, a slot
   * starts at `start` exactly when the requested span is a grid slot of the merged
   * availability and overlaps no busy session.
   */
  lemma ExactSlotIff(doc: Option<Schedule>, start: int, durationMin: int, sessions: seq<BookedSession>)
    requires durationMin > 0
    ensures HasSlotAt(BookableSlots(doc, start, Requested(start, durationMin).end, durationMin, Some(durationMin), sessions), start)
            <==> && OnGrid(Requested(start, durationMin), MergedDays(doc, start, Requested(start, durationMin).end),
                           durationMin * MinuteMs, durationMin * MinuteMs)
                 && Clear(Requested(start, durationMin), IntervalsFromSessions(sessions))
  {
    var dur := durationMin * MinuteMs;
    var want := Requested(start, durationMin);
    var end := want.end;
    var grid := MergedDays(doc, start, end);
    var busy := IntervalsFromSessions(sessions);
    var slots := BookableSlots(doc, start, end, durationMin, Some(durationMin), sessions);
    assert dur > 0;
    assert SlotStep(Some(durationMin), durationMin) * MinuteMs == dur;
    BookableMembers(doc, start, end, durationMin, Some(durationMin), sessions);
    assert forall s :: s in slots <==> OnGrid(s, grid, dur, dur) && start <= s.start && s.end <= end && Clear(s, busy);
    if HasSlotAt(slots, start) {
      var s :| s in slots && s.start == start;
      GridSlotAvailable(doc, DayOf(start), DayOf(end), dur, dur, s, start);
      assert s == want;
      assert OnGrid(want, grid, dur, dur) && Clear(want, busy);
    }
    if OnGrid(want, grid, dur, dur) && Clear(want, busy) {
      assert want in slots;
      assert HasSlotAt(slots, start);
    }
  }

  /**
   * `isSlotAvailable`: the slots of `[start, start + duration]` with the step equal to the
   * duration, then whether one of them starts exactly at `start`.
   */
  method IsSlotAvailable(doc: Option<Schedule>, start: int, durationMin: int, sessions: seq<BookedSession>)
    returns (ok: bool)
    requires durationMin > 0
    ensures ok <==> && OnGrid(Requested(start, durationMin), MergedDays(doc, start, Requested(start, durationMin).end),
                              durationMin * MinuteMs, durationMin * MinuteMs)
                    && Clear(Requested(start, durationMin), IntervalsFromSessions(sessions))
  {
    var end := start + durationMin * 60 * 1000;
    assert end == Requested(start, durationMin).end;
    var slots := ComputeBookableSlots(doc, start, end, durationMin, Some(durationMin), sessions);
    ok := HasSlotAt(slots, start);
    ExactSlotIff(doc, start, durationMin, sessions);
  }

  /**
   * `isSlotAvailable` with a non-positive duration refused up front, which as written
   * never returns (`NonPositiveDurationNeverEnds`); a positive duration is checked as before.
   */
  method IsSlotAvailableChecked(doc: Option<Schedule>, start: int, durationMin: int, sessions: seq<BookedSession>)
    returns (ok: bool)
    ensures durationMin <= 0 ==> !ok
    ensures durationMin > 0 ==>
      (ok <==> && OnGrid(Requested(start, durationMin), MergedDays(doc, start, Requested(start, durationMin).end),
                         durationMin * MinuteMs, durationMin * MinuteMs)
               && Clear(Requested(start, durationMin), IntervalsFromSessions(sessions)))
  {
    if durationMin <= 0 {
      return false;
    }
    ok := IsSlotAvailable(doc, start, durationMin, sessions);
  }
}

=== FILE: common.dfy ===
/** Shared value types: optional values and the HTTP replies of the controllers. */
module Common {

  datatype Option<+T> = None | Some(value: T) {
    function GetOr(default: T): T {
      match this
      case Some(v) => v
      case None => default
    }
  }

  /** The HTTP status a controller answers with; the JSON body is not modelled. */
  datatype Reply = Ok | Created | BadRequest | Forbidden | NotFound | ServerError {
    function Code(): (c: int)
      ensures 200 <= c < 600
      ensures c < 300 <==> (Ok? || Created?)
    {
      match this
      case Ok => 200
      case Created => 201
      case BadRequest => 400
      case Forbidden => 403
      case NotFound => 404
      case ServerError => 500
    }
  }

  /** No element occurs twice: the shape of a JavaScript Set kept as its insertion-ordered list. */
  predicate NoDup<T(==)>(s: seq<T>) {
    forall i, j :: 0 <= i < j < |s| ==> s[i] != s[j]
  }

  /** Set.prototype.delete on the insertion-ordered list. */
  function Without<T(==,!new)>(s: seq<T>, x: T): (r: seq<T>)
    ensures forall y :: y in r <==> y in s && y != x
    ensures NoDup(s) ==> NoDup(r)
    ensures x !in s ==> r == s
    ensures |r| <= |s|
    ensures NoDup(s) && x in s ==> |r| == |s| - 1
  {
    if s == [] then []
    else if s[0] == x then Without(s[1..], x)
    else
      var rest := Without(s[1..], x);
      assert NoDup(s) ==> s[0] !in s[1..];
      [s[0]] + rest
  }

  /** Set.prototype.add on the insertion-ordered list: a new element goes to the end. */
  function With<T(==,!new)>(s: seq<T>, x: T): (r: seq<T>)
    ensures forall y :: y in r <==> y in s || y == x
    ensures NoDup(s) ==> NoDup(r)
    ensures x in s ==> r == s
    ensures x !in s ==> r == s + [x]
  {
    if x in s then s else s + [x]
  }

  /** Regrouping a concatenation, for loops that append to an accumulator. */
  lemma AppendAssoc<T>(a: seq<T>, b: seq<T>, c: seq<T>)
    ensures (a + b) + c == a + (b + c)
  {
  }
}

=== FILE: exchange_controller.dfy ===
/**
 * The exchange handlers: a request between two users, its status changes, completion and
 * deletion. The caller is the authenticated user; `now` is the clock in milliseconds.
 */
module ExchangeController {
  import opened Common
  import opened Store

  /** Statuses under which a pair of users already has an exchange going. */
  const OpenStatuses: set<string> := {"pending", "accepted", "active"}

  const WeekMs := 7 * 24 * 60 * 60 * 1000

  /** The exchange is between `a` and `b`, in either direction. */
  predicate Between(e: Exchange, a: Id, b: Id) {
    (e.requester == a && e.recipient == b) || (e.requester == b && e.recipient == a)
  }

  /** The duplicate guard of `createExchange`. */
  predicate HasOpenExchange(exchanges: map<Id, Exchange>, a: Id, b: Id) {
    exists id :: id in exchanges && Between(exchanges[id], a, b) && exchanges[id].status in OpenStatuses
  }

  // ---------------------------------------------------------------- create

  /** The request body; absent fields take the schema's defaults. */
  datatype ExchangeRequest = ExchangeRequest(
    recipientId: Id,
    requesterSkill: SkillRef,
    recipientSkill: SkillRef,
    duration: Option<int>,
    frequency: Option<string>,
    preferredMeetingType: Option<string>,
    notes: Option<string>)

  /** The stored request: the caller asks, the named user receives, nothing has happened yet. */
  function NewExchange(caller: Id, req: ExchangeRequest): (e: Exchange)
    ensures e.requester == caller && e.recipient == req.recipientId
    ensures e.requesterSkill == req.requesterSkill && e.recipientSkill == req.recipientSkill
    ensures e.status == "pending" && e.progress == Progress(0, 0)
    ensures e.startDate.None? && e.endDate.None?
    ensures req.duration.None? ==> e.duration == 4
  {
    Exchange(
      caller, req.recipientId, req.requesterSkill, req.recipientSkill, "pending",
      req.duration.GetOr(4), req.frequency.GetOr("weekly"), req.preferredMeetingType.GetOr("virtual"),
      req.notes, Progress(0, 0), None, None)
  }

  /** Once a request is stored, the same pair has an open exchange, whoever asks next. */
  lemma CreatedExchangeBlocksRepeat(exchanges: map<Id, Exchange>, newId: Id, caller: Id, req: ExchangeRequest)
    ensures HasOpenExchange(exchanges[newId := NewExchange(caller, req)], caller, req.recipientId)
    ensures HasOpenExchange(exchanges[newId := NewExchange(caller, req)], req.recipientId, caller)
  {
    var after := exchanges[newId := NewExchange(caller, req)];
    assert newId in after && Between(after[newId], caller, req.recipientId) && after[newId].status in OpenStatuses;
    assert Between(after[newId], req.recipientId, caller);
  }

  /**
   * `createExchange`: 404 for an unknown recipient, 400 while the pair has an open exchange in
   * either direction, otherwise the request is stored under a fresh id. The e-mail to the
   * recipient is left out; its failure does not change the reply.
   */
  method CreateExchange(db: Db, caller: Id, req: ExchangeRequest, newId: Id) returns (reply: Reply)
    requires newId !in db.exchanges
    modifies db
    ensures req.recipientId !in old(db.users) ==> reply == NotFound && db.exchanges == old(db.exchanges)
    ensures req.recipientId in old(db.users) && HasOpenExchange(old(db.exchanges), caller, req.recipientId) ==>
      reply == BadRequest && db.exchanges == old(db.exchanges)
    ensures req.recipientId in old(db.users) && !HasOpenExchange(old(db.exchanges), caller, req.recipientId) ==>
      reply == Created && db.exchanges == old(db.exchanges)[newId := NewExchange(caller, req)]
    ensures db.users == old(db.users) && db.sessions == old(db.sessions) && db.reviews == old(db.reviews)
  {
    if req.recipientId !in db.users {
      return NotFound;
    }
    var existing := exists id :: id in db.exchanges && Between(db.exchanges[id], caller, req.recipientId)
                                 && db.exchanges[id].status in OpenStatuses;
    if existing {
      return BadRequest;
    }
    db.exchanges := db.exchanges[newId := NewExchange(caller, req)];
    reply := Created;
  }

  // ---------------------------------------------------------------- status

  /** The two authorisation checks of `updateExchangeStatus`. */
  predicate MaySetStatus(e: Exchange, caller: Id, status: string) {
    && !((status == "accepted" || status == "rejected") && e.recipient != caller)
    && !(status == "cancelled" && e.requester != caller && e.recipient != caller)
  }

  /**
   * Only the recipient accepts or rejects, either party cancels, any other status passes
   * both checks, and the exchange's current status plays no part.
   */
  lemma MaySetStatusIff(e: Exchange, caller: Id, status: string, current: string)
    ensures (status == "accepted" || status == "rejected") ==> (MaySetStatus(e, caller, status) <==> caller == e.recipient)
    ensures status == "cancelled" ==> (MaySetStatus(e, caller, status) <==> IsParty(e, caller))
    ensures status !in {"accepted", "rejected", "cancelled"} ==> MaySetStatus(e, caller, status)
    ensures MaySetStatus(e.(status := current), caller, status) == MaySetStatus(e, caller, status)
  {
  }

  /** The exchange after the status change: accepting starts it for `duration` weeks, any other status is stored as given. */
  function WithStatus(e: Exchange, status: string, now: int): (r: Exchange)
    ensures status == "accepted" ==> r.status == "active" && r.startDate == Some(now) && r.endDate == Some(now + e.duration * WeekMs)
    ensures status != "accepted" ==> r.status == status && r.startDate == e.startDate && r.endDate == e.endDate
    ensures r.(status := e.status, startDate := e.startDate, endDate := e.endDate) == e
  {
    if status == "accepted" then
      e.(status := "active", startDate := Some(now), endDate := Some(now + e.duration * WeekMs))
    else
      e.(status := status)
  }

  /** 'accepted' is never stored, and an accepted exchange of 1 to 52 weeks ends 1 to 52 weeks after it starts. */
  lemma AcceptedBecomesActive(e: Exchange, status: string, now: int)
    ensures WithStatus(e, status, now).status != "accepted"
    ensures status == "accepted" && 1 <= e.duration <= 52 ==>
      WeekMs <= WithStatus(e, status, now).endDate.value - WithStatus(e, status, now).startDate.value <= 52 * WeekMs
  {
    if status == "accepted" && 1 <= e.duration <= 52 {
      var r := WithStatus(e, status, now);
      assert r.endDate.value - r.startDate.value == e.duration * WeekMs;
    }
  }

  /** `updateExchangeStatus`: 404 for an unknown id, 403 when a check fails, otherwise the new status is saved. */
  method UpdateExchangeStatus(db: Db, caller: Id, id: Id, status: string, now: int) returns (reply: Reply)
    modifies db
    ensures id !in old(db.exchanges) ==> reply == NotFound && db.exchanges == old(db.exchanges)
    ensures id in old(db.exchanges) && !MaySetStatus(old(db.exchanges)[id], caller, status) ==>
      reply == Forbidden && db.exchanges == old(db.exchanges)
    ensures id in old(db.exchanges) && MaySetStatus(old(db.exchanges)[id], caller, status) ==>
      reply == Ok && db.exchanges == old(db.exchanges)[id := WithStatus(old(db.exchanges)[id], status, now)]
    ensures db.users == old(db.users) && db.sessions == old(db.sessions) && db.reviews == old(db.reviews)
  {
    if id !in db.exchanges {
      return NotFound;
    }
    var exchange := db.exchanges[id];
    if (status == "accepted" || status == "rejected") && exchange.recipient != caller {
      return Forbidden;
    }
    if status == "cancelled" && exchange.requester != caller && exchange.recipient != caller {
      return Forbidden;
    }
    exchange := exchange.(status := status);
    if status == "accepted" {
      exchange := exchange.(status := "active", startDate := Some(now));
      exchange := exchange.(endDate := Some(now + exchange.duration * WeekMs));
    }
    db.exchanges := db.exchanges[id := exchange];
    reply := Ok;
  }

  // ---------------------------------------------------------------- complete and delete

  /** `completeExchange`: either party marks the exchange completed, whatever its status was. */
  method CompleteExchange(db: Db, caller: Id, id: Id) returns (reply: Reply)
    modifies db
    ensures id !in old(db.exchanges) ==> reply == NotFound && db.exchanges == old(db.exchanges)
    ensures id in old(db.exchanges) && !IsParty(old(db.exchanges)[id], caller) ==>
      reply == Forbidden && db.exchanges == old(db.exchanges)
    ensures id in old(db.exchanges) && IsParty(old(db.exchanges)[id], caller) ==>
      reply == Ok && db.exchanges == old(db.exchanges)[id := old(db.exchanges)[id].(status := "completed")]
    ensures db.users == old(db.users) && db.sessions == old(db.sessions) && db.reviews == old(db.reviews)
  {
    if id !in db.exchanges {
      return NotFound;
    }
    var exchange := db.exchanges[id];
    if exchange.requester != caller && exchange.recipient != caller {
      return Forbidden;
    }
    db.exchanges := db.exchanges[id := exchange.(status := "completed")];
    reply := Ok;
  }

  /** The check of `deleteExchange` as written: only a pending request is guarded, and only its requester passes. */
  predicate MayDelete(e: Exchange, caller: Id) {
    !(e.status == "pending" && e.requester != caller)
  }

  /** Anyone at all may delete an exchange that is no longer pending, including a user who is not a party to it. */
  lemma StrangerDeletesActiveExchange() returns (e: Exchange, stranger: Id)
    ensures e.status == "active" && !IsParty(e, stranger) && MayDelete(e, stranger)
  {
    e := Exchange("alice", "bob", SkillRef("guitar", None), SkillRef("french", None), "active", 4,
                  "weekly", "virtual", None, Progress(0, 0), Some(0), Some(4 * WeekMs));
    stranger := "carol";
  }

  /** `deleteExchange` as written. */
  method DeleteExchange(db: Db, caller: Id, id: Id) returns (reply: Reply)
    modifies db
    ensures id !in old(db.exchanges) ==> reply == NotFound && db.exchanges == old(db.exchanges)
    ensures id in old(db.exchanges) && !MayDelete(old(db.exchanges)[id], caller) ==>
      reply == Forbidden && db.exchanges == old(db.exchanges)
    ensures id in old(db.exchanges) && MayDelete(old(db.exchanges)[id], caller) ==>
      reply == Ok && db.exchanges == old(db.exchanges) - {id}
    ensures db.users == old(db.users) && db.sessions == old(db.sessions) && db.reviews == old(db.reviews)
  {
    if id !in db.exchanges {
      return NotFound;
    }
    var exchange := db.exchanges[id];
    if exchange.status == "pending" && exchange.requester != caller {
      return Forbidden;
    }
    db.exchanges := db.exchanges - {id};
    reply := Ok;
  }

  /** The check the handler evidently means: a party to the exchange, and the requester while it is pending. */
  predicate MayDeleteAsIntended(e: Exchange, caller: Id) {
    IsParty(e, caller) && MayDelete(e, caller)
  }

  /** Only a party may delete; a pending request only its requester; otherwise either party. */
  lemma MayDeleteAsIntendedIff(e: Exchange, caller: Id)
    ensures MayDeleteAsIntended(e, caller) ==> IsParty(e, caller)
    ensures e.status == "pending" ==> (MayDeleteAsIntended(e, caller) <==> caller == e.requester)
    ensures e.status != "pending" ==> (MayDeleteAsIntended(e, caller) <==> IsParty(e, caller))
  {
  }

  /** `deleteExchange` with the party check added. */
  method DeleteExchangeAsIntended(db: Db, caller: Id, id: Id) returns (reply: Reply)
    modifies db
    ensures id !in old(db.exchanges) ==> reply == NotFound && db.exchanges == old(db.exchanges)
    ensures id in old(db.exchanges) && !MayDeleteAsIntended(old(db.exchanges)[id], caller) ==>
      reply == Forbidden && db.exchanges == old(db.exchanges)
    ensures id in old(db.exchanges) && MayDeleteAsIntended(old(db.exchanges)[id], caller) ==>
      reply == Ok && db.exchanges == old(db.exchanges) - {id}
    ensures reply == Ok ==> IsParty(old(db.exchanges)[id], caller)
    ensures db.users == old(db.users) && db.sessions == old(db.sessions) && db.reviews == old(db.reviews)
  {
    if id !in db.exchanges {
      return NotFound;
    }
    var exchange := db.exchanges[id];
    if !IsParty(exchange, caller) || (exchange.status == "pending" && exchange.requester != caller) {
      return Forbidden;
    }
    db.exchanges := db.exchanges - {id};
    reply := Ok;
  }
}

=== FILE: helpers.dfy ===
/**
 * The client's display helpers: initials, truncation, capitalisation, the level and
 * status lookups, the password length rule, the avatar, `groupBy` and `sortByDate`.
 * For the helpers that start with `if (!text)`, a missing or falsy text is the empty
 * string. The avatar helper has no such guard: its name is a present text, since a
 * missing one makes the source throw.
 */
module Helpers {
  import opened Common
  import opened JsString
  import opened Sorting

  // ---------------------------------------------------------------- text

  /** The first character of every non-empty word; `n[0]` of an empty word is undefined, which `join` drops. */
  function Heads(words: seq<string>): (r: string)
    ensures |r| <= |words|
  {
    if words == [] then []
    else Heads(words[..|words| - 1]) + (if words[|words| - 1] == [] then [] else [words[|words| - 1][0]])
  }

  /** `getInitials`: the upper-cased first characters of the space-separated words, at most two. */
  function GetInitials(name: string): (r: string)
    ensures name == [] ==> r == []
    ensures |r| <= 2
    ensures forall i :: 0 <= i < |r| ==> UpperChar(r[i]) == r[i]
  {
    if name == [] then []
    else
      var heads := ToUpper(Heads(Split(name, ' ')));
      var r := Slice(heads, 0, 2);
      assert r == heads[..if |heads| < 2 then |heads| else 2];
      r
  }

  lemma HeadsTwo(a: string, b: string)
    requires a != [] && b != []
    ensures Heads([a, b]) == [a[0], b[0]]
  {
    assert [a, b][..1] == [a];
    assert [a][..0] == [];
  }

  /** A name of two words gives the two upper-cased first letters. */
  lemma InitialsOfTwoWords(first: string, last: string)
    requires first != [] && last != [] && ' ' !in first && ' ' !in last
    ensures GetInitials(first + " " + last) == [UpperChar(first[0]), UpperChar(last[0])]
  {
    SplitAt(first, ' ', last);
    assert first + " " + last == first + [' '] + last;
    assert Split(first + " " + last, ' ') == [first, last];
    HeadsTwo(first, last);
  }

  /** A single word gives its upper-cased first letter alone. */
  lemma InitialsOfOneWord(word: string)
    requires word != [] && ' ' !in word
    ensures GetInitials(word) == [UpperChar(word[0])]
  {
    assert Split(word, ' ') == [word];
    assert [word][..0] == [];
  }

  /**
   * `truncateText`: the text unchanged while it fits in `maxLength` code units, otherwise
   * its first `maxLength` code units and "..."; a negative `maxLength` slices from the end.
   */
  function TruncateText(text: string, maxLength: int): (r: string)
    ensures text == [] ==> r == []
    ensures text != [] && |text| <= maxLength ==> r == text
    ensures text != [] && 0 <= maxLength < |text| ==> r == text[..maxLength] + "..." && |r| == maxLength + 3
    ensures text != [] && maxLength < 0 && -maxLength <= |text| ==> r == text[..|text| + maxLength] + "..."
  {
    if text == [] then []
    else if |text| <= maxLength then text
    else Slice(text, 0, maxLength) + "..."
  }

  /** The default limit of `truncateText`. */
  const DefaultMaxLength := 100

  /** A truncated text is at most three code units longer than the limit and starts with the original's first `maxLength` code units. */
  lemma TruncateKeepsPrefix(text: string, maxLength: nat)
    ensures |TruncateText(text, maxLength)| <= maxLength + 3
    ensures TruncateText(text, maxLength)[..if |text| < maxLength then |text| else maxLength]
         == text[..if |text| < maxLength then |text| else maxLength]
  {
  }

  /** `capitalizeFirst`: the first code unit upper-cased, the rest and the length unchanged. */
  function CapitalizeFirst(s: string): (r: string)
    ensures |r| == |s|
    ensures s != [] ==> r[0] == UpperChar(s[0]) && r[1..] == s[1..]
  {
    if s == [] then [] else [UpperChar(s[0])] + s[1..]
  }

  lemma CapitalizeFirstIdempotent(s: string)
    ensures CapitalizeFirst(CapitalizeFirst(s)) == CapitalizeFirst(s)
  {
  }

  // ---------------------------------------------------------------- lookups

  /** `formatSkillLevel`: the display name of a known level, the level itself otherwise. */
  function FormatSkillLevel(level: string): string {
    if level == "beginner" then "Beginner"
    else if level == "intermediate" then "Intermediate"
    else if level == "advanced" then "Advanced"
    else if level == "expert" then "Expert"
    else level
  }

  const KnownLevels: set<string> := {"beginner", "intermediate", "advanced", "expert"}

  /** A known level is shown capitalised; any other text is shown as it is. */
  lemma FormatSkillLevelCapitalises(level: string)
    ensures level in KnownLevels ==> FormatSkillLevel(level) == CapitalizeFirst(level)
    ensures level !in KnownLevels ==> FormatSkillLevel(level) == level
  {
    if level == "beginner" {
      CapitalizeWord(level, "Beginner");
    } else if level == "intermediate" {
      CapitalizeWord(level, "Intermediate");
    } else if level == "advanced" {
      CapitalizeWord(level, "Advanced");
    } else if level == "expert" {
      CapitalizeWord(level, "Expert");
    }
  }

  /** A word whose display form differs from it only in an upper-cased first letter. */
  lemma CapitalizeWord(word: string, shown: string)
    requires word != [] && |shown| == |word| && 'a' <= word[0] <= 'z'
    requires shown[0] as int == word[0] as int - 32 && shown[1..] == word[1..]
    ensures CapitalizeFirst(word) == shown
  {
    assert UpperChar(word[0]) == shown[0];
  }

  const FallbackColor := "#6366f1"

  /** `getSkillLevelColor`. */
  function SkillLevelColor(level: string): string {
    if level == "beginner" then "#10b981"
    else if level == "intermediate" then "#f59e0b"
    else if level == "advanced" then "#ef4444"
    else if level == "expert" then "#8b5cf6"
    else FallbackColor
  }

  const KnownStatuses: set<string> := {"pending", "accepted", "rejected", "active", "completed", "cancelled"}

  /** `getStatusColor`. */
  function StatusColor(status: string): string {
    if status == "pending" then "#f59e0b"
    else if status == "accepted" then "#10b981"
    else if status == "rejected" then "#ef4444"
    else if status == "active" then "#3b82f6"
    else if status == "completed" then "#8b5cf6"
    else if status == "cancelled" then "#6b7280"
    else FallbackColor
  }

  /** The fallback colour appears exactly for unknown keys: no known key maps to it. */
  lemma FallbackColorIffUnknown(level: string, status: string)
    ensures SkillLevelColor(level) == FallbackColor <==> level !in KnownLevels
    ensures StatusColor(status) == FallbackColor <==> status !in KnownStatuses
  {
  }

  /** `validatePassword`: at least 6 code units. */
  function ValidatePassword(password: string): (ok: bool)
    ensures ok <==> |password| >= 6
  {
    |password| >= 6
  }

  // ---------------------------------------------------------------- avatar

  const Palette: seq<string> := [
    "#6366f1", "#8b5cf6", "#10b981", "#f59e0b", "#ef4444",
    "#3b82f6", "#ec4899", "#14b8a6", "#f97316", "#06b6d4"
  ]

  /** `generateAvatar`'s result; the colour is undefined (`None`) for an empty name, where `charCodeAt(0)` is NaN. */
  datatype Avatar = Avatar(initials: string, color: Option<string>)

  /** `generateAvatar`: the name's initials and the palette entry at the first code unit modulo 10. */
  function GenerateAvatar(name: string): (r: Avatar)
    ensures r.initials == GetInitials(name)
    ensures name == [] <==> r.color.None?
    ensures name != [] ==> r.color.value == Palette[name[0] as int % 10] && r.color.value in Palette
  {
    var initials := GetInitials(name);
    if name == [] then Avatar(initials, None)
    else
      var colorIndex := name[0] as int % |Palette|;
      Avatar(initials, Some(Palette[colorIndex]))
  }

  /** Names starting with the same code unit get the same colour. */
  lemma AvatarColorByFirstChar(a: string, b: string)
    requires a != [] && b != [] && a[0] == b[0]
    ensures GenerateAvatar(a).color == GenerateAvatar(b).color
  {
  }

  // ---------------------------------------------------------------- groupBy

  /** The elements of `a` whose key is `k`, in order. */
  function ByKey<T>(a: seq<T>, key: T -> string, k: string): seq<T> {
    if a == [] then []
    else ByKey(a[..|a| - 1], key, k) + (if key(a[|a| - 1]) == k then [a[|a| - 1]] else [])
  }

  /** The dictionary the `reduce` of `groupBy` builds, step by step. */
  function GroupSpec<T>(a: seq<T>, key: T -> string): map<string, seq<T>> {
    if a == [] then map[]
    else
      var g := GroupSpec(a[..|a| - 1], key);
      var x := a[|a| - 1];
      g[key(x) := (if key(x) in g then g[key(x)] else []) + [x]]
  }

  /** Sum of the group sizes. */
  ghost function TotalSize<T>(m: map<string, seq<T>>): nat
    decreases |m.Keys|
  {
    if m == map[] then 0
    else
      var k :| k in m;
      |m[k]| + TotalSize(m - {k})
  }

  lemma {:induction false} TotalSizeAt<T>(m: map<string, seq<T>>, k: string)
    requires k in m
    ensures TotalSize(m) == |m[k]| + TotalSize(m - {k})
    decreases |m.Keys|
  {
    var j :| j in m && TotalSize(m) == |m[j]| + TotalSize(m - {j});
    if j != k {
      var mj := m - {j};
      var mk := m - {k};
      assert |mj.Keys| < |m.Keys| by { assert mj.Keys < m.Keys; }
      TotalSizeAt(mj, k);
      assert mj - {k} == mk - {j};
      assert |mk.Keys| < |m.Keys| by { assert mk.Keys < m.Keys; }
      TotalSizeAt(mk, j);
    }
  }

  lemma TotalSizeUpdate<T>(m: map<string, seq<T>>, k: string, v: seq<T>)
    ensures TotalSize(m[k := v]) == TotalSize(m) - (if k in m then |m[k]| else 0) + |v|
  {
    var m' := m[k := v];
    TotalSizeAt(m', k);
    assert m' - {k} == m - {k};
    if k in m {
      TotalSizeAt(m, k);
    } else {
      assert m - {k} == m;
    }
  }

  /**
   * `groupBy` puts every element in the group of its key and nowhere else, keeps the
   * input order inside each group, makes no empty group, and loses or adds no element.
   */
  lemma {:induction false} GroupSpecShape<T>(a: seq<T>, key: T -> string)
    ensures forall k :: k in GroupSpec(a, key) <==> ByKey(a, key, k) != []
    ensures forall k :: k in GroupSpec(a, key) ==> GroupSpec(a, key)[k] == ByKey(a, key, k)
    ensures TotalSize(GroupSpec(a, key)) == |a|
  {
    if a != [] {
      var init := a[..|a| - 1];
      var x := a[|a| - 1];
      var g := GroupSpec(init, key);
      GroupSpecShape(init, key);
      var v := (if key(x) in g then g[key(x)] else []) + [x];
      TotalSizeUpdate(g, key(x), v);
      forall k ensures k in GroupSpec(a, key) <==> ByKey(a, key, k) != [] {
        assert ByKey(a, key, k) == ByKey(init, key, k) + (if key(x) == k then [x] else []);
      }
    } else {
      assert GroupSpec(a, key) == map[];
    }
  }

  /** `groupBy` as written: one pass, creating a group on first sight of a key and appending. */
  method GroupBy<T>(items: seq<T>, key: T -> string) returns (result: map<string, seq<T>>)
    ensures result == GroupSpec(items, key)
  {
    result := map[];
    for i := 0 to |items|
      invariant result == GroupSpec(items[..i], key)
    {
      assert items[..i + 1][..i] == items[..i];
      var currentValue := items[i];
      var groupKey := key(currentValue);
      if groupKey !in result {
        result := result[groupKey := []];
      }
      result := result[groupKey := result[groupKey] + [currentValue]];
    }
    assert items[..|items|] == items;
  }

  // ---------------------------------------------------------------- sortByDate

  /**
   * `sortByDate` on a copy: newest first for "desc" (the default), oldest first for any
   * other order; dates are milliseconds read by `date`.
   */
  function SortByDate<T>(items: seq<T>, date: T -> int, order: string): (r: seq<T>)
    ensures multiset(r) == multiset(items) && |r| == |items|
    ensures order == "desc" ==> forall i, j :: 0 <= i < j < |r| ==> date(r[i]) >= date(r[j])
    ensures order != "desc" ==> forall i, j :: 0 <= i < j < |r| ==> date(r[i]) <= date(r[j])
  {
    if order == "desc" then
      var r := SortByKey(items, Negated(date));
      assert forall i, j :: 0 <= i < j < |r| ==> -date(r[i]) <= -date(r[j]);
      r
    else
      SortByKey(items, date)
  }

  /** The key that sorts newest first. */
  function Negated<T>(date: T -> int): T -> int {
    (x: T) => -date(x)
  }

  lemma {:induction false} NegatedFilter<T>(s: seq<T>, date: T -> int, k: int)
    ensures KeyFilter(s, Negated(date), -k) == KeyFilter(s, date, k)
  {
    if s != [] {
      NegatedFilter(s[1..], date, k);
    }
  }

  /** The sort is stable: elements with the same date keep their relative input order, in either direction. */
  lemma SortByDateStable<T>(items: seq<T>, date: T -> int, order: string, k: int)
    ensures KeyFilter(SortByDate(items, date, order), date, k) == KeyFilter(items, date, k)
  {
    if order == "desc" {
      var r := SortByKey(items, Negated(date));
      SortByKeyStable(items, Negated(date), -k);
      NegatedFilter(r, date, k);
      NegatedFilter(items, date, k);
    } else {
      SortByKeyStable(items, date, k);
    }
  }
}

=== FILE: js_strings.dfy ===
/**
 * The JavaScript string operations the rest of the model relies on. A string is a
 * sequence of chars. A Dafny char is a Unicode scalar value; for text inside the
 * Basic Multilingual Plane, one char is one UTF-16 code unit, so `|s|` is the
 * JavaScript `length` and `s[0] as int` is `charCodeAt(0)`. A character outside that
 * plane is one char here and two code units in JavaScript.
 */
module JsString {
  import opened Common

  /** WhiteSpace and LineTerminator of the ECMAScript grammar: what `trim` and `parseInt` skip. */
  predicate IsWhitespace(c: char) {
    || c == '\U{0009}' || c == '\U{000A}' || c == '\U{000B}' || c == '\U{000C}' || c == '\U{000D}'
    || c == ' ' || c == '\U{00A0}' || c == '\U{1680}'
    || ('\U{2000}' <= c <= '\U{200A}')
    || c == '\U{2028}' || c == '\U{2029}' || c == '\U{202F}' || c == '\U{205F}'
    || c == '\U{3000}' || c == '\U{FEFF}'
  }

  predicate IsDigit(c: char) { '0' <= c <= '9' }

  function DigitValue(c: char): (d: nat)
    requires IsDigit(c)
    ensures d < 10
  {
    c as int - '0' as int
  }

  function DigitChar(d: nat): (c: char)
    requires d < 10
    ensures IsDigit(c) && DigitValue(c) == d
  {
    ('0' as int + d) as char
  }

  // ---------------------------------------------------------------- case mapping

  /** `toUpperCase` on one code unit; only the ASCII letters are mapped. */
  function UpperChar(c: char): char {
    if 'a' <= c <= 'z' then (c as int - 32) as char else c
  }

  /** `toLowerCase` on one code unit; only the ASCII letters are mapped. */
  function LowerChar(c: char): char {
    if 'A' <= c <= 'Z' then (c as int + 32) as char else c
  }

  function ToUpper(s: string): (r: string)
    ensures |r| == |s|
    ensures forall i :: 0 <= i < |s| ==> r[i] == UpperChar(s[i])
  {
    seq(|s|, i requires 0 <= i < |s| => UpperChar(s[i]))
  }

  function ToLower(s: string): (r: string)
    ensures |r| == |s|
    ensures forall i :: 0 <= i < |s| ==> r[i] == LowerChar(s[i])
  {
    seq(|s|, i requires 0 <= i < |s| => LowerChar(s[i]))
  }

  // ---------------------------------------------------------------- slice

  /** How `String.prototype.slice` turns a possibly negative position into an index. */
  function SliceIndex(i: int, len: nat): (k: nat)
    ensures k <= len
    ensures 0 <= i <= len ==> k == i
  {
    if i < 0 then (if len + i < 0 then 0 else len + i)
    else if i > len then len
    else i
  }

  /** `s.slice(start, end)`: negative positions count from the end, an empty range gives "". */
  function Slice(s: string, start: int, end: int): (r: string)
    ensures 0 <= start <= end <= |s| ==> r == s[start..end]
    ensures |r| <= |s|
  {
    var a := SliceIndex(start, |s|);
    var b := SliceIndex(end, |s|);
    if a < b then s[a..b] else ""
  }

  // ---------------------------------------------------------------- trim

  function TrimStart(s: string): (r: string)
    ensures |r| <= |s| && r == s[|s| - |r|..]
    ensures r == [] || !IsWhitespace(r[0])
    ensures forall i :: 0 <= i < |s| - |r| ==> IsWhitespace(s[i])
  {
    if s == [] || !IsWhitespace(s[0]) then s else TrimStart(s[1..])
  }

  function TrimEnd(s: string): (r: string)
    ensures |r| <= |s| && r == s[..|r|]
    ensures r == [] || !IsWhitespace(r[|r| - 1])
    ensures forall i :: |r| <= i < |s| ==> IsWhitespace(s[i])
  {
    if s == [] || !IsWhitespace(s[|s| - 1]) then s else TrimEnd(s[..|s| - 1])
  }

  /** `s.trim()`: drops the whitespace at both ends and keeps the middle untouched. */
  function Trim(s: string): (r: string)
    ensures r == [] || (!IsWhitespace(r[0]) && !IsWhitespace(r[|r| - 1]))
    ensures TrimOffset(s) + |r| <= |s| && r == s[TrimOffset(s)..TrimOffset(s) + |r|]
    ensures forall i :: 0 <= i < TrimOffset(s) ==> IsWhitespace(s[i])
    ensures forall i :: TrimOffset(s) + |r| <= i < |s| ==> IsWhitespace(s[i])
  {
    var t := TrimStart(s);
    var r := TrimEnd(t);
    assert r == s[|s| - |t|..|s| - |t| + |r|];
    r
  }

  /** How many code units `trim` drops at the front. */
  function TrimOffset(s: string): (k: nat)
    ensures k <= |s|
  {
    |s| - |TrimStart(s)|
  }

  /** Trimming gives "" exactly for the strings made only of whitespace. */
  lemma {:induction false} TrimEmptyIff(s: string)
    ensures Trim(s) == [] <==> forall i :: 0 <= i < |s| ==> IsWhitespace(s[i])
  {
    var t := TrimStart(s);
    if t != [] {
      assert !IsWhitespace(t[0]) && TrimEnd(t) != [];
      assert s[|s| - |t|] == t[0];
    } else {
      assert TrimEnd(t) == [];
    }
  }

  /** A string without whitespace at either end is its own trim. */
  lemma {:induction false} TrimOfTrimmed(s: string)
    requires s == [] || (!IsWhitespace(s[0]) && !IsWhitespace(s[|s| - 1]))
    ensures Trim(s) == s
  {
  }

  // ---------------------------------------------------------------- split

  /** `s.split(sep)` with a one-character separator: n separators give n + 1 pieces. */
  function Split(s: string, sep: char): (r: seq<string>)
    ensures |r| >= 1
    ensures forall k :: 0 <= k < |r| ==> sep !in r[k]
    ensures sep !in s ==> r == [s]
    decreases |s|
  {
    if sep !in s then [s]
    else
      var i := FirstIndex(s, sep);
      [s[..i]] + Split(s[i + 1..], sep)
  }

  function FirstIndex(s: string, c: char): (i: nat)
    requires c in s
    ensures i < |s| && s[i] == c && c !in s[..i]
  {
    if s[0] == c then 0 else 1 + FirstIndex(s[1..], c)
  }

  /** Joining the pieces of a split with the separator gives the string back. */
  function JoinWith(parts: seq<string>, sep: char): string
    requires |parts| >= 1
  {
    if |parts| == 1 then parts[0] else parts[0] + [sep] + JoinWith(parts[1..], sep)
  }

  lemma {:induction false} SplitJoin(s: string, sep: char)
    ensures JoinWith(Split(s, sep), sep) == s
    decreases |s|
  {
    if sep in s {
      var i := FirstIndex(s, sep);
      SplitJoin(s[i + 1..], sep);
      assert s == s[..i] + [sep] + s[i + 1..];
    }
  }

  /** Splitting `a + [sep] + b` where `a` holds no separator starts with `a`. */
  lemma SplitAt(a: string, sep: char, b: string)
    requires sep !in a
    ensures Split(a + [sep] + b, sep) == [a] + Split(b, sep)
  {
    var s := a + [sep] + b;
    assert s[..|a|] == a && s[|a|] == sep && s[|a| + 1..] == b;
    var i := FirstIndex(s, sep);
    assert i == |a| by {
      assert sep !in s[..|a|];
      assert sep in s[..|a| + 1];
    }
  }

  // ---------------------------------------------------------------- numbers and text

  /** The value of a string of decimal digits, read left to right. */
  function DigitsValue(s: string): (v: nat)
    requires forall i :: 0 <= i < |s| ==> IsDigit(s[i])
  {
    if s == [] then 0 else DigitsValue(s[..|s| - 1]) * 10 + DigitValue(s[|s| - 1])
  }

  /** The decimal text of a natural number, without leading zeros. */
  function NatToString(n: nat): (r: string)
    ensures |r| >= 1
    ensures forall i :: 0 <= i < |r| ==> IsDigit(r[i])
    ensures n < 10 <==> |r| == 1
    ensures r[0] == '0' <==> n == 0
  {
    if n < 10 then [DigitChar(n)] else NatToString(n / 10) + [DigitChar(n % 10)]
  }

  /** Template-literal conversion `${n}` of an integer. */
  function IntToString(n: int): (r: string)
    ensures n >= 0 ==> r == NatToString(n)
    ensures n < 0 ==> r == "-" + NatToString(-n)
  {
    if n >= 0 then NatToString(n) else "-" + NatToString(-n)
  }

  lemma {:induction false} DigitsOfNat(n: nat)
    ensures DigitsValue(NatToString(n)) == n
  {
    var s := NatToString(n);
    if n >= 10 {
      DigitsOfNat(n / 10);
      assert s[..|s| - 1] == NatToString(n / 10);
    }
  }

  /** A leading zero does not change the value of a digit string. */
  lemma {:induction false} DigitsLeadingZero(s: string)
    requires forall i :: 0 <= i < |s| ==> IsDigit(s[i])
    ensures DigitsValue("0" + s) == DigitsValue(s)
  {
    if s != [] {
      var t := "0" + s;
      assert t[..|t| - 1] == "0" + s[..|s| - 1];
      DigitsLeadingZero(s[..|s| - 1]);
    }
  }

  /** The longest prefix of digits. */
  function DigitPrefix(s: string): (r: string)
    ensures |r| <= |s| && r == s[..|r|]
    ensures forall i :: 0 <= i < |r| ==> IsDigit(r[i])
    ensures |r| == |s| || !IsDigit(s[|r|])
  {
    if s == [] || !IsDigit(s[0]) then [] else [s[0]] + DigitPrefix(s[1..])
  }

  /**
   * `parseInt(s, 10)`: leading whitespace is skipped, one sign is allowed, then the
   * longest run of digits is read; `None` stands for NaN (no digit at all).
   */
  function ParseInt(s: string): (r: Option<int>)
    ensures r.None? <==> DigitPrefix(SignFree(TrimStart(s))) == []
  {
    var t := TrimStart(s);
    var negative := t != [] && t[0] == '-';
    var digits := DigitPrefix(SignFree(t));
    if digits == [] then None
    else
      var v: int := DigitsValue(digits);
      if negative then Some(-v) else Some(v)
  }

  function SignFree(t: string): string {
    if t != [] && (t[0] == '-' || t[0] == '+') then t[1..] else t
  }

  /** On a non-empty string of digits `parseInt` gives its decimal value. */
  lemma ParseIntDigits(s: string)
    requires s != [] && forall i :: 0 <= i < |s| ==> IsDigit(s[i])
    ensures ParseInt(s) == Some(DigitsValue(s))
  {
    assert !IsWhitespace(s[0]);
    assert TrimStart(s) == s;
    assert s[0] != '-' && s[0] != '+';
    assert SignFree(s) == s;
    DigitPrefixAll(s);
  }

  /** On a '-' followed by digits `parseInt` gives the negated value of the digits. */
  lemma ParseIntNegative(s: string)
    requires |s| >= 2 && s[0] == '-' && forall i :: 1 <= i < |s| ==> IsDigit(s[i])
    ensures ParseInt(s) == Some(-(DigitsValue(s[1..]) as int))
  {
    assert !IsWhitespace(s[0]);
    assert TrimStart(s) == s;
    assert SignFree(s) == s[1..];
    DigitPrefixAll(s[1..]);
  }

  lemma {:induction false} DigitPrefixAll(s: string)
    requires forall i :: 0 <= i < |s| ==> IsDigit(s[i])
    ensures DigitPrefix(s) == s
  {
    if s != [] { DigitPrefixAll(s[1..]); }
  }

  /**
   * `Number(s)` on the strings this model meets: whitespace around is ignored, the
   * empty string is 0, a run of decimal digits is its value; anything else is NaN
   * (`None`). Fractions, exponents, hexadecimal and "Infinity" are not modelled.
   */
  function ToNumber(s: string): (r: Option<int>)
    ensures Trim(s) == [] ==> r == Some(0)
  {
    var t := Trim(s);
    if t == [] then Some(0)
    else if forall i :: 0 <= i < |t| ==> IsDigit(t[i]) then Some(DigitsValue(t))
    else None
  }

  /** A numeral of decimal digits reads as its value. */
  lemma {:induction false} ToNumberDigits(s: string)
    requires s != [] && forall i :: 0 <= i < |s| ==> IsDigit(s[i])
    ensures ToNumber(s) == Some(DigitsValue(s))
  {
    assert IsDigit(s[0]) && IsDigit(s[|s| - 1]);
    TrimOfTrimmed(s);
  }
}

=== FILE: matching.dfy ===
/**
 * The integer parts of match scoring: the level bonus, the capped skill score with its
 * list of matches, the overlap test of two clock slots, the activity score and the
 * filter-and-sort that turns scored candidates into the match list.
 */
module Matching {
  import opened Common
  import opened JsString
  import opened Sorting
  import Availability

  // ---------------------------------------------------------------- level bonus

  /** `levels[level] || 1`: the rank of a level, and 1 for a missing or unknown one. */
  function LevelRank(level: string): (r: int)
    ensures 1 <= r <= 4
  {
    if level == "beginner" then 1
    else if level == "intermediate" then 2
    else if level == "advanced" then 3
    else if level == "expert" then 4
    else 1
  }

  /**
   * `calculateLevelBonus`: 10 when the offered level is at least the desired one, 5 when
   * it is exactly one below, 0 otherwise.
   */
  function LevelBonus(desired: string, offered: string): (r: int)
    ensures r == 10 <==> LevelRank(offered) >= LevelRank(desired)
    ensures r == 5 <==> LevelRank(offered) == LevelRank(desired) - 1
    ensures r == 0 <==> LevelRank(offered) < LevelRank(desired) - 1
  {
    var d := LevelRank(desired);
    var o := LevelRank(offered);
    if o >= d then 10
    else if o == d - 1 then 5
    else 0
  }

  /** An unknown level on either side scores like "beginner". */
  lemma UnknownLevelIsBeginner(desired: string, offered: string)
    requires desired !in {"beginner", "intermediate", "advanced", "expert"}
    ensures LevelBonus(desired, offered) == LevelBonus("beginner", offered)
    ensures LevelBonus(offered, desired) == LevelBonus(offered, "beginner")
  {
  }

  /** A more advanced teacher never earns a smaller bonus. */
  lemma LevelBonusMonotone(desired: string, offered: string, better: string)
    requires LevelRank(offered) <= LevelRank(better)
    ensures LevelBonus(desired, offered) <= LevelBonus(desired, better)
  {
  }

  // ---------------------------------------------------------------- skill match

  datatype Skill = Skill(name: string, level: string)

  /** The skill lists of a user that matching reads. */
  datatype Profile = Profile(skillsOffered: seq<Skill>, skillsDesired: seq<Skill>)

  /** One entry of `matches`: the desired skill's name, both levels and the points it earned. */
  datatype MatchEntry = MatchEntry(skill: string, wants: string, offers: string, score: int)

  /** Names compared with `toLowerCase()` on both sides. */
  predicate SameName(a: string, b: string) {
    ToLower(a) == ToLower(b)
  }

  /** The position `offered.find(...)` stops at for `name`; `|offered|` when no skill matches. */
  function FindOffered(offered: seq<Skill>, name: string): (k: nat)
    ensures k <= |offered|
    ensures forall j :: 0 <= j < k ==> !SameName(offered[j].name, name)
    ensures k < |offered| ==> SameName(offered[k].name, name)
  {
    if offered == [] then 0
    else if SameName(offered[0].name, name) then 0
    else 1 + FindOffered(offered[1..], name)
  }

  /** What one desired skill contributes: nothing without a match, otherwise 20 plus the level bonus of the first match. */
  function EntryFor(d: Skill, offered: seq<Skill>): (r: Option<MatchEntry>)
    ensures r.None? <==> forall j :: 0 <= j < |offered| ==> !SameName(offered[j].name, d.name)
    ensures r.Some? ==> r.value.skill == d.name && r.value.wants == d.level
                        && r.value.score == 20 + LevelBonus(d.level, r.value.offers)
                        && exists j :: 0 <= j < |offered| && SameName(offered[j].name, d.name)
                                       && offered[j].level == r.value.offers
                                       && forall i :: 0 <= i < j ==> !SameName(offered[i].name, d.name)
  {
    var k := FindOffered(offered, d.name);
    if k == |offered| then None
    else Some(MatchEntry(d.name, d.level, offered[k].level, 20 + LevelBonus(d.level, offered[k].level)))
  }

  /** `matches` after the first loop: one entry per matched desired skill, in the desired order. */
  function Matches(desired: seq<Skill>, offered: seq<Skill>): seq<MatchEntry> {
    if desired == [] then []
    else
      var e := EntryFor(desired[|desired| - 1], offered);
      Matches(desired[..|desired| - 1], offered) + (if e.Some? then [e.value] else [])
  }

  /** The score the first loop accumulates. */
  function ForwardScore(desired: seq<Skill>, offered: seq<Skill>): int {
    if desired == [] then 0
    else
      var e := EntryFor(desired[|desired| - 1], offered);
      ForwardScore(desired[..|desired| - 1], offered) + (if e.Some? then e.value.score else 0)
  }

  /** How many of user2's desired skills user1 offers (the second loop). */
  function Mutual(desired: seq<Skill>, offered: seq<Skill>): nat {
    if desired == [] then 0
    else
      var found := FindOffered(offered, desired[|desired| - 1].name) < |offered|;
      Mutual(desired[..|desired| - 1], offered) + (if found then 1 else 0)
  }

  function SumScores(ms: seq<MatchEntry>): int {
    if ms == [] then 0 else SumScores(ms[..|ms| - 1]) + ms[|ms| - 1].score
  }

  /** The returned skill score: both loops' points, capped at 40. */
  function SkillScore(user1: Profile, user2: Profile): (r: int)
    ensures 0 <= r <= 40
  {
    ForwardScoreNonNegative(user1.skillsDesired, user2.skillsOffered);
    Min(ForwardScore(user1.skillsDesired, user2.skillsOffered) + 10 * Mutual(user2.skillsDesired, user1.skillsOffered), 40)
  }

  function Min(a: int, b: int): int { if a <= b then a else b }

  lemma {:induction false} ForwardScoreNonNegative(desired: seq<Skill>, offered: seq<Skill>)
    ensures ForwardScore(desired, offered) >= 0
  {
    if desired != [] {
      ForwardScoreNonNegative(desired[..|desired| - 1], offered);
    }
  }

  /** The first loop's score is the sum of the points recorded in `matches`. */
  lemma {:induction false} ForwardScoreIsSum(desired: seq<Skill>, offered: seq<Skill>)
    ensures ForwardScore(desired, offered) == SumScores(Matches(desired, offered))
  {
    if desired != [] {
      var init := desired[..|desired| - 1];
      ForwardScoreIsSum(init, offered);
      var e := EntryFor(desired[|desired| - 1], offered);
      if e.Some? {
        var ms := Matches(init, offered) + [e.value];
        assert Matches(desired, offered) == ms;
        assert ms[..|ms| - 1] == Matches(init, offered);
        assert ms[|ms| - 1] == e.value;
      } else {
        assert Matches(desired, offered) == Matches(init, offered);
      }
    }
  }

  /**
   * `matches` holds exactly one entry per desired skill that has a match, each worth 20,
   * 25 or 30 points, and keeps the desired order: the entries of a concatenation are the
   * entries of each part, one after the other.
   */
  lemma {:induction false} MatchesShape(desired: seq<Skill>, offered: seq<Skill>)
    ensures |Matches(desired, offered)| <= |desired|
    ensures forall e :: e in Matches(desired, offered) <==> exists d :: d in desired && EntryFor(d, offered) == Some(e)
    ensures forall e :: e in Matches(desired, offered) ==> e.score in {20, 25, 30}
  {
    if desired != [] {
      var init := desired[..|desired| - 1];
      var last := desired[|desired| - 1];
      MatchesShape(init, offered);
      assert desired == init + [last];
      forall e ensures e in Matches(desired, offered) <==> exists d :: d in desired && EntryFor(d, offered) == Some(e) {
        if exists d :: d in desired && EntryFor(d, offered) == Some(e) {
          var d :| d in desired && EntryFor(d, offered) == Some(e);
          if d != last {
            assert d in init;
          }
        }
      }
    }
  }

  lemma {:induction false} MatchesAppend(a: seq<Skill>, b: seq<Skill>, offered: seq<Skill>)
    ensures Matches(a + b, offered) == Matches(a, offered) + Matches(b, offered)
  {
    if b == [] {
      assert a + b == a;
    } else {
      var init, last := b[..|b| - 1], b[|b| - 1];
      var e := EntryFor(last, offered);
      var tail := if e.Some? then [e.value] else [];
      assert b == init + [last];
      assert a + b == (a + init) + [last];
      MatchesAppend(a, init, offered);
      MatchesSnoc(a + init, last, offered);
      MatchesSnoc(init, last, offered);
      AppendAssoc(Matches(a, offered), Matches(init, offered), tail);
    }
  }

  lemma MatchesSnoc(desired: seq<Skill>, d: Skill, offered: seq<Skill>)
    ensures var e := EntryFor(d, offered);
      Matches(desired + [d], offered) == Matches(desired, offered) + (if e.Some? then [e.value] else [])
  {
    assert (desired + [d])[..|desired|] == desired;
  }

  /** Each of user2's desired skills that user1 offers is worth 10 points before the cap. */
  lemma {:induction false} MutualCounts(desired: seq<Skill>, offered: seq<Skill>)
    ensures Mutual(desired, offered) <= |desired|
    ensures Mutual(desired, offered) == 0 <==>
              forall i, j :: 0 <= i < |desired| && 0 <= j < |offered| ==> !SameName(offered[j].name, desired[i].name)
  {
    if desired != [] {
      var init := desired[..|desired| - 1];
      MutualCounts(init, offered);
      if Mutual(desired, offered) == 0 {
        forall i, j | 0 <= i < |desired| && 0 <= j < |offered|
          ensures !SameName(offered[j].name, desired[i].name)
        {
          if i < |init| { assert desired[i] == init[i]; }
        }
      }
    }
  }

  /** One turn of the first loop, in the loop's own terms: the first offered match `k`, if any, adds its entry. */
  lemma ForwardStep(desired: seq<Skill>, offered: seq<Skill>, i: nat)
    requires i < |desired|
    ensures var d, k := desired[i], FindOffered(offered, desired[i].name);
      && ForwardScore(desired[..i + 1], offered)
         == ForwardScore(desired[..i], offered) + (if k < |offered| then 20 + LevelBonus(d.level, offered[k].level) else 0)
      && Matches(desired[..i + 1], offered)
         == Matches(desired[..i], offered)
            + (if k < |offered| then [MatchEntry(d.name, d.level, offered[k].level, 20 + LevelBonus(d.level, offered[k].level))] else [])
  {
    assert desired[..i + 1][..i] == desired[..i];
  }

  lemma MutualStep(desired: seq<Skill>, offered: seq<Skill>, i: nat)
    requires i < |desired|
    ensures Mutual(desired[..i + 1], offered)
         == Mutual(desired[..i], offered) + (if FindOffered(offered, desired[i].name) < |offered| then 1 else 0)
  {
    assert desired[..i + 1][..i] == desired[..i];
  }

  /** `calculateSkillMatch` as written: two loops accumulating the score, the first also pushing to `matches`. */
  method CalculateSkillMatch(user1: Profile, user2: Profile) returns (score: int, matches: seq<MatchEntry>)
    ensures score == SkillScore(user1, user2)
    ensures matches == Matches(user1.skillsDesired, user2.skillsOffered)
  {
    var total := 0;
    matches := [];
    var desired1 := user1.skillsDesired;
    for i := 0 to |desired1|
      invariant total == ForwardScore(desired1[..i], user2.skillsOffered)
      invariant matches == Matches(desired1[..i], user2.skillsOffered)
    {
      ForwardStep(desired1, user2.skillsOffered, i);
      var desired := desired1[i];
      var k := FindOffered(user2.skillsOffered, desired.name);
      if k < |user2.skillsOffered| {
        var offered := user2.skillsOffered[k];
        var matchScore := 20;
        var levelBonus := LevelBonus(desired.level, offered.level);
        matchScore := matchScore + levelBonus;
        total := total + matchScore;
        matches := matches + [MatchEntry(desired.name, desired.level, offered.level, matchScore)];
      }
    }
    assert desired1[..|desired1|] == desired1;
    var desired2 := user2.skillsDesired;
    for i := 0 to |desired2|
      invariant total == ForwardScore(desired1, user2.skillsOffered) + 10 * Mutual(desired2[..i], user1.skillsOffered)
    {
      MutualStep(desired2, user1.skillsOffered, i);
      if FindOffered(user1.skillsOffered, desired2[i].name) < |user1.skillsOffered| {
        total := total + 10;
      }
    }
    assert desired2[..|desired2|] == desired2;
    score := Min(total, 40);
  }

  // ---------------------------------------------------------------- clock slots

  datatype ClockSlot = ClockSlot(start: string, end: string)

  /**
   * `timeToMinutes`: the text before and after the first ':' read with `Number`; a part
   * that is not a number, or a missing minutes part, gives NaN (`None`).
   */
  function TimeToMinutes(s: string): (r: Option<int>)
    ensures ':' !in s ==> r.None?
  {
    var parts := Split(s, ':');
    if |parts| < 2 then None else ClockValue(ToNumber(parts[0]), ToNumber(parts[1]))
  }

  /** `hours * 60 + minutes`, NaN (`None`) when either is. */
  function ClockValue(hours: Option<int>, minutes: Option<int>): (r: Option<int>)
    ensures r.Some? <==> hours.Some? && minutes.Some?
  {
    if hours.Some? && minutes.Some? then Some(hours.value * 60 + minutes.value) else None
  }

  /** Two numerals joined by ':' read as that many hours and minutes. */
  lemma {:induction false} TimeToMinutesOfNumerals(hs: string, ms: string, h: nat, m: nat)
    requires hs != [] && forall i :: 0 <= i < |hs| ==> IsDigit(hs[i])
    requires ms != [] && forall i :: 0 <= i < |ms| ==> IsDigit(ms[i])
    requires DigitsValue(hs) == h && DigitsValue(ms) == m
    ensures TimeToMinutes(hs + ":" + ms) == Some(h * 60 + m)
  {
    SplitNumerals(hs, ms);
    ReadNumerals(hs, ms, h, m);
    TimeToMinutesOfReadParts(hs, ms, h, m);
  }

  lemma {:induction false} TimeToMinutesOfReadParts(hs: string, ms: string, h: int, m: int)
    requires Split(hs + ":" + ms, ':') == [hs, ms]
    requires ToNumber(hs) == Some(h) && ToNumber(ms) == Some(m)
    ensures TimeToMinutes(hs + ":" + ms) == Some(h * 60 + m)
  {
    TimeToMinutesOfParts(hs + ":" + ms, hs, ms);
    ClockValueOf(h, m);
  }

  lemma ClockValueOf(h: int, m: int)
    ensures ClockValue(Some(h), Some(m)) == Some(h * 60 + m)
  {
  }

  lemma {:induction false} SplitNumerals(hs: string, ms: string)
    requires forall i :: 0 <= i < |hs| ==> IsDigit(hs[i])
    requires forall i :: 0 <= i < |ms| ==> IsDigit(ms[i])
    ensures Split(hs + ":" + ms, ':') == [hs, ms]
  {
    Availability.NoColonInDigits(hs);
    Availability.NoColonInDigits(ms);
    assert hs + ":" + ms == hs + [':'] + ms;
    SplitAt(hs, ':', ms);
  }

  lemma {:induction false} ReadNumerals(hs: string, ms: string, h: nat, m: nat)
    requires hs != [] && forall i :: 0 <= i < |hs| ==> IsDigit(hs[i])
    requires ms != [] && forall i :: 0 <= i < |ms| ==> IsDigit(ms[i])
    requires DigitsValue(hs) == h && DigitsValue(ms) == m
    ensures ToNumber(hs) == Some(h) && ToNumber(ms) == Some(m)
  {
    ToNumberDigits(hs);
    ToNumberDigits(ms);
  }

  lemma {:induction false} TimeToMinutesOfParts(s: string, a: string, b: string)
    requires Split(s, ':') == [a, b]
    ensures TimeToMinutes(s) == ClockValue(ToNumber(a), ToNumber(b))
  {
  }

  /** The "HH:mm" text of h hours and m minutes, each padded to two digits, reads as 60h + m. */
  lemma {:induction false} TimeToMinutesOfClock(h: nat, m: nat)
    ensures TimeToMinutes(Availability.Pad(h) + ":" + Availability.Pad(m)) == Some(h * 60 + m)
  {
    TimeToMinutesOfNumerals(Availability.Pad(h), Availability.Pad(m), h, m);
  }

  /** `slotsOverlap`: strict overlap of the two half-open minute ranges; any NaN makes it false. */
  function SlotsOverlap(a: ClockSlot, b: ClockSlot): (r: bool)
    ensures r ==> TimeToMinutes(a.start).Some? && TimeToMinutes(a.end).Some?
                  && TimeToMinutes(b.start).Some? && TimeToMinutes(b.end).Some?
  {
    match (TimeToMinutes(a.start), TimeToMinutes(a.end), TimeToMinutes(b.start), TimeToMinutes(b.end))
    case (Some(s1), Some(e1), Some(s2), Some(e2)) => s1 < e2 && s2 < e1
    case _ => false
  }

  lemma SlotsOverlapSymmetric(a: ClockSlot, b: ClockSlot)
    ensures SlotsOverlap(a, b) == SlotsOverlap(b, a)
  {
  }

  /**
   * For slots that read as non-empty minute ranges, overlapping means sharing a minute:
   * the ranges are half-open, so slots that only touch do not overlap.
   */
  lemma SlotsOverlapIffSharedMinute(a: ClockSlot, b: ClockSlot, s1: int, e1: int, s2: int, e2: int)
    requires TimeToMinutes(a.start) == Some(s1) && TimeToMinutes(a.end) == Some(e1) && s1 < e1
    requires TimeToMinutes(b.start) == Some(s2) && TimeToMinutes(b.end) == Some(e2) && s2 < e2
    ensures SlotsOverlap(a, b) <==> exists x :: InMinutes(x, s1, e1) && InMinutes(x, s2, e2)
  {
    SlotsOverlapOf(a, b, s1, e1, s2, e2);
    RangesShareMinute(s1, e1, s2, e2);
  }

  lemma SlotsOverlapOf(a: ClockSlot, b: ClockSlot, s1: int, e1: int, s2: int, e2: int)
    requires TimeToMinutes(a.start) == Some(s1) && TimeToMinutes(a.end) == Some(e1)
    requires TimeToMinutes(b.start) == Some(s2) && TimeToMinutes(b.end) == Some(e2)
    ensures SlotsOverlap(a, b) == (s1 < e2 && s2 < e1)
  {
  }

  lemma RangesShareMinute(s1: int, e1: int, s2: int, e2: int)
    requires s1 < e1 && s2 < e2
    ensures (s1 < e2 && s2 < e1) <==> exists x :: InMinutes(x, s1, e1) && InMinutes(x, s2, e2)
  {
    if s1 < e2 && s2 < e1 {
      var x := if s1 >= s2 then s1 else s2;
      assert InMinutes(x, s1, e1) && InMinutes(x, s2, e2);
    }
  }

  predicate InMinutes(x: int, s: int, e: int) { s <= x < e }

  // ---------------------------------------------------------------- activity

  /**
   * `calculateActivityScore`, with the whole days since the last activity passed in
   * (`None` when the user has no `lastActive`): 5 without it, otherwise 10, 8, 6, 4 or 2
   * below 1, 7, 30 and 90 days.
   */
  function ActivityScore(daysInactive: Option<int>): (r: int)
    ensures daysInactive.None? ==> r == 5
    ensures daysInactive.Some? ==> r in {10, 8, 6, 4, 2}
    ensures daysInactive.Some? ==> (r == 10 <==> daysInactive.value < 1)
    ensures daysInactive.Some? ==> (r == 2 <==> daysInactive.value >= 90)
  {
    match daysInactive
    case None => 5
    case Some(days) =>
      if days < 1 then 10
      else if days < 7 then 8
      else if days < 30 then 6
      else if days < 90 then 4
      else 2
  }

  /** Longer inactivity never raises the score. */
  lemma ActivityNonIncreasing(d1: int, d2: int)
    requires d1 <= d2
    ensures ActivityScore(Some(d1)) >= ActivityScore(Some(d2))
  {
  }

  // ---------------------------------------------------------------- findMatches

  /** A scored candidate: its id and its rounded match percentage. */
  datatype Candidate = Candidate(id: string, percentage: int)

  function KeepAbove(cs: seq<Candidate>, minimum: int): (r: seq<Candidate>)
    ensures forall c :: c in r <==> c in cs && c.percentage >= minimum
    ensures multiset(r) <= multiset(cs)
  {
    if cs == [] then []
    else
      var last := cs[|cs| - 1];
      assert cs == cs[..|cs| - 1] + [last];
      KeepAbove(cs[..|cs| - 1], minimum) + (if last.percentage >= minimum then [last] else [])
  }

  /** Filtering one more candidate appends it exactly when it reaches the minimum. */
  lemma KeepAboveSnoc(cs: seq<Candidate>, x: Candidate, minimum: int)
    ensures KeepAbove(cs + [x], minimum) == KeepAbove(cs, minimum) + (if x.percentage >= minimum then [x] else [])
  {
    assert (cs + [x])[..|cs|] == cs;
  }

  function NegPercentage(c: Candidate): int { -c.percentage }

  /**
   * The tail of `findMatches`: candidates under 30% are dropped and the rest sorted by
   * non-increasing percentage (a stable sort, so ties keep the query order).
   */
  function FindMatches(cs: seq<Candidate>): (r: seq<Candidate>)
    ensures multiset(r) == multiset(KeepAbove(cs, 30))
    ensures forall c :: c in r <==> c in cs && c.percentage >= 30
    ensures forall i, j :: 0 <= i < j < |r| ==> r[i].percentage >= r[j].percentage
  {
    var kept := KeepAbove(cs, 30);
    var r := SortByKey(kept, NegPercentage);
    SortByKeyMembers(kept, NegPercentage);
    assert forall i, j :: 0 <= i < j < |r| ==> NegPercentage(r[i]) <= NegPercentage(r[j]);
    r
  }

  /**
   * Candidates with the same percentage keep the order the query returned them in: for
   * every key (a negated percentage) the sort leaves the candidates with that key in order.
   */
  lemma FindMatchesStable(cs: seq<Candidate>, key: int)
    ensures KeyFilter(FindMatches(cs), NegPercentage, key) == KeyFilter(KeepAbove(cs, 30), NegPercentage, key)
  {
    var kept := KeepAbove(cs, 30);
    assert FindMatches(cs) == SortByKey(kept, NegPercentage);
    SortByKeyStable(kept, NegPercentage, key);
  }
}

=== FILE: review_controller.dfy ===
/**
 * The review handlers and the rating recomputation behind them. The recomputation is an
 * aggregation that matches reviews by reviewee; aggregation pipelines are not cast by the
 * schema, so an id passed as text matches no stored reviewee, while the `findByIdAndUpdate`
 * that writes the result does cast it and finds the user. `Key` records which of the two
 * a caller passes.
 */
module ReviewController {
  import opened Common
  import opened Store

  datatype Key = ObjectId(hex: Id) | Text(s: string) {
    /** The id `findByIdAndUpdate` looks up, after casting. */
    function UserId(): Id {
      match this
      case ObjectId(hex) => hex
      case Text(s) => s
    }
  }

  /** Whether the aggregation's `$match` on the reviewee selects this review. */
  predicate Matches(r: Review, key: Key) {
    key.ObjectId? && r.reviewee == key.hex
  }

  /** The ratings of the matched reviews, in collection order. */
  function Ratings(reviews: seq<Review>, key: Key): (r: seq<int>)
    ensures |r| <= |reviews|
  {
    if reviews == [] then []
    else
      var last := reviews[|reviews| - 1];
      var before := Ratings(reviews[..|reviews| - 1], key);
      if Matches(last, key) then before + [last.rating] else before
  }

  function Sum(xs: seq<int>): int {
    if xs == [] then 0 else Sum(xs[..|xs| - 1]) + xs[|xs| - 1]
  }

  /**
   * The rating written back: no matched review gives 0 and 0; otherwise the count of matched
   * reviews and their mean rounded half-up to one decimal, in tenths of a star.
   */
  function RatingOf(reviews: seq<Review>, key: Key): (r: Rating)
    ensures r.count == |Ratings(reviews, key)|
    ensures r.count == 0 ==> r.averageTenths == 0
    ensures r.count > 0 ==>
      var total := 20 * Sum(Ratings(reviews, key)) + r.count;
      2 * r.count * r.averageTenths <= total < 2 * r.count * (r.averageTenths + 1)
  {
    var rs := Ratings(reviews, key);
    if |rs| == 0 then Rating(0, 0)
    else
      var d := 2 * |rs|;
      var total := 20 * Sum(rs) + |rs|;
      var q := total / d;
      assert d * q <= total < d * (q + 1);
      Rating(q, |rs|)
  }

  lemma {:induction false} RatingsAppend(a: seq<Review>, b: seq<Review>, key: Key)
    ensures Ratings(a + b, key) == Ratings(a, key) + Ratings(b, key)
    decreases |b|
  {
    if b == [] {
      assert a + b == a;
    } else {
      var init := b[..|b| - 1];
      assert (a + b)[..|a + b| - 1] == a + init;
      assert (a + b)[|a + b| - 1] == b[|b| - 1];
      RatingsAppend(a, init, key);
    }
  }

  lemma {:induction false} SumBounds(xs: seq<int>, lo: int, hi: int)
    requires forall i :: 0 <= i < |xs| ==> lo <= xs[i] <= hi
    ensures lo * |xs| <= Sum(xs) <= hi * |xs|
  {
    if xs != [] {
      SumBounds(xs[..|xs| - 1], lo, hi);
    }
  }

  lemma {:induction false} RatingsWithin(reviews: seq<Review>, key: Key)
    requires forall i :: 0 <= i < |reviews| ==> 1 <= reviews[i].rating <= 5
    ensures forall i :: 0 <= i < |Ratings(reviews, key)| ==> 1 <= Ratings(reviews, key)[i] <= 5
  {
    if reviews != [] {
      RatingsWithin(reviews[..|reviews| - 1], key);
    }
  }

  /** When every rating is between 1 and 5 stars and some review matches, the average lies between 1.0 and 5.0. */
  lemma AverageWithinStars(reviews: seq<Review>, key: Key)
    requires forall i :: 0 <= i < |reviews| ==> 1 <= reviews[i].rating <= 5
    requires RatingOf(reviews, key).count > 0
    ensures 10 <= RatingOf(reviews, key).averageTenths <= 50
  {
    var rs := Ratings(reviews, key);
    var r := RatingOf(reviews, key);
    var c := r.count;
    RatingsWithin(reviews, key);
    SumBounds(rs, 1, 5);
    TenthsWithin(c, Sum(rs), r.averageTenths);
  }

  lemma TenthsWithin(c: int, total: int, a: int)
    requires c > 0 && c <= total <= 5 * c
    requires 2 * c * a <= 20 * total + c < 2 * c * (a + 1)
    ensures 10 <= a <= 50
  {
    if a > 50 {
      MulMono(a, 51, 2 * c);
    }
    if a < 10 {
      MulMono(9, a, 2 * c);
    }
  }

  lemma MulMono(a: int, b: int, c: int)
    requires a >= b && c > 0
    ensures c * a >= c * b
  {
    assert c * a - c * b == c * (a - b);
  }

  /** An id passed as text matches nothing, so the user's rating becomes 0 from 0 reviews whatever the collection holds. */
  lemma TextKeyMatchesNothing(reviews: seq<Review>, id: Id)
    ensures Ratings(reviews, Text(id)) == []
    ensures RatingOf(reviews, Text(id)) == Rating(0, 0)
  {
    if reviews != [] {
      TextKeyMatchesNothing(reviews[..|reviews| - 1], id);
    }
  }

  /** The users after `updateUserRating`: the looked-up user, if any, gets the recomputed rating. */
  function Rerated(users: map<Id, User>, reviews: seq<Review>, key: Key): (r: map<Id, User>)
    ensures r.Keys == users.Keys
    ensures forall id :: id in users && id != key.UserId() ==> r[id] == users[id]
    ensures key.UserId() in users ==> r[key.UserId()] == users[key.UserId()].(rating := RatingOf(reviews, key))
  {
    var id := key.UserId();
    if id in users then users[id := users[id].(rating := RatingOf(reviews, key))] else users
  }

  /** `updateUserRating`: aggregate the matched reviews and write the rating to the user, if it exists. */
  method UpdateUserRating(db: Db, key: Key)
    modifies db
    ensures db.users == Rerated(old(db.users), db.reviews, key)
    ensures db.reviews == old(db.reviews) && db.exchanges == old(db.exchanges) && db.sessions == old(db.sessions)
  {
    var stats := RatingOf(db.reviews, key);
    var id := key.UserId();
    if id in db.users {
      var user := db.users[id];
      db.users := db.users[id := user.(rating := stats)];
    }
  }

  // ---------------------------------------------------------------- the review triple

  /** Whether a review by this reviewer of this reviewee for this exchange exists. */
  predicate HasReview(reviews: seq<Review>, reviewer: Id, reviewee: Id, exchange: Id) {
    exists i :: 0 <= i < |reviews| && reviews[i].reviewer == reviewer && reviews[i].reviewee == reviewee && reviews[i].exchange == exchange
  }

  predicate SameTriple(a: Review, b: Review) {
    a.reviewer == b.reviewer && a.reviewee == b.reviewee && a.exchange == b.exchange
  }

  /** The invariant the duplicate check and the unique index keep: no two reviews share reviewer, reviewee and exchange. */
  predicate DistinctTriples(reviews: seq<Review>) {
    forall i, j :: 0 <= i < j < |reviews| ==> !SameTriple(reviews[i], reviews[j])
  }

  lemma AppendKeepsDistinct(reviews: seq<Review>, r: Review)
    requires DistinctTriples(reviews) && !HasReview(reviews, r.reviewer, r.reviewee, r.exchange)
    ensures DistinctTriples(reviews + [r])
  {
    var all := reviews + [r];
    forall i, j | 0 <= i < j < |all|
      ensures !SameTriple(all[i], all[j])
    {
      if j == |reviews| {
        assert all[i] == reviews[i];
      }
    }
  }

  lemma RemoveKeepsDistinct(reviews: seq<Review>, k: nat)
    requires k < |reviews| && DistinctTriples(reviews)
    ensures DistinctTriples(RemoveAt(reviews, k))
  {
    var rest := RemoveAt(reviews, k);
    forall i, j | 0 <= i < j < |rest|
      ensures !SameTriple(rest[i], rest[j])
    {
      var i' := if i < k then i else i + 1;
      var j' := if j < k then j else j + 1;
      assert rest[i] == reviews[i'] && rest[j] == reviews[j'];
    }
  }

  // ---------------------------------------------------------------- create

  datatype ReviewRequest = ReviewRequest(
    revieweeId: Id,
    exchangeId: Id,
    rating: int,
    skillTaught: string,
    categories: Option<Categories>,
    comment: Option<string>,
    isPublic: Option<bool>)

  /** The stored review: written by the caller, public unless the body says otherwise. */
  function NewReview(id: Id, caller: Id, req: ReviewRequest): (r: Review)
    ensures r.id == id && r.reviewer == caller && r.reviewee == req.revieweeId && r.exchange == req.exchangeId
    ensures r.rating == req.rating && r.isPublic == req.isPublic.GetOr(true)
  {
    Review(id, caller, req.revieweeId, req.exchangeId, req.rating, req.skillTaught,
           req.categories, req.comment, req.isPublic.GetOr(true))
  }

  /** The refusal `createReview` answers with, if any, in the order it checks. */
  function CreateRefusal(exchanges: map<Id, Exchange>, reviews: seq<Review>, caller: Id, req: ReviewRequest): (r: Option<Reply>)
    ensures r.None? <==>
      && req.exchangeId in exchanges
      && exchanges[req.exchangeId].status == "completed"
      && IsParty(exchanges[req.exchangeId], caller)
      && !HasReview(reviews, caller, req.revieweeId, req.exchangeId)
    ensures req.exchangeId !in exchanges ==> r == Some(NotFound)
    ensures req.exchangeId in exchanges && exchanges[req.exchangeId].status != "completed" ==> r == Some(BadRequest)
    ensures r.Some? ==> r.value in {NotFound, BadRequest, Forbidden}
  {
    if req.exchangeId !in exchanges then Some(NotFound)
    else
      var e := exchanges[req.exchangeId];
      if e.status != "completed" then Some(BadRequest)
      else if e.requester != caller && e.recipient != caller then Some(Forbidden)
      else if HasReview(reviews, caller, req.revieweeId, req.exchangeId) then Some(BadRequest)
      else None
  }

  /** A second review of the same reviewee for the same exchange by the same caller is refused. */
  lemma SecondReviewRefused(exchanges: map<Id, Exchange>, reviews: seq<Review>, caller: Id, req: ReviewRequest, newId: Id)
    requires CreateRefusal(exchanges, reviews, caller, req).None?
    ensures CreateRefusal(exchanges, reviews + [NewReview(newId, caller, req)], caller, req) == Some(BadRequest)
    ensures DistinctTriples(reviews) ==> DistinctTriples(reviews + [NewReview(newId, caller, req)])
  {
    var r := NewReview(newId, caller, req);
    assert (reviews + [r])[|reviews|] == r;
    if DistinctTriples(reviews) {
      AppendKeepsDistinct(reviews, r);
    }
  }

  /**
   * `createReview` as written: the guards, then the review is stored and the rating is
   * recomputed with the reviewee id from the body, which is text.
   */
  method CreateReview(db: Db, caller: Id, req: ReviewRequest, newId: Id) returns (reply: Reply)
    modifies db
    ensures CreateRefusal(old(db.exchanges), old(db.reviews), caller, req).Some? ==>
      reply == CreateRefusal(old(db.exchanges), old(db.reviews), caller, req).value
      && db.reviews == old(db.reviews) && db.users == old(db.users)
    ensures CreateRefusal(old(db.exchanges), old(db.reviews), caller, req).None? ==>
      && reply == Created
      && db.reviews == old(db.reviews) + [NewReview(newId, caller, req)]
      && db.users == Rerated(old(db.users), db.reviews, Text(req.revieweeId))
    ensures db.exchanges == old(db.exchanges) && db.sessions == old(db.sessions)
  {
    var refusal := CreateRefusal(db.exchanges, db.reviews, caller, req);
    if refusal.Some? {
      return refusal.value;
    }
    db.reviews := db.reviews + [NewReview(newId, caller, req)];
    UpdateUserRating(db, Text(req.revieweeId));
    reply := Created;
  }

  /** As written, creating a review leaves its reviewee rated 0 from 0 reviews, although the new review is about them. */
  lemma CreatedReviewNotCounted(reviews: seq<Review>, users: map<Id, User>, caller: Id, req: ReviewRequest, newId: Id)
    requires req.revieweeId in users
    ensures Rerated(users, reviews + [NewReview(newId, caller, req)], Text(req.revieweeId))[req.revieweeId].rating == Rating(0, 0)
    ensures |Ratings(reviews + [NewReview(newId, caller, req)], ObjectId(req.revieweeId))| >= 1
  {
    TextKeyMatchesNothing(reviews + [NewReview(newId, caller, req)], req.revieweeId);
    RatingsAppend(reviews, [NewReview(newId, caller, req)], ObjectId(req.revieweeId));
  }

  /** `createReview` recomputing with the reviewee as an object id, as `updateReview` and `deleteReview` do. */
  method CreateReviewAsIntended(db: Db, caller: Id, req: ReviewRequest, newId: Id) returns (reply: Reply)
    modifies db
    ensures CreateRefusal(old(db.exchanges), old(db.reviews), caller, req).Some? ==>
      reply == CreateRefusal(old(db.exchanges), old(db.reviews), caller, req).value
      && db.reviews == old(db.reviews) && db.users == old(db.users)
    ensures CreateRefusal(old(db.exchanges), old(db.reviews), caller, req).None? ==>
      && reply == Created
      && db.reviews == old(db.reviews) + [NewReview(newId, caller, req)]
      && db.users == Rerated(old(db.users), db.reviews, ObjectId(req.revieweeId))
    ensures db.exchanges == old(db.exchanges) && db.sessions == old(db.sessions)
  {
    var refusal := CreateRefusal(db.exchanges, db.reviews, caller, req);
    if refusal.Some? {
      return refusal.value;
    }
    db.reviews := db.reviews + [NewReview(newId, caller, req)];
    UpdateUserRating(db, ObjectId(req.revieweeId));
    reply := Created;
  }

  /** With the object id, the new review is counted: the reviewee's count grows by one and the new rating enters the sum. */
  lemma CreatedReviewCounted(reviews: seq<Review>, caller: Id, req: ReviewRequest, newId: Id)
    ensures var key := ObjectId(req.revieweeId);
      && Ratings(reviews + [NewReview(newId, caller, req)], key) == Ratings(reviews, key) + [req.rating]
      && RatingOf(reviews + [NewReview(newId, caller, req)], key).count == RatingOf(reviews, key).count + 1
  {
    RatingsAppend(reviews, [NewReview(newId, caller, req)], ObjectId(req.revieweeId));
  }

  // ---------------------------------------------------------------- update

  datatype ReviewPatch = ReviewPatch(
    rating: Option<int>,
    categories: Option<Categories>,
    comment: Option<string>,
    isPublic: Option<bool>)

  /** The review after `updateReview`'s assignments: rating and categories when truthy, comment and visibility when given. */
  function Edited(r: Review, p: ReviewPatch): (e: Review)
    ensures e.rating == if p.rating.Some? && p.rating.value != 0 then p.rating.value else r.rating
    ensures e.categories == if p.categories.Some? then p.categories else r.categories
    ensures e.comment == if p.comment.Some? then p.comment else r.comment
    ensures e.isPublic == if p.isPublic.Some? then p.isPublic.value else r.isPublic
    ensures e.(rating := r.rating, categories := r.categories, comment := r.comment, isPublic := r.isPublic) == r
  {
    var e := if p.rating.Some? && p.rating.value != 0 then r.(rating := p.rating.value) else r;
    var e := if p.categories.Some? then e.(categories := p.categories) else e;
    var e := if p.comment.Some? then e.(comment := p.comment) else e;
    if p.isPublic.Some? then e.(isPublic := p.isPublic.value) else e
  }

  /** Editing keeps who reviewed whom for which exchange, so the triples stay distinct; editing twice equals editing once. */
  lemma EditKeepsTriples(reviews: seq<Review>, k: nat, p: ReviewPatch)
    requires k < |reviews|
    ensures SameTriple(Edited(reviews[k], p), reviews[k])
    ensures Edited(Edited(reviews[k], p), p) == Edited(reviews[k], p)
    ensures DistinctTriples(reviews) ==> DistinctTriples(reviews[k := Edited(reviews[k], p)])
  {
    var edited := reviews[k := Edited(reviews[k], p)];
    if DistinctTriples(reviews) {
      forall i, j | 0 <= i < j < |edited|
        ensures !SameTriple(edited[i], edited[j])
      {
        assert SameTriple(edited[i], reviews[i]) && SameTriple(edited[j], reviews[j]);
      }
    }
  }

  /** `updateReview`: 404, then 403 for anyone but the reviewer; the edited review is saved and its reviewee re-rated. */
  method UpdateReview(db: Db, caller: Id, id: Id, body: ReviewPatch) returns (reply: Reply)
    modifies db
    ensures FindReview(old(db.reviews), id).None? ==>
      reply == NotFound && db.reviews == old(db.reviews) && db.users == old(db.users)
    ensures FindReview(old(db.reviews), id).Some? && old(db.reviews)[FindReview(old(db.reviews), id).value].reviewer != caller ==>
      reply == Forbidden && db.reviews == old(db.reviews) && db.users == old(db.users)
    ensures FindReview(old(db.reviews), id).Some? && old(db.reviews)[FindReview(old(db.reviews), id).value].reviewer == caller ==>
      var k := FindReview(old(db.reviews), id).value;
      && reply == Ok
      && db.reviews == old(db.reviews)[k := Edited(old(db.reviews)[k], body)]
      && db.users == Rerated(old(db.users), db.reviews, ObjectId(old(db.reviews)[k].reviewee))
    ensures db.exchanges == old(db.exchanges) && db.sessions == old(db.sessions)
  {
    var found := FindReview(db.reviews, id);
    if found.None? {
      return NotFound;
    }
    var k := found.value;
    var review := db.reviews[k];
    if review.reviewer != caller {
      return Forbidden;
    }
    if body.rating.Some? && body.rating.value != 0 { review := review.(rating := body.rating.value); }
    if body.categories.Some? { review := review.(categories := body.categories); }
    if body.comment.Some? { review := review.(comment := body.comment); }
    if body.isPublic.Some? { review := review.(isPublic := body.isPublic.value); }
    db.reviews := db.reviews[k := review];
    UpdateUserRating(db, ObjectId(review.reviewee));
    reply := Ok;
  }

  // ---------------------------------------------------------------- delete

  lemma RatingsAround(a: seq<Review>, x: Review, b: seq<Review>, key: Key)
    requires Matches(x, key)
    ensures Ratings(a + [x] + b, key) == Ratings(a, key) + [x.rating] + Ratings(b, key)
    ensures Ratings(a + b, key) == Ratings(a, key) + Ratings(b, key)
  {
    RatingsAppend(a + [x], b, key);
    RatingsAppend(a, [x], key);
    RatingsAppend(a, b, key);
    assert [x][..0] == [];
  }

  lemma SplitUncounts(a: seq<Review>, x: Review, b: seq<Review>, key: Key)
    requires Matches(x, key)
    ensures |Ratings(a + b, key)| == |Ratings(a + [x] + b, key)| - 1
    ensures Sum(Ratings(a + b, key)) == Sum(Ratings(a + [x] + b, key)) - x.rating
  {
    RatingsAround(a, x, b, key);
    var ra, rb := Ratings(a, key), Ratings(b, key);
    SumAppend(ra + [x.rating], rb);
    SumAppend(ra, rb);
    SumAppend(ra, [x.rating]);
    assert [x.rating][..0] == [];
  }

  /** Deleting a review takes exactly its rating out of its reviewee's aggregate. */
  lemma DeletionUncounts(reviews: seq<Review>, k: nat)
    requires k < |reviews|
    ensures var key := ObjectId(reviews[k].reviewee);
      && |Ratings(RemoveAt(reviews, k), key)| == |Ratings(reviews, key)| - 1
      && Sum(Ratings(RemoveAt(reviews, k), key)) == Sum(Ratings(reviews, key)) - reviews[k].rating
  {
    var a, x, b := reviews[..k], reviews[k], reviews[k + 1..];
    assert reviews == a + [x] + b;
    SplitUncounts(a, x, b, ObjectId(x.reviewee));
  }

  lemma {:induction false} SumAppend(xs: seq<int>, ys: seq<int>)
    ensures Sum(xs + ys) == Sum(xs) + Sum(ys)
    decreases |ys|
  {
    if ys == [] {
      assert xs + ys == xs;
    } else {
      assert (xs + ys)[..|xs + ys| - 1] == xs + ys[..|ys| - 1];
      assert (xs + ys)[|xs + ys| - 1] == ys[|ys| - 1];
      SumAppend(xs, ys[..|ys| - 1]);
    }
  }

  /** `deleteReview`: 404, then 403 for anyone but the reviewer; the review is removed and its reviewee re-rated. */
  method DeleteReview(db: Db, caller: Id, id: Id) returns (reply: Reply)
    modifies db
    ensures FindReview(old(db.reviews), id).None? ==>
      reply == NotFound && db.reviews == old(db.reviews) && db.users == old(db.users)
    ensures FindReview(old(db.reviews), id).Some? && old(db.reviews)[FindReview(old(db.reviews), id).value].reviewer != caller ==>
      reply == Forbidden && db.reviews == old(db.reviews) && db.users == old(db.users)
    ensures FindReview(old(db.reviews), id).Some? && old(db.reviews)[FindReview(old(db.reviews), id).value].reviewer == caller ==>
      var k := FindReview(old(db.reviews), id).value;
      && reply == Ok
      && db.reviews == RemoveAt(old(db.reviews), k)
      && db.users == Rerated(old(db.users), db.reviews, ObjectId(old(db.reviews)[k].reviewee))
    ensures db.exchanges == old(db.exchanges) && db.sessions == old(db.sessions)
  {
    var found := FindReview(db.reviews, id);
    if found.None? {
      return NotFound;
    }
    var k := found.value;
    var review := db.reviews[k];
    if review.reviewer != caller {
      return Forbidden;
    }
    db.reviews := RemoveAt(db.reviews, k);
    UpdateUserRating(db, ObjectId(review.reviewee));
    reply := Ok;
  }
}

=== FILE: session_controller.dfy ===
/**
 * The session handlers: scheduling a session of an exchange, the whitelisted update,
 * completion with role-based notes and feedback, cancellation, the reminder run and the
 * page arithmetic of the session list.
 */
module SessionController {
  import opened Common
  import opened Store

  const DayMs := 24 * 60 * 60 * 1000

  // ---------------------------------------------------------------- progress counters

  /** The exchange with one more session scheduled. */
  function WithSessionAdded(e: Exchange): (r: Exchange)
    ensures r.progress.totalSessions == e.progress.totalSessions + 1
    ensures r.progress.completedSessions == e.progress.completedSessions
    ensures r.(progress := e.progress) == e
  {
    e.(progress := e.progress.(totalSessions := e.progress.totalSessions + 1))
  }

  /** The exchange with one more session completed. */
  function WithSessionCompleted(e: Exchange): (r: Exchange)
    ensures r.progress.completedSessions == e.progress.completedSessions + 1
    ensures r.progress.totalSessions == e.progress.totalSessions
    ensures r.(progress := e.progress) == e
  {
    e.(progress := e.progress.(completedSessions := e.progress.completedSessions + 1))
  }

  /** Completing the same session twice counts it twice: nothing guards against a repeat. */
  lemma RepeatedCompletionCountsTwice(e: Exchange)
    ensures WithSessionCompleted(WithSessionCompleted(e)).progress.completedSessions == e.progress.completedSessions + 2
    ensures WithSessionCompleted(WithSessionCompleted(e)).progress.totalSessions == e.progress.totalSessions
  {
  }

  // ---------------------------------------------------------------- create

  datatype SessionRequest = SessionRequest(
    exchangeId: Id,
    teacherId: Id,
    learnerId: Id,
    skill: string,
    scheduledDate: int,
    duration: Option<int>,
    sessionType: Option<string>,
    location: Option<string>,
    agenda: Option<string>)

  /** The stored session: scheduled, with the schema's defaults of 60 minutes and a virtual meeting. */
  function NewSession(req: SessionRequest): (s: Session)
    ensures s.exchange == req.exchangeId && s.teacher == req.teacherId && s.learner == req.learnerId
    ensures s.status == "scheduled" && !s.reminderSent
    ensures s.duration == req.duration.GetOr(60) && s.sessionType == req.sessionType.GetOr("virtual")
    ensures s.teacherNotes.None? && s.learnerNotes.None? && s.teacherFeedback.None? && s.learnerFeedback.None?
  {
    Session(
      req.exchangeId, req.teacherId, req.learnerId, req.skill, req.scheduledDate,
      req.duration.GetOr(60), req.sessionType.GetOr("virtual"), req.location, req.agenda,
      "scheduled", None, None, None, None, false, None)
  }

  /**
   * `createSession`: 404 for an unknown exchange, 403 for a caller who is not a party to
   * it, otherwise the session is stored and the exchange counts one more session. The
   * teacher and learner ids are taken as given.
   */
  method CreateSession(db: Db, caller: Id, req: SessionRequest, newId: Id) returns (reply: Reply)
    requires newId !in db.sessions
    modifies db
    ensures req.exchangeId !in old(db.exchanges) ==>
      reply == NotFound && db.exchanges == old(db.exchanges) && db.sessions == old(db.sessions)
    ensures req.exchangeId in old(db.exchanges) && !IsParty(old(db.exchanges)[req.exchangeId], caller) ==>
      reply == Forbidden && db.exchanges == old(db.exchanges) && db.sessions == old(db.sessions)
    ensures req.exchangeId in old(db.exchanges) && IsParty(old(db.exchanges)[req.exchangeId], caller) ==>
      && reply == Created
      && db.sessions == old(db.sessions)[newId := NewSession(req)]
      && db.exchanges == old(db.exchanges)[req.exchangeId := WithSessionAdded(old(db.exchanges)[req.exchangeId])]
    ensures db.users == old(db.users) && db.reviews == old(db.reviews)
  {
    if req.exchangeId !in db.exchanges {
      return NotFound;
    }
    var exchange := db.exchanges[req.exchangeId];
    if exchange.requester != caller && exchange.recipient != caller {
      return Forbidden;
    }
    db.sessions := db.sessions[newId := NewSession(req)];
    exchange := exchange.(progress := exchange.progress.(totalSessions := exchange.progress.totalSessions + 1));
    db.exchanges := db.exchanges[req.exchangeId := exchange];
    reply := Created;
  }

  // ---------------------------------------------------------------- update

  /** The fields `updateSession` may copy, in the order it copies them. */
  datatype Editable = EditDate | EditDuration | EditType | EditLocation | EditAgenda | EditStatus

  const AllowedUpdates: seq<Editable> := [EditDate, EditDuration, EditType, EditLocation, EditAgenda, EditStatus]

  /** The request body: the editable fields and, as an example of any other field, the two participants. */
  datatype SessionPatch = SessionPatch(
    scheduledDate: Option<int>,
    duration: Option<int>,
    sessionType: Option<string>,
    location: Option<string>,
    agenda: Option<string>,
    status: Option<string>,
    teacher: Option<Id>,
    learner: Option<Id>)

  predicate TruthyText(v: Option<string>) { v.Some? && v.value != "" }
  predicate TruthyNumber(v: Option<int>) { v.Some? && v.value != 0 }

  /** One step of the copy: the body's value replaces the field when it is truthy. */
  function CopyField(s: Session, p: SessionPatch, f: Editable): Session {
    match f
    case EditDate => if p.scheduledDate.Some? then s.(scheduledDate := p.scheduledDate.value) else s
    case EditDuration => if TruthyNumber(p.duration) then s.(duration := p.duration.value) else s
    case EditType => if TruthyText(p.sessionType) then s.(sessionType := p.sessionType.value) else s
    case EditLocation => if TruthyText(p.location) then s.(location := p.location) else s
    case EditAgenda => if TruthyText(p.agenda) then s.(agenda := p.agenda) else s
    case EditStatus => if TruthyText(p.status) then s.(status := p.status.value) else s
  }

  function CopyFields(s: Session, p: SessionPatch, fields: seq<Editable>): Session
    decreases |fields|
  {
    if fields == [] then s else CopyFields(CopyField(s, p, fields[0]), p, fields[1..])
  }

  /** The session after the whitelisted copy. */
  function Patched(s: Session, p: SessionPatch): Session {
    CopyFields(s, p, AllowedUpdates)
  }

  lemma CopyFieldsStep(s: Session, p: SessionPatch, fields: seq<Editable>, i: nat)
    requires i < |fields|
    ensures CopyFields(s, p, fields[..i + 1]) == CopyField(CopyFields(s, p, fields[..i]), p, fields[i])
    decreases i
  {
    if i > 0 {
      assert fields[..i + 1][1..] == fields[1..][..i];
      assert fields[..i][1..] == fields[1..][..i - 1];
      CopyFieldsStep(CopyField(s, p, fields[0]), p, fields[1..], i - 1);
    }
  }

  /**
   * Each editable field takes the body's value exactly when that value is truthy and keeps
   * its old value otherwise; every other field, the participants among them, is unchanged.
   */
  lemma PatchedFields(s: Session, p: SessionPatch)
    ensures Patched(s, p).scheduledDate == if p.scheduledDate.Some? then p.scheduledDate.value else s.scheduledDate
    ensures Patched(s, p).duration == if TruthyNumber(p.duration) then p.duration.value else s.duration
    ensures Patched(s, p).sessionType == if TruthyText(p.sessionType) then p.sessionType.value else s.sessionType
    ensures Patched(s, p).location == if TruthyText(p.location) then p.location else s.location
    ensures Patched(s, p).agenda == if TruthyText(p.agenda) then p.agenda else s.agenda
    ensures Patched(s, p).status == if TruthyText(p.status) then p.status.value else s.status
    ensures Patched(s, p).(scheduledDate := s.scheduledDate, duration := s.duration, sessionType := s.sessionType,
                           location := s.location, agenda := s.agenda, status := s.status) == s
  {
    var fs := AllowedUpdates;
    assert fs[1..][1..][1..][1..][1..][1..] == [];
  }

  /** Fields outside the whitelist in the body are ignored, and a second identical update changes nothing. */
  lemma PatchIgnoresOtherFields(s: Session, p: SessionPatch, teacher: Option<Id>, learner: Option<Id>)
    ensures Patched(s, p.(teacher := teacher, learner := learner)) == Patched(s, p)
    ensures Patched(Patched(s, p), p) == Patched(s, p)
  {
    PatchedFields(s, p);
    PatchedFields(s, p.(teacher := teacher, learner := learner));
    PatchedFields(Patched(s, p), p);
  }

  /** `updateSession`: 404 for an unknown id, 403 for a caller who is neither teacher nor learner, otherwise the copy is saved. */
  method UpdateSession(db: Db, caller: Id, id: Id, body: SessionPatch) returns (reply: Reply)
    modifies db
    ensures id !in old(db.sessions) ==> reply == NotFound && db.sessions == old(db.sessions)
    ensures id in old(db.sessions) && !Attends(old(db.sessions)[id], caller) ==>
      reply == Forbidden && db.sessions == old(db.sessions)
    ensures id in old(db.sessions) && Attends(old(db.sessions)[id], caller) ==>
      reply == Ok && db.sessions == old(db.sessions)[id := Patched(old(db.sessions)[id], body)]
    ensures db.users == old(db.users) && db.exchanges == old(db.exchanges) && db.reviews == old(db.reviews)
  {
    if id !in db.sessions {
      return NotFound;
    }
    var session := db.sessions[id];
    if session.teacher != caller && session.learner != caller {
      return Forbidden;
    }
    ghost var original := session;
    for i := 0 to |AllowedUpdates|
      invariant session == CopyFields(original, body, AllowedUpdates[..i])
      invariant unchanged(db)
    {
      CopyFieldsStep(original, body, AllowedUpdates, i);
      var field := AllowedUpdates[i];
      match field {
        case EditDate =>
          if body.scheduledDate.Some? { session := session.(scheduledDate := body.scheduledDate.value); }
        case EditDuration =>
          if TruthyNumber(body.duration) { session := session.(duration := body.duration.value); }
        case EditType =>
          if TruthyText(body.sessionType) { session := session.(sessionType := body.sessionType.value); }
        case EditLocation =>
          if TruthyText(body.location) { session := session.(location := body.location); }
        case EditAgenda =>
          if TruthyText(body.agenda) { session := session.(agenda := body.agenda); }
        case EditStatus =>
          if TruthyText(body.status) { session := session.(status := body.status.value); }
      }
    }
    assert AllowedUpdates[..|AllowedUpdates|] == AllowedUpdates;
    db.sessions := db.sessions[id := session];
    reply := Ok;
  }

  // ---------------------------------------------------------------- complete and cancel

  /** The completed session: the caller's notes and feedback go into the teacher's slot if the caller teaches, else the learner's. */
  function Completed(s: Session, caller: Id, notes: Option<string>, rating: Option<int>, comment: Option<string>): (r: Session)
    ensures r.status == "completed"
    ensures s.teacher == caller ==>
      r.teacherNotes == notes && r.teacherFeedback == Some(Feedback(rating, comment))
      && r.learnerNotes == s.learnerNotes && r.learnerFeedback == s.learnerFeedback
    ensures s.teacher != caller ==>
      r.learnerNotes == notes && r.learnerFeedback == Some(Feedback(rating, comment))
      && r.teacherNotes == s.teacherNotes && r.teacherFeedback == s.teacherFeedback
    ensures r.(status := s.status, teacherNotes := s.teacherNotes, learnerNotes := s.learnerNotes,
               teacherFeedback := s.teacherFeedback, learnerFeedback := s.learnerFeedback) == s
  {
    var done := s.(status := "completed");
    if s.teacher == caller then done.(teacherNotes := notes, teacherFeedback := Some(Feedback(rating, comment)))
    else done.(learnerNotes := notes, learnerFeedback := Some(Feedback(rating, comment)))
  }

  /** The two participants each fill their own slot: completing once as teacher and once as learner keeps both. */
  lemma BothSlotsKept(s: Session, tn: Option<string>, tr: Option<int>, tc: Option<string>,
                      ln: Option<string>, lr: Option<int>, lc: Option<string>)
    requires s.teacher != s.learner
    ensures Completed(Completed(s, s.teacher, tn, tr, tc), s.learner, ln, lr, lc).teacherFeedback == Some(Feedback(tr, tc))
    ensures Completed(Completed(s, s.teacher, tn, tr, tc), s.learner, ln, lr, lc).learnerFeedback == Some(Feedback(lr, lc))
  {
    var once := Completed(s, s.teacher, tn, tr, tc);
    assert once.teacher == s.teacher;
  }

  /**
   * `completeSession`: 404, 403 as for an update; then the completed session is saved and its
   * exchange counts one more completed session. When the exchange is gone, the emptied
   * reference fails the session's validation on save and the reply is 500 with nothing saved;
   * the participant check comes first, so a stranger still gets 403.
   */
  method CompleteSession(db: Db, caller: Id, id: Id, notes: Option<string>, rating: Option<int>, comment: Option<string>)
    returns (reply: Reply)
    modifies db
    ensures id !in old(db.sessions) ==> reply == NotFound && db.sessions == old(db.sessions) && db.exchanges == old(db.exchanges)
    ensures id in old(db.sessions) && !Attends(old(db.sessions)[id], caller) ==>
      reply == Forbidden && db.sessions == old(db.sessions) && db.exchanges == old(db.exchanges)
    ensures id in old(db.sessions) && Attends(old(db.sessions)[id], caller) && old(db.sessions)[id].exchange !in old(db.exchanges) ==>
      reply == ServerError && db.sessions == old(db.sessions) && db.exchanges == old(db.exchanges)
    ensures id in old(db.sessions) && old(db.sessions)[id].exchange in old(db.exchanges) && Attends(old(db.sessions)[id], caller) ==>
      var s := old(db.sessions)[id];
      && reply == Ok
      && db.sessions == old(db.sessions)[id := Completed(s, caller, notes, rating, comment)]
      && db.exchanges == old(db.exchanges)[s.exchange := WithSessionCompleted(old(db.exchanges)[s.exchange])]
    ensures db.users == old(db.users) && db.reviews == old(db.reviews)
  {
    if id !in db.sessions {
      return NotFound;
    }
    var session := db.sessions[id];
    if session.teacher != caller && session.learner != caller {
      return Forbidden;
    }
    if session.exchange !in db.exchanges {
      return ServerError;
    }
    session := session.(status := "completed");
    if session.teacher == caller {
      session := session.(teacherNotes := notes, teacherFeedback := Some(Feedback(rating, comment)));
    } else {
      session := session.(learnerNotes := notes, learnerFeedback := Some(Feedback(rating, comment)));
    }
    db.sessions := db.sessions[id := session];
    var exchange := db.exchanges[session.exchange];
    exchange := exchange.(progress := exchange.progress.(completedSessions := exchange.progress.completedSessions + 1));
    db.exchanges := db.exchanges[session.exchange := exchange];
    reply := Ok;
  }

  /** `cancelSession`: a participant marks the session cancelled, whatever its status was. */
  method CancelSession(db: Db, caller: Id, id: Id) returns (reply: Reply)
    modifies db
    ensures id !in old(db.sessions) ==> reply == NotFound && db.sessions == old(db.sessions)
    ensures id in old(db.sessions) && !Attends(old(db.sessions)[id], caller) ==>
      reply == Forbidden && db.sessions == old(db.sessions)
    ensures id in old(db.sessions) && Attends(old(db.sessions)[id], caller) ==>
      reply == Ok && db.sessions == old(db.sessions)[id := old(db.sessions)[id].(status := "cancelled")]
    ensures db.users == old(db.users) && db.exchanges == old(db.exchanges) && db.reviews == old(db.reviews)
  {
    if id !in db.sessions {
      return NotFound;
    }
    var session := db.sessions[id];
    if session.teacher != caller && session.learner != caller {
      return Forbidden;
    }
    db.sessions := db.sessions[id := session.(status := "cancelled")];
    reply := Ok;
  }

  // ---------------------------------------------------------------- reminders

  /** The reminder query: scheduled within the next day, still scheduled, not yet reminded. */
  predicate DueForReminder(s: Session, now: int) {
    now <= s.scheduledDate <= now + DayMs && s.status == "scheduled" && !s.reminderSent
  }

  /** Both e-mails of a loaded session, teacher's then learner's, go out. */
  predicate BothDelivered(sessions: map<Id, Session>, delivered: (Id, Id) -> bool, id: Id) {
    id in sessions && delivered(sessions[id].teacher, id) && delivered(sessions[id].learner, id)
  }

  /** The found sessions whose two e-mails both go out, in query order. */
  function Reminded(found: seq<Id>, sessions: map<Id, Session>, delivered: (Id, Id) -> bool): (r: seq<Id>)
    ensures forall id :: id in r <==> id in found && BothDelivered(sessions, delivered, id)
    ensures NoDup(found) ==> NoDup(r)
    ensures |r| <= |found|
  {
    if found == [] then []
    else
      var id := found[|found| - 1];
      var before := Reminded(found[..|found| - 1], sessions, delivered);
      assert found == found[..|found| - 1] + [id];
      if BothDelivered(sessions, delivered, id) then before + [id] else before
  }

  /** The sessions with the given ones marked reminded at `at`. */
  function MarkReminded(sessions: map<Id, Session>, ids: seq<Id>, at: int): (r: map<Id, Session>)
    ensures r.Keys == sessions.Keys
    ensures forall id :: id in r ==>
      r[id] == if id in ids then sessions[id].(reminderSent := true, reminderSentAt := Some(at)) else sessions[id]
  {
    map id | id in sessions :: if id in ids then sessions[id].(reminderSent := true, reminderSentAt := Some(at)) else sessions[id]
  }

  /** The sessions whose reminder flag went from unset to set. */
  function NewlyReminded(before: map<Id, Session>, after: map<Id, Session>): set<Id> {
    set id | id in before && id in after && !before[id].reminderSent && after[id].reminderSent
  }

  lemma {:induction false} DistinctCount(s: seq<Id>)
    requires NoDup(s)
    ensures |set x | x in s| == |s|
  {
    if s != [] {
      var init := s[..|s| - 1];
      DistinctCount(init);
      assert (set x | x in s) == (set x | x in init) + {s[|s| - 1]};
    }
  }

  /**
   * A session is marked exactly when it was found due and both e-mails went out, and the
   * count `sendReminders` reports is the number of sessions it marked.
   */
  lemma ReminderCountIsMarkedCount(found: seq<Id>, sessions: map<Id, Session>, delivered: (Id, Id) -> bool, now: int)
    requires NoDup(found)
    requires forall id :: id in found <==> id in sessions && DueForReminder(sessions[id], now)
    ensures NewlyReminded(sessions, MarkReminded(sessions, Reminded(found, sessions, delivered), now))
         == set id | id in Reminded(found, sessions, delivered)
    ensures |NewlyReminded(sessions, MarkReminded(sessions, Reminded(found, sessions, delivered), now))|
         == |Reminded(found, sessions, delivered)|
  {
    var r := Reminded(found, sessions, delivered);
    DistinctCount(r);
  }

  lemma RemindedStep(found: seq<Id>, i: nat, sessions: map<Id, Session>, delivered: (Id, Id) -> bool)
    requires i < |found|
    ensures Reminded(found[..i + 1], sessions, delivered) ==
      if BothDelivered(sessions, delivered, found[i])
      then Reminded(found[..i], sessions, delivered) + [found[i]]
      else Reminded(found[..i], sessions, delivered)
  {
    assert found[..i + 1][..i] == found[..i];
  }

  lemma MarkAppend(sessions: map<Id, Session>, ids: seq<Id>, id: Id, at: int)
    requires id in sessions
    ensures MarkReminded(sessions, ids + [id], at)
         == MarkReminded(sessions, ids, at)[id := sessions[id].(reminderSent := true, reminderSentAt := Some(at))]
  {
    var left := MarkReminded(sessions, ids + [id], at);
    var right := MarkReminded(sessions, ids, at)[id := sessions[id].(reminderSent := true, reminderSentAt := Some(at))];
    forall k | k in left
      ensures k in right && left[k] == right[k]
    {
      assert k in ids + [id] <==> k in ids || k == id;
    }
  }

  /**
   * `sendReminders`: `found` is the query's answer, every due session once, in the order the
   * database returns them; `delivered(user, session)` says whether the e-mail to that user
   * goes out. A session is marked, and counted, only after both of its e-mails went out.
   */
  method SendReminders(db: Db, found: seq<Id>, now: int, delivered: (Id, Id) -> bool) returns (sentCount: nat)
    requires NoDup(found)
    requires forall id :: id in found <==> id in db.sessions && DueForReminder(db.sessions[id], now)
    modifies db
    ensures sentCount == |Reminded(found, old(db.sessions), delivered)|
    ensures db.sessions == MarkReminded(old(db.sessions), Reminded(found, old(db.sessions), delivered), now)
    ensures db.users == old(db.users) && db.exchanges == old(db.exchanges) && db.reviews == old(db.reviews)
  {
    var loaded := db.sessions;
    sentCount := 0;
    for i := 0 to |found|
      invariant sentCount == |Reminded(found[..i], loaded, delivered)|
      invariant db.sessions == MarkReminded(loaded, Reminded(found[..i], loaded, delivered), now)
      invariant db.users == old(db.users) && db.exchanges == old(db.exchanges) && db.reviews == old(db.reviews)
    {
      var id := found[i];
      var session := loaded[id];
      RemindedStep(found, i, loaded, delivered);
      MarkAppend(loaded, Reminded(found[..i], loaded, delivered), id, now);
      if delivered(session.teacher, id) && delivered(session.learner, id) {
        db.sessions := db.sessions[id := session.(reminderSent := true, reminderSentAt := Some(now))];
        sentCount := sentCount + 1;
      }
    }
    assert found[..|found|] == found;
  }

  // ---------------------------------------------------------------- pages

  /** The number of sessions `getSessions` skips for a page. */
  function Skip(page: int, limit: int): int {
    (page - 1) * limit
  }

  /** `Math.ceil(count / limit)`; a zero limit divides to Infinity or NaN, here `None`. */
  function TotalPages(count: nat, limit: int): (r: Option<int>)
    ensures r.None? <==> limit == 0
    ensures limit > 0 ==> r.value >= 0 && r.value * limit >= count && (r.value == 0 || (r.value - 1) * limit < count)
  {
    if limit == 0 then None
    else if limit > 0 then Some((count + limit - 1) / limit)
    else Some(-(count / -limit))
  }

  /** With a positive limit, the pages 1 to `TotalPages` hold every session once: the item at index `i` is on page `i / limit + 1`. */
  lemma EveryItemOnOnePage(count: nat, limit: int, i: nat)
    requires limit > 0 && i < count
    ensures var page := i / limit + 1;
      1 <= page <= TotalPages(count, limit).value && Skip(page, limit) <= i < Skip(page, limit) + limit
    ensures forall page :: Skip(page, limit) <= i < Skip(page, limit) + limit ==> page == i / limit + 1
  {
    DivBounds(i, limit);
    LastPageReached(count, limit, i);
    forall page | Skip(page, limit) <= i < Skip(page, limit) + limit
      ensures page == i / limit + 1
    {
      PageUnique(limit, i, page);
    }
  }

  lemma DivBounds(i: nat, limit: int)
    requires limit > 0
    ensures 0 <= i / limit && Skip(i / limit + 1, limit) == (i / limit) * limit <= i < (i / limit) * limit + limit
  {
  }

  lemma LastPageReached(count: nat, limit: int, i: nat)
    requires limit > 0 && i < count
    ensures i / limit + 1 <= TotalPages(count, limit).value
  {
    var q, t := i / limit, TotalPages(count, limit).value;
    DivBounds(i, limit);
    if t <= q { MulMonotone(q, t, limit); }
  }

  lemma PageUnique(limit: int, i: nat, page: int)
    requires limit > 0 && Skip(page, limit) <= i < Skip(page, limit) + limit
    ensures page == i / limit + 1
  {
    var q := i / limit;
    DivBounds(i, limit);
    if page < q + 1 {
      MulMonotone(q, page, limit);
      MulSucc(page - 1, limit);
    }
    if page > q + 1 {
      MulMonotone(page - 1, q + 1, limit);
      MulSucc(q, limit);
    }
  }

  lemma MulSucc(a: int, c: int)
    ensures (a + 1) * c == a * c + c
  {
  }

  lemma MulMonotone(a: int, b: int, c: int)
    requires a >= b && c > 0
    ensures a * c >= b * c
  {
    assert a * c - b * c == (a - b) * c;
  }
}

=== FILE: session_room.dfy ===
/**
 * The call logic of the session page: electing which of the two clients makes the offer,
 * and the join, leave, reconnect, mute, camera, screen-share and chat controls, which
 * set page state and call the peer-connection service in sequence.
 *
 * The page's setup effect (service `init` and the socket listeners) lists `inCall` among
 * its dependencies, so it runs again whenever `inCall` changes; `SetInCall` models that.
 */
module SessionRoom {
  import opened Common
  import opened JsString
  import opened Sorting
  import opened WebRtc

  // ---------------------------------------------------------------- the offerer election

  /** The first id of a sorted copy of the participant list. */
  function Offerer(p: seq<string>): (o: string)
    requires p != []
    ensures o in p
    ensures forall x :: x in p ==> LexLe(o, x)
  {
    SortStringsHeadIsLeast(p);
    SortStrings(p)[0]
  }

  /** The offerer is the one participant that sorts before or equal to every other. */
  lemma OffererIsTheMinimum(p: seq<string>, x: string)
    requires x in p && forall y :: y in p ==> LexLe(x, y)
    ensures Offerer(p) == x
  {
    LexLeAntisymmetric(x, Offerer(p));
  }

  /** The election does not depend on the order in which the list arrives. */
  lemma OffererOrderIndependent(p: seq<string>, q: seq<string>)
    requires p != [] && multiset(p) == multiset(q)
    ensures q != [] && Offerer(p) == Offerer(q)
  {
    var a := Offerer(p);
    assert a in multiset(q);
    forall y | y in q ensures LexLe(a, y) {
      assert y in multiset(p);
    }
    OffererIsTheMinimum(q, a);
  }

  /** This client is elected: at least two participants, a known user id, and it sorts first. */
  predicate Elected(p: seq<string>, me: Option<string>) {
    |p| >= 2 && me.Some? && me.value != "" && Offerer(p) == me.value
  }

  /** Two clients that receive the same participants, in any order, never both get elected. */
  lemma AtMostOneElected(p: seq<string>, q: seq<string>, a: string, b: string)
    requires multiset(p) == multiset(q)
    requires Elected(p, Some(a)) && Elected(q, Some(b))
    ensures a == b
  {
    OffererOrderIndependent(p, q);
  }

  /** `onParticipants` calls `makeOffer`: elected, and the peer connection is idle and not connected. */
  function ShouldOffer(p: seq<string>, me: Option<string>, pc: Option<Peer>): (r: bool)
    ensures r ==> |p| >= 2 && me.Some? && me.value in p && forall x :: x in p ==> LexLe(me.value, x)
    ensures r ==> pc.Some? && pc.value.signaling == Stable && pc.value.connection != Connected
    ensures r <==> Elected(p, me) && pc.Some? && pc.value.signaling == Stable && pc.value.connection != Connected
  {
    Elected(p, me) && pc.Some? && pc.value.signaling == Stable && pc.value.connection != Connected
  }

  /** The text `handleJoin` shows for a failure: the error's message, or a fallback when it has none. */
  function JoinError(message: string): (r: string)
    ensures r != ""
    ensures message != "" ==> r == message
  {
    if message == "" then "Failed to join" else message
  }

  // ---------------------------------------------------------------- the page

  /** A `session:chat` payload as the server sends it: the sender, the text and the time. */
  datatype ChatMessage = ChatMessage(from: Option<string>, message: string, at: int)

  /** `n` copies of one message. */
  function Copies(m: ChatMessage, n: nat): (r: seq<ChatMessage>)
    ensures |r| == n && forall i :: 0 <= i < n ==> r[i] == m
  {
    if n == 0 then [] else Copies(m, n - 1) + [m]
  }

  class Room {
    const sessionId: string
    /** The signed-in user's id, when known. */
    const me: Option<string>
    const rtc: Rtc
    var participants: seq<string>
    var inCall: bool
    var joining: bool
    var muted: bool
    var cameraOff: bool
    var chatInput: string
    /** The chat messages the page shows, in arrival order. */
    var chatMessages: seq<ChatMessage>
    var error: string
    /** The status updates the page requested for the session, in order; their failures are ignored. */
    var statusUpdates: seq<string>
    var navigatedTo: Option<string>

    ghost predicate Valid()
      reads this, rtc
    {
      rtc.Valid()
    }

    /** Mounting the page runs the setup effect once. */
    constructor (sessionId: string, me: Option<string>, rtc: Rtc)
      requires rtc.Valid()
      modifies rtc
      ensures Valid()
      ensures this.sessionId == sessionId && this.me == me && this.rtc == rtc
      ensures participants == [] && !inCall && !joining && !muted && !cameraOff
      ensures chatInput == "" && chatMessages == [] && error == "" && statusUpdates == [] && navigatedTo.None?
      ensures rtc.sessionId == Some(sessionId) && rtc.pc == Some(FreshPeer()) && rtc.listeners == old(rtc.listeners) + (if rtc.socketOpen then 1 else 0)
      ensures rtc.socketOpen == old(rtc.socketOpen) && rtc.sent == old(rtc.sent) && rtc.tracks == old(rtc.tracks)
    {
      this.sessionId := sessionId;
      this.me := me;
      this.rtc := rtc;
      participants, inCall, joining, muted, cameraOff := [], false, false, false, false;
      chatInput, chatMessages, error, statusUpdates, navigatedTo := "", [], "", [], None;
      new;
      rtc.Init(sessionId);
    }

    /**
     * A `session:participants` list arrives: it always replaces the stored list, and this
     * client makes the offer (with the SDP `offer` the browser creates) only when `ShouldOffer`.
     */
    method OnParticipants(p: seq<string>, offer: string)
      requires Valid()
      modifies this, rtc
      ensures Valid()
      ensures participants == p
      ensures inCall == old(inCall) && chatInput == old(chatInput) && statusUpdates == old(statusUpdates)
      ensures ShouldOffer(p, me, old(rtc.pc)) ==>
        && rtc.pc == Some(old(rtc.pc).value.(local := Some(offer), signaling := HaveLocalOffer))
        && rtc.sent == old(rtc.sent) + (if rtc.socketOpen then [OfferOut(rtc.sessionId, offer)] else [])
      ensures !ShouldOffer(p, me, old(rtc.pc)) ==> rtc.pc == old(rtc.pc) && rtc.sent == old(rtc.sent)
      ensures rtc.tracks == old(rtc.tracks) && rtc.sessionId == old(rtc.sessionId)
    {
      participants := p;
      if ShouldOffer(p, me, rtc.pc) {
        rtc.MakeOffer(offer);
      }
    }

    /** The socket reconnects: the join is sent again only while in the call. */
    method HandleReconnect(token: Option<string>)
      requires Valid()
      modifies rtc
      ensures Valid()
      ensures inCall ==> rtc.sent == old(rtc.sent) + (if rtc.socketOpen then [JoinRequest(rtc.sessionId, token)] else [])
      ensures !inCall ==> rtc.sent == old(rtc.sent)
      ensures rtc.pc == old(rtc.pc) && rtc.tracks == old(rtc.tracks) && rtc.localStream == old(rtc.localStream)
    {
      if inCall {
        rtc.JoinSession(token);
      }
    }

    /** `setInCall(v)`: a changed value re-renders the page and runs the setup effect again. */
    method SetInCall(v: bool)
      requires Valid()
      modifies this, rtc
      ensures Valid()
      ensures inCall == v
      ensures v != old(inCall) ==> rtc.pc == Some(FreshPeer()) && rtc.sessionId == Some(sessionId)
      ensures v != old(inCall) ==> rtc.listeners == old(rtc.listeners) + (if rtc.socketOpen then 1 else 0)
      ensures v == old(inCall) ==> rtc.pc == old(rtc.pc) && rtc.sessionId == old(rtc.sessionId)
      ensures v == old(inCall) ==> rtc.listeners == old(rtc.listeners)
      ensures rtc.socketOpen == old(rtc.socketOpen)
      ensures rtc.tracks == old(rtc.tracks) && rtc.sent == old(rtc.sent)
      ensures rtc.localStream == old(rtc.localStream) && rtc.remoteStream == old(rtc.remoteStream)
      ensures participants == old(participants) && chatInput == old(chatInput) && error == old(error)
      ensures chatMessages == old(chatMessages)
      ensures statusUpdates == old(statusUpdates) && joining == old(joining) && navigatedTo == old(navigatedTo)
      ensures muted == old(muted) && cameraOff == old(cameraOff)
    {
      if v != inCall {
        inCall := v;
        rtc.Init(sessionId);
      }
    }

    /**
     * `handleJoin`: local media first, then the join request; only when both went through
     * is `inCall` set, and then the in-progress update is requested. A failure shows its
     * message. Because setting `inCall` re-runs the setup effect, a first successful join
     * ends with a new, empty peer connection: the local tracks are on none of its senders.
     */
    method HandleJoin(granted: bool, kinds: seq<Kind>, failure: string, token: Option<string>) returns (ok: bool)
      requires Valid()
      modifies this, rtc
      ensures Valid()
      ensures !joining
      ensures ok <==> granted && (old(rtc.pc).Some? || kinds == [])
      ensures !ok ==> inCall == old(inCall) && error == JoinError(failure) && statusUpdates == old(statusUpdates)
      ensures !ok ==> rtc.sent == old(rtc.sent)
      ensures ok ==> inCall && error == old(error) && statusUpdates == old(statusUpdates) + ["in-progress"]
      ensures ok ==> rtc.localStream.Some? && |rtc.localStream.value| == |kinds|
      ensures ok ==> rtc.sent == old(rtc.sent) + (if rtc.socketOpen then [JoinRequest(old(rtc.sessionId), token)] else [])
      ensures ok && !old(inCall) ==> rtc.pc == Some(FreshPeer())
      ensures rtc.listeners == old(rtc.listeners) + (if ok && !old(inCall) && rtc.socketOpen then 1 else 0)
      ensures rtc.socketOpen == old(rtc.socketOpen)
      ensures chatMessages == old(chatMessages)
    {
      joining := true;
      var media := rtc.StartLocalMedia(granted, kinds);
      if !media.MediaReady? {
        error := JoinError(failure);
        joining := false;
        return false;
      }
      rtc.JoinSession(token);
      SetInCall(true);
      statusUpdates := statusUpdates + ["in-progress"];
      joining := false;
      ok := true;
    }

    /**
     * `handleJoin` with the setup effect not depending on `inCall`: the peer connection
     * that received the local tracks stays the call's connection.
     */
    method HandleJoinKeepingPeer(granted: bool, kinds: seq<Kind>, failure: string, token: Option<string>) returns (ok: bool)
      requires Valid()
      modifies this, rtc
      ensures Valid()
      ensures !joining
      ensures ok <==> granted && (old(rtc.pc).Some? || kinds == [])
      ensures !ok ==> inCall == old(inCall) && error == JoinError(failure) && statusUpdates == old(statusUpdates)
      ensures ok ==> inCall && statusUpdates == old(statusUpdates) + ["in-progress"]
      ensures ok ==> rtc.sent == old(rtc.sent) + (if rtc.socketOpen then [JoinRequest(old(rtc.sessionId), token)] else [])
      ensures ok && old(rtc.pc).Some? ==>
        && rtc.pc.Some? && rtc.localStream.Some? && |rtc.localStream.value| == |kinds|
        && rtc.pc.value.senders == old(rtc.pc).value.senders + AsSenders(rtc.localStream.value)
        && forall t :: t in rtc.localStream.value ==> Some(t) in rtc.pc.value.senders
      ensures rtc.listeners == old(rtc.listeners) && rtc.socketOpen == old(rtc.socketOpen) && chatMessages == old(chatMessages)
    {
      joining := true;
      var media := rtc.StartLocalMedia(granted, kinds);
      if !media.MediaReady? {
        error := JoinError(failure);
        joining := false;
        return false;
      }
      if rtc.pc.Some? {
        assert forall i :: 0 <= i < |kinds| ==>
          rtc.pc.value.senders[|old(rtc.pc).value.senders| + i] == Some(rtc.localStream.value[i]);
      }
      rtc.JoinSession(token);
      inCall := true;
      statusUpdates := statusUpdates + ["in-progress"];
      joining := false;
      ok := true;
    }

    /**
     * `handleLeave`: the service leaves, `inCall` is cleared (re-running the setup effect
     * when it was set), the completed update is requested and the page goes to the dashboard.
     */
    method HandleLeave()
      requires Valid()
      modifies this, rtc
      ensures Valid()
      ensures !inCall
      ensures rtc.sent == old(rtc.sent) + (if rtc.socketOpen then [LeaveOut(old(rtc.sessionId))] else [])
      ensures rtc.localStream.None? && rtc.remoteStream.None?
      ensures old(inCall) ==> rtc.pc == Some(FreshPeer())
      ensures !old(inCall) ==> rtc.pc.None?
      ensures statusUpdates == old(statusUpdates) + ["completed"]
      ensures navigatedTo == Some("/dashboard")
    {
      rtc.Leave();
      SetInCall(false);
      statusUpdates := statusUpdates + ["completed"];
      navigatedTo := Some("/dashboard");
    }

    /** The mute button flips `muted` and passes the new value to the service. */
    method ToggleMute()
      requires Valid()
      modifies this, rtc
      ensures Valid()
      ensures muted == !old(muted) && cameraOff == old(cameraOff) && inCall == old(inCall)
      ensures rtc.localStream == old(rtc.localStream) && rtc.pc == old(rtc.pc)
      ensures rtc.localStream.None? ==> rtc.tracks == old(rtc.tracks)
      ensures rtc.localStream.Some? ==> rtc.tracks.Keys == old(rtc.tracks).Keys && forall t :: t in rtc.tracks ==>
        rtc.tracks[t] == if t in rtc.localStream.value && old(rtc.tracks[t]).kind == Audio
                         then old(rtc.tracks[t]).(enabled := !muted) else old(rtc.tracks[t])
    {
      muted := !muted;
      rtc.ToggleMute(muted);
    }

    /** The camera button flips `cameraOff` and passes the new value to the service. */
    method ToggleCamera()
      requires Valid()
      modifies this, rtc
      ensures Valid()
      ensures cameraOff == !old(cameraOff) && muted == old(muted) && inCall == old(inCall)
      ensures rtc.localStream == old(rtc.localStream) && rtc.pc == old(rtc.pc)
      ensures rtc.localStream.None? ==> rtc.tracks == old(rtc.tracks)
      ensures rtc.localStream.Some? ==> rtc.tracks.Keys == old(rtc.tracks).Keys && forall t :: t in rtc.tracks ==>
        rtc.tracks[t] == if t in rtc.localStream.value && old(rtc.tracks[t]).kind == Video
                         then old(rtc.tracks[t]).(enabled := !cameraOff) else old(rtc.tracks[t])
    {
      cameraOff := !cameraOff;
      rtc.ToggleCamera(cameraOff);
    }

    /** The screen-share button; a failed share only shows an error. */
    method HandleScreenShare(granted: bool) returns (share: ShareOutcome)
      requires Valid()
      modifies this, rtc
      ensures Valid()
      ensures share.ShareFailed? ==> error == "Failed to start screen share"
      ensures share.Shared? ==> error == old(error)
      ensures share.ShareFailed? <==> !granted || old(rtc.pc).None?
      ensures inCall == old(inCall) && rtc.sent == old(rtc.sent)
    {
      share := rtc.StartScreenShare(granted);
      if share.ShareFailed? {
        error := "Failed to start screen share";
      }
    }

    /**
     * A `session:chat` message arrives. Every chat listener the service has registered
     * hands it to the page's current handler, which appends it to the shown messages.
     */
    method OnChatMessage(m: ChatMessage)
      requires Valid()
      modifies this
      ensures chatMessages == old(chatMessages) + Copies(m, rtc.listeners)
      ensures inCall == old(inCall) && chatInput == old(chatInput) && participants == old(participants)
    {
      var i := 0;
      while i < rtc.listeners
        invariant 0 <= i <= rtc.listeners
        invariant chatMessages == old(chatMessages) + Copies(m, i)
        invariant inCall == old(inCall) && chatInput == old(chatInput) && participants == old(participants)
      {
        chatMessages := chatMessages + [m];
        i := i + 1;
      }
    }

    /** Typing in the chat box. */
    method EditChat(text: string)
      modifies this
      ensures chatInput == text
      ensures inCall == old(inCall) && participants == old(participants) && statusUpdates == old(statusUpdates)
    {
      chatInput := text;
    }

    /** `sendChat`: whitespace-only input sends nothing; otherwise the trimmed text is sent and the box cleared. */
    method SendChat()
      requires Valid()
      modifies this, rtc
      ensures Valid()
      ensures Trim(old(chatInput)) == "" ==> chatInput == old(chatInput) && rtc.sent == old(rtc.sent)
      ensures Trim(old(chatInput)) != "" ==>
        chatInput == "" && rtc.sent == old(rtc.sent) + (if rtc.socketOpen then [ChatOut(rtc.sessionId, Trim(old(chatInput)))] else [])
      ensures rtc.pc == old(rtc.pc) && rtc.tracks == old(rtc.tracks) && inCall == old(inCall)
    {
      var text := Trim(chatInput);
      if text == "" {
        return;
      }
      rtc.SendChat(text);
      chatInput := "";
    }
  }

  /**
   * A first join, as the page is written: with the browser granting one audio and one
   * video track, the join succeeds, yet the call's peer connection carries none of them.
   */
  method JoinLeavesTracksUnsent() returns (localTracks: nat, sentTracks: nat)
    ensures localTracks == 2 && sentTracks == 0
  {
    var rtc := new Rtc();
    var room := new Room("s1", Some("u1"), rtc);
    var ok := room.HandleJoin(true, [Audio, Video], "", Some("t"));
    assert ok;
    localTracks := |rtc.localStream.value|;
    sentTracks := |SenderTracks(rtc.pc.value.senders)|;
  }

  /** The same first join with the peer connection kept: both local tracks are on its senders. */
  method JoinKeepingPeerSendsTracks() returns (localTracks: nat, sentTracks: nat)
    ensures localTracks == 2 && sentTracks == 2
  {
    var rtc := new Rtc();
    var room := new Room("s1", Some("u1"), rtc);
    var ok := room.HandleJoinKeepingPeer(true, [Audio, Video], "", Some("t"));
    assert ok;
    var ids := rtc.localStream.value;
    var senders: seq<Option<TrackId>> := rtc.pc.value.senders;
    assert senders == [Some(ids[0]), Some(ids[1])];
    assert SenderTracks(senders[1..]) == [ids[1]];
    localTracks := |ids|;
    sentTracks := |SenderTracks(senders)|;
  }

  /**
   * A first join reached by navigating inside the app, as the page is written: the socket
   * exists when the page mounts, and the join re-runs the setup effect, which registers a
   * second chat listener beside the first, so the next chat message is shown twice.
   */
  method JoinShowsChatTwice() returns (shown: nat)
    ensures shown == 2
  {
    var rtc := new Rtc();
    rtc.ConnectSocket(false);
    var room := new Room("s1", Some("u1"), rtc);
    var ok := room.HandleJoin(true, [Audio, Video], "", Some("t"));
    assert ok;
    room.OnChatMessage(ChatMessage(Some("u2"), "hi", 0));
    shown := |room.chatMessages|;
  }

  /**
   * The same join on a page loaded directly: the page's first setup runs before the app
   * connects the socket and registers nothing, so after the join one listener shows the
   * message once.
   */
  method DirectLoadJoinShowsChatOnce() returns (shown: nat)
    ensures shown == 1
  {
    var rtc := new Rtc();
    var room := new Room("s1", Some("u1"), rtc);
    rtc.ConnectSocket(false);
    var ok := room.HandleJoin(true, [Audio, Video], "", Some("t"));
    assert ok;
    room.OnChatMessage(ChatMessage(Some("u2"), "hi", 0));
    shown := |room.chatMessages|;
  }

  /** The in-app join with the setup effect left alone: the chat message is shown once. */
  method JoinKeepingPeerShowsChatOnce() returns (shown: nat)
    ensures shown == 1
  {
    var rtc := new Rtc();
    rtc.ConnectSocket(false);
    var room := new Room("s1", Some("u1"), rtc);
    var ok := room.HandleJoinKeepingPeer(true, [Audio, Video], "", Some("t"));
    assert ok;
    room.OnChatMessage(ChatMessage(Some("u2"), "hi", 0));
    shown := |room.chatMessages|;
  }
}

=== FILE: session_video.dfy ===
/**
 * The server side of a video session: the in-memory registry of who is present in
 * which session, the authorisation gate of `session:join`, and the relays of chat and
 * WebRTC signalling messages between the sockets of a session's room.
 *
 * A JavaScript `Set` keeps insertion order and `Array.from(set)` exposes it, so the
 * participants of a session and the sessions a connection is authorised for are kept
 * as duplicate-free lists. Every handler runs as one atomic step: the awaits before
 * the mutations (token check, session lookup) are folded into the oracles `verify`
 * and `lookup`, and the status update after them cannot change the registry.
 */
module SessionVideo {
  import opened Common

  type ConnId = nat
  type UserId = string
  type SessionId = string

  /** What `Session.findById(sessionId)` gives: the two roles, no session, or a thrown error. */
  datatype Lookup = Found(teacher: UserId, learner: UserId) | Missing | LookupFailed

  datatype SignalKind = Offer | Answer | IceCandidate

  /** The events the server emits, with their payloads. */
  datatype Event =
    | SessionError(message: string)
    | Joined(sessionId: SessionId, userId: UserId)
    | ParticipantJoined(userId: UserId)
    | ParticipantLeft(leaver: Option<UserId>)
    | Participants(ids: seq<UserId>)
    | Chat(from: Option<UserId>, message: string, at: int)
    | Signal(kind: SignalKind, from: Option<UserId>, payload: string)

  /** One emit, with the sockets it reaches resolved at the moment it is sent. */
  datatype Delivery = Delivery(to: set<ConnId>, event: Event)

  /**
   * What the server keeps per socket: `socket.data.userId`, `socket.data.authorizedSessions`
   * and the Socket.IO rooms the socket is in (a room is named by its session id).
   */
  datatype ConnData = ConnData(userId: Option<UserId>, authorized: seq<SessionId>, rooms: set<SessionId>)

  // ---------------------------------------------------------------- the participant registry

  /** Every entry of the registry is a non-empty list without duplicates. */
  ghost predicate ValidRooms(rooms: map<SessionId, seq<UserId>>) {
    forall sid :: sid in rooms ==> rooms[sid] != [] && NoDup(rooms[sid])
  }

  ghost predicate ValidConns(conns: map<ConnId, ConnData>) {
    forall c :: c in conns ==>
      NoDup(conns[c].authorized) && (conns[c].authorized != [] ==> conns[c].userId.Some?)
  }

  function Members(rooms: map<SessionId, seq<UserId>>, sid: SessionId): seq<UserId> {
    if sid in rooms then rooms[sid] else []
  }

  /** The registry update of a successful join (an absent entry starts as an empty set). */
  function AddMember(rooms: map<SessionId, seq<UserId>>, sid: SessionId, uid: UserId): map<SessionId, seq<UserId>> {
    rooms[sid := With(Members(rooms, sid), uid)]
  }

  /** The registry update of a leave: the user goes, and an emptied entry is deleted. */
  function RemoveMember(rooms: map<SessionId, seq<UserId>>, sid: SessionId, uid: UserId): map<SessionId, seq<UserId>> {
    if sid !in rooms then rooms
    else
      var rest := Without(rooms[sid], uid);
      if rest == [] then rooms - {sid} else rooms[sid := rest]
  }

  /** The registry update of a disconnect: `RemoveMember` for each authorised session in turn. */
  function RemoveFromAll(rooms: map<SessionId, seq<UserId>>, sids: seq<SessionId>, uid: UserId): map<SessionId, seq<UserId>> {
    if sids == [] then rooms
    else RemoveMember(RemoveFromAll(rooms, sids[..|sids| - 1], uid), sids[|sids| - 1], uid)
  }

  lemma AddMemberEffect(rooms: map<SessionId, seq<UserId>>, sid: SessionId, uid: UserId)
    requires ValidRooms(rooms)
    ensures var r := AddMember(rooms, sid, uid);
      && ValidRooms(r)
      && sid in r && (forall u :: u in r[sid] <==> u in Members(rooms, sid) || u == uid)
      && (forall other :: other != sid ==> (other in r <==> other in rooms))
      && (forall other :: other != sid && other in rooms ==> r[other] == rooms[other])
  {
  }

  /** Joining twice leaves the registry as joining once. */
  lemma AddMemberIdempotent(rooms: map<SessionId, seq<UserId>>, sid: SessionId, uid: UserId)
    ensures AddMember(AddMember(rooms, sid, uid), sid, uid) == AddMember(rooms, sid, uid)
  {
  }

  /**
   * The in-progress status update fires when the entry has one member right after the
   * add: exactly when the session had no entry, or when its only member joins again.
   */
  lemma FirstJoinDetection(rooms: map<SessionId, seq<UserId>>, sid: SessionId, uid: UserId)
    requires ValidRooms(rooms)
    ensures |AddMember(rooms, sid, uid)[sid]| == 1 <==> sid !in rooms || rooms[sid] == [uid]
  {
    var m := Members(rooms, sid);
    if sid in rooms && |With(m, uid)| == 1 {
      assert rooms[sid][0] in With(m, uid);
    }
  }

  lemma RemoveMemberEffect(rooms: map<SessionId, seq<UserId>>, sid: SessionId, uid: UserId)
    requires ValidRooms(rooms)
    ensures var r := RemoveMember(rooms, sid, uid);
      && ValidRooms(r)
      && (sid in r ==> sid in rooms && (forall u :: u in r[sid] <==> u in rooms[sid] && u != uid))
      && (sid in rooms && sid !in r <==> sid in rooms && (forall u :: u in rooms[sid] ==> u == uid))
      && (forall other :: other != sid ==> (other in r <==> other in rooms))
      && (forall other :: other != sid && other in rooms ==> r[other] == rooms[other])
  {
    if sid in rooms {
      var rest := Without(rooms[sid], uid);
      if rest == [] {
        forall u | u in rooms[sid] ensures u == uid { assert u !in rest; }
      } else {
        assert rest[0] in rooms[sid] && rest[0] != uid;
      }
    }
  }

  /** Leaving twice leaves the registry as leaving once. */
  lemma RemoveMemberIdempotent(rooms: map<SessionId, seq<UserId>>, sid: SessionId, uid: UserId)
    requires ValidRooms(rooms)
    ensures RemoveMember(RemoveMember(rooms, sid, uid), sid, uid) == RemoveMember(rooms, sid, uid)
  {
    var r := RemoveMember(rooms, sid, uid);
    if sid in r {
      assert uid !in r[sid];
    }
  }

  /**
   * After a disconnect the user is in none of its authorised sessions' entries, no entry is
   * empty, and the sessions it was not authorised for are untouched.
   */
  lemma {:induction false} RemoveFromAllEffect(rooms: map<SessionId, seq<UserId>>, sids: seq<SessionId>, uid: UserId)
    requires ValidRooms(rooms)
    ensures var r := RemoveFromAll(rooms, sids, uid);
      && ValidRooms(r)
      && (forall sid :: sid in sids && sid in r ==> uid !in r[sid])
      && (forall sid :: sid !in sids ==> (sid in r <==> sid in rooms))
      && (forall sid :: sid !in sids && sid in rooms ==> r[sid] == rooms[sid])
  {
    if sids != [] {
      var prefix := sids[..|sids| - 1];
      var last := sids[|sids| - 1];
      RemoveFromAllEffect(rooms, prefix, uid);
      var mid := RemoveFromAll(rooms, prefix, uid);
      RemoveMemberEffect(mid, last, uid);
      assert forall sid :: sid in sids <==> sid in prefix || sid == last by {
        assert sids == prefix + [last];
      }
    }
  }

  // ---------------------------------------------------------------- the authorisation gate

  datatype GateResult = Admit(userId: UserId) | Refuse(message: string)

  /**
   * The checks of `session:join` before anything changes: a token must be given and
   * verify, the session must exist (a failing lookup is the catch-all error), and the
   * caller must be its teacher or its learner.
   */
  function Gate(token: string, verify: string -> Option<UserId>, lookup: Lookup): (r: GateResult)
    ensures token == "" ==> r == Refuse("Not authorized, no token")
    ensures token != "" && verify(token).None? ==> r == Refuse("Not authorized, token failed")
    ensures r.Admit? <==>
      && token != "" && verify(token).Some? && lookup.Found?
      && (verify(token).value == lookup.teacher || verify(token).value == lookup.learner)
    ensures r.Admit? ==> r.userId == verify(token).value
  {
    if token == "" then Refuse("Not authorized, no token")
    else match verify(token)
      case None => Refuse("Not authorized, token failed")
      case Some(uid) =>
        match lookup
        case LookupFailed => Refuse("Failed to join session")
        case Missing => Refuse("Session not found")
        case Found(teacher, learner) =>
          if teacher != uid && learner != uid then Refuse("Not authorized to join this session")
          else Admit(uid)
  }

  // ---------------------------------------------------------------- relays and cleanup as values

  /** The sockets currently in the room of session `sid`. */
  function Sockets(conns: map<ConnId, ConnData>, sid: SessionId): set<ConnId> {
    set c | c in conns && sid in conns[c].rooms
  }

  /** What a disconnect sends for one authorised session, given the registry at that point. */
  function DisconnectStep(rooms: map<SessionId, seq<UserId>>, conns: map<ConnId, ConnData>, c: ConnId,
                          sid: SessionId, uid: UserId): seq<Delivery>
  {
    if sid !in rooms then []
    else
      var rest := Without(rooms[sid], uid);
      [Delivery(Sockets(conns, sid) - {c}, ParticipantLeft(Some(uid)))]
      + (if rest == [] then [] else [Delivery(Sockets(conns, sid), Participants(rest))])
  }

  /** Everything a disconnect sends, session by session in authorisation order. */
  function DisconnectNotices(rooms: map<SessionId, seq<UserId>>, conns: map<ConnId, ConnData>, c: ConnId,
                             sids: seq<SessionId>, uid: UserId): seq<Delivery>
  {
    if sids == [] then []
    else
      var prefix := sids[..|sids| - 1];
      DisconnectNotices(rooms, conns, c, prefix, uid)
      + DisconnectStep(RemoveFromAll(rooms, prefix, uid), conns, c, sids[|sids| - 1], uid)
  }

  /**
   * A disconnect announces the departure only in sessions that had an entry, and sends an
   * updated list only to rooms that stay non-empty; that list no longer holds the user.
   */
  lemma {:induction false} DisconnectNoticesShape(rooms: map<SessionId, seq<UserId>>, conns: map<ConnId, ConnData>,
                                                  c: ConnId, sids: seq<SessionId>, uid: UserId)
    requires ValidRooms(rooms)
    ensures forall d :: d in DisconnectNotices(rooms, conns, c, sids, uid) ==>
      (d.event.Participants? ==> d.event.ids != [] && uid !in d.event.ids && NoDup(d.event.ids))
      && (d.event.ParticipantLeft? ==> d.event.leaver == Some(uid) && c !in d.to)
      && (d.event.Participants? || d.event.ParticipantLeft?)
  {
    if sids != [] {
      var prefix := sids[..|sids| - 1];
      DisconnectNoticesShape(rooms, conns, c, prefix, uid);
      RemoveFromAllEffect(rooms, prefix, uid);
    }
  }

  /** One more session in the disconnect loop: one more `RemoveMember` and one more step of notices. */
  lemma DisconnectUnroll(rooms: map<SessionId, seq<UserId>>, conns: map<ConnId, ConnData>, c: ConnId,
                         sids: seq<SessionId>, i: nat, uid: UserId)
    requires i < |sids|
    ensures RemoveFromAll(rooms, sids[..i + 1], uid) == RemoveMember(RemoveFromAll(rooms, sids[..i], uid), sids[i], uid)
    ensures DisconnectNotices(rooms, conns, c, sids[..i + 1], uid)
         == DisconnectNotices(rooms, conns, c, sids[..i], uid)
            + DisconnectStep(RemoveFromAll(rooms, sids[..i], uid), conns, c, sids[i], uid)
  {
    assert sids[..i + 1][..i] == sids[..i];
  }

  // ---------------------------------------------------------------- the server state

  class Hub {
    /** `roomParticipants`: session id to the users present, in joining order. */
    var rooms: map<SessionId, seq<UserId>>
    /** The live sockets and what the server keeps about each. */
    var conns: map<ConnId, ConnData>
    /** Everything emitted so far, in order. */
    var outbox: seq<Delivery>
    /** The sessions for which the in-progress status update was requested, in order. */
    var statusRequests: seq<SessionId>

    ghost predicate Valid()
      reads this
    {
      ValidRooms(rooms) && ValidConns(conns)
    }

    function RoomSockets(sid: SessionId): set<ConnId>
      reads this
    {
      Sockets(conns, sid)
    }

    constructor ()
      ensures Valid()
      ensures rooms == map[] && conns == map[] && outbox == [] && statusRequests == []
    {
      rooms, conns, outbox, statusRequests := map[], map[], [], [];
    }

    /** A new socket connects: nothing is known about it yet. */
    method Connect(c: ConnId)
      requires Valid() && c !in conns
      modifies this
      ensures Valid()
      ensures conns == old(conns)[c := ConnData(None, [], {})]
      ensures rooms == old(rooms) && outbox == old(outbox) && statusRequests == old(statusRequests)
    {
      conns := conns[c := ConnData(None, [], {})];
    }

    /**
     * `session:join`. A refused join only answers the caller with `session:error`. An
     * admitted one authorises the socket, puts it in the room, adds the user to the entry,
     * requests the in-progress status when the entry then has one member (whether that
     * request fails, `statusUpdateFails`, changes nothing), and sends `session:joined` to the
     * caller, `participant-joined` to the other sockets of the room and the participant list
     * to every socket of the room.
     */
    method Join(c: ConnId, sid: SessionId, token: string, verify: string -> Option<UserId>,
                lookup: SessionId -> Lookup, statusUpdateFails: bool) returns (r: GateResult)
      requires Valid() && c in conns
      modifies this
      ensures Valid()
      ensures r == Gate(token, verify, lookup(sid))
      ensures r.Refuse? ==>
        && rooms == old(rooms) && conns == old(conns) && statusRequests == old(statusRequests)
        && outbox == old(outbox) + [Delivery({c}, SessionError(r.message))]
      ensures r.Admit? ==>
        && rooms == AddMember(old(rooms), sid, r.userId)
        && conns == old(conns)[c := ConnData(Some(r.userId), With(old(conns[c].authorized), sid),
                                             old(conns[c].rooms) + {sid})]
        && statusRequests == old(statusRequests) + (if |rooms[sid]| == 1 then [sid] else [])
        && c in RoomSockets(sid)
        && outbox == old(outbox) + [Delivery({c}, Joined(sid, r.userId)),
                                    Delivery(RoomSockets(sid) - {c}, ParticipantJoined(r.userId)),
                                    Delivery(RoomSockets(sid), Participants(rooms[sid]))]
    {
      r := Gate(token, verify, lookup(sid));
      if r.Refuse? {
        outbox := outbox + [Delivery({c}, SessionError(r.message))];
        return;
      }
      var uid := r.userId;
      var d := conns[c];
      conns := conns[c := ConnData(Some(uid), With(d.authorized, sid), d.rooms + {sid})];
      AddMemberEffect(rooms, sid, uid);
      rooms := AddMember(rooms, sid, uid);
      var members := rooms[sid];
      if |members| == 1 {
        // the update is awaited inside its own try; a failure is swallowed
        statusRequests := statusRequests + [sid];
      }
      var inRoom := RoomSockets(sid);
      outbox := outbox + [Delivery({c}, Joined(sid, uid)),
                          Delivery(inRoom - {c}, ParticipantJoined(uid)),
                          Delivery(inRoom, Participants(members))];
    }

    /**
     * `session:leave`. No authorisation check: the socket leaves the room, its user (if it
     * ever joined) leaves the entry, an emptied entry is deleted, and the authorised set is
     * kept. The departure goes to the other sockets, the remaining list (empty when there
     * was no entry) to the room.
     */
    method Leave(c: ConnId, sid: SessionId)
      requires Valid() && c in conns
      modifies this
      ensures Valid()
      ensures conns == old(conns)[c := old(conns[c]).(rooms := old(conns[c].rooms) - {sid})]
      ensures statusRequests == old(statusRequests)
      ensures old(conns[c].userId).Some? ==> rooms == RemoveMember(old(rooms), sid, old(conns[c].userId).value)
      ensures old(conns[c].userId).None? ==> rooms == old(rooms)
      ensures outbox == old(outbox) + [
        Delivery(RoomSockets(sid) - {c}, ParticipantLeft(old(conns[c].userId))),
        Delivery(RoomSockets(sid), Participants(
          if sid !in old(rooms) then []
          else if old(conns[c].userId).None? then old(rooms[sid])
          else Without(old(rooms[sid]), old(conns[c].userId).value)))]
    {
      var d := conns[c];
      conns := conns[c := d.(rooms := d.rooms - {sid})];
      var remaining: seq<UserId> := [];
      if sid in rooms {
        remaining := rooms[sid];
        if d.userId.Some? {
          remaining := Without(remaining, d.userId.value);
          RemoveMemberEffect(rooms, sid, d.userId.value);
          rooms := RemoveMember(rooms, sid, d.userId.value);
        }
      }
      var inRoom := RoomSockets(sid);
      outbox := outbox + [Delivery(inRoom - {c}, ParticipantLeft(d.userId)),
                          Delivery(inRoom, Participants(remaining))];
    }

    /** `session:chat`: dropped unless authorised, otherwise sent to the whole room, sender included. */
    method SendChat(c: ConnId, sid: SessionId, message: string, now: int)
      requires Valid() && c in conns
      modifies this
      ensures rooms == old(rooms) && conns == old(conns) && statusRequests == old(statusRequests)
      ensures sid !in conns[c].authorized ==> outbox == old(outbox)
      ensures sid in conns[c].authorized ==>
        outbox == old(outbox) + [Delivery(RoomSockets(sid), Chat(conns[c].userId, message, now))]
    {
      if sid !in conns[c].authorized {
        return;
      }
      outbox := outbox + [Delivery(RoomSockets(sid), Chat(conns[c].userId, message, now))];
    }

    /**
     * `webrtc:offer`, `webrtc:answer` and `webrtc:ice-candidate`: dropped unless authorised,
     * otherwise sent to the other sockets of the room only, tagged with the sender's user.
     */
    method Relay(c: ConnId, kind: SignalKind, sid: SessionId, payload: string)
      requires Valid() && c in conns
      modifies this
      ensures rooms == old(rooms) && conns == old(conns) && statusRequests == old(statusRequests)
      ensures sid !in conns[c].authorized ==> outbox == old(outbox)
      ensures sid in conns[c].authorized ==>
        && outbox == old(outbox) + [Delivery(RoomSockets(sid) - {c}, Signal(kind, conns[c].userId, payload))]
        && c !in outbox[|outbox| - 1].to
    {
      if sid !in conns[c].authorized {
        return;
      }
      outbox := outbox + [Delivery(RoomSockets(sid) - {c}, Signal(kind, conns[c].userId, payload))];
    }

    /**
     * `disconnect`. Socket.IO has already taken the socket out of all its rooms when the
     * handler runs. For each authorised session in turn the user leaves the entry, the
     * departure is announced, and the entry is deleted when empty or its list re-sent
     * otherwise. Afterwards the socket is gone.
     */
    method Disconnect(c: ConnId)
      requires Valid() && c in conns
      modifies this
      ensures Valid()
      ensures conns == old(conns) - {c}
      ensures statusRequests == old(statusRequests)
      ensures old(conns[c].userId).Some? ==>
        var left := old(conns)[c := old(conns[c]).(rooms := {})];
        && rooms == RemoveFromAll(old(rooms), old(conns[c].authorized), old(conns[c].userId).value)
        && outbox == old(outbox) + DisconnectNotices(old(rooms), left, c, old(conns[c].authorized),
                                                     old(conns[c].userId).value)
      ensures old(conns[c].userId).None? ==> rooms == old(rooms) && outbox == old(outbox)
    {
      var d := conns[c];
      conns := conns[c := d.(rooms := {})];
      if d.userId.Some? {
        LeaveAll(c, d.authorized, d.userId.value);
      }
      conns := conns - {c};
    }

    /** The loop of `disconnect`: the user leaves each of the sessions `sids` in turn. */
    method LeaveAll(c: ConnId, sids: seq<SessionId>, uid: UserId)
      requires ValidRooms(rooms)
      modifies this
      ensures ValidRooms(rooms)
      ensures conns == old(conns) && statusRequests == old(statusRequests)
      ensures rooms == RemoveFromAll(old(rooms), sids, uid)
      ensures outbox == old(outbox) + DisconnectNotices(old(rooms), conns, c, sids, uid)
    {
      var i := 0;
      while i < |sids|
        invariant 0 <= i <= |sids|
        invariant ValidRooms(rooms)
        invariant conns == old(conns) && statusRequests == old(statusRequests)
        invariant rooms == RemoveFromAll(old(rooms), sids[..i], uid)
        invariant outbox == old(outbox) + DisconnectNotices(old(rooms), conns, c, sids[..i], uid)
      {
        DisconnectUnroll(old(rooms), conns, c, sids, i, uid);
        ghost var done := DisconnectNotices(old(rooms), conns, c, sids[..i], uid);
        ghost var step := DisconnectStep(rooms, conns, c, sids[i], uid);
        AppendAssoc(old(outbox), done, step);
        LeaveOnDisconnect(c, sids[i], uid);
        i := i + 1;
      }
      assert sids[..|sids|] == sids;
    }

    /** One turn of the disconnect loop, for session `sid`. */
    method LeaveOnDisconnect(c: ConnId, sid: SessionId, uid: UserId)
      requires ValidRooms(rooms)
      modifies this
      ensures ValidRooms(rooms)
      ensures conns == old(conns) && statusRequests == old(statusRequests)
      ensures rooms == RemoveMember(old(rooms), sid, uid)
      ensures outbox == old(outbox) + DisconnectStep(old(rooms), conns, c, sid, uid)
    {
      RemoveMemberEffect(rooms, sid, uid);
      if sid in rooms {
        var rest := Without(rooms[sid], uid);
        var inRoom := RoomSockets(sid);
        outbox := outbox + [Delivery(inRoom - {c}, ParticipantLeft(Some(uid)))];
        if rest == [] {
          rooms := rooms - {sid};
        } else {
          rooms := rooms[sid := rest];
          outbox := outbox + [Delivery(inRoom, Participants(rest))];
        }
      }
    }
  }
}

=== FILE: sorting.dfy ===
/**
 * The two orderings `Array.prototype.sort` is used with in the system: a numeric
 * comparator on a key (`(a, b) => key(a) - key(b)`, a stable sort since ES2019) and the
 * default comparator, which orders strings by their UTF-16 code units.
 */
module Sorting {

  // ---------------------------------------------------------------- by an integer key

  ghost predicate SortedBy<T>(s: seq<T>, key: T -> int) {
    forall i, j :: 0 <= i < j < |s| ==> key(s[i]) <= key(s[j])
  }

  /** The elements of `s` whose key is `k`, in their order in `s`. */
  function KeyFilter<T>(s: seq<T>, key: T -> int, k: int): seq<T> {
    if s == [] then []
    else (if key(s[0]) == k then [s[0]] else []) + KeyFilter(s[1..], key, k)
  }

  /** Puts `x` before the first element whose key is not smaller. */
  function InsertByKey<T>(x: T, s: seq<T>, key: T -> int): (r: seq<T>)
    ensures multiset(r) == multiset{x} + multiset(s)
    ensures |r| == |s| + 1
    ensures r[0] == x || (s != [] && r[0] == s[0])
  {
    if s == [] || key(x) <= key(s[0]) then [x] + s
    else
      assert s == [s[0]] + s[1..];
      [s[0]] + InsertByKey(x, s[1..], key)
  }

  lemma {:induction false} InsertByKeySorted<T>(x: T, s: seq<T>, key: T -> int)
    requires SortedBy(s, key)
    ensures SortedBy(InsertByKey(x, s, key), key)
  {
    if s != [] && key(x) > key(s[0]) {
      var rest := InsertByKey(x, s[1..], key);
      InsertByKeySorted(x, s[1..], key);
      var r := [s[0]] + rest;
      assert key(s[0]) <= key(rest[0]);
      forall i, j | 0 <= i < j < |r| ensures key(r[i]) <= key(r[j]) {
        if i == 0 && j > 1 { assert key(rest[0]) <= key(rest[j - 1]); }
      }
    }
  }

  /** Stable ascending sort of `s` by `key`. */
  function SortByKey<T>(s: seq<T>, key: T -> int): (r: seq<T>)
    ensures multiset(r) == multiset(s)
    ensures |r| == |s|
    ensures SortedBy(r, key)
  {
    if s == [] then []
    else
      assert s == [s[0]] + s[1..];
      var sorted := SortByKey(s[1..], key);
      InsertByKeySorted(s[0], sorted, key);
      InsertByKey(s[0], sorted, key)
  }

  lemma KeyFilterCons<T>(y: T, t: seq<T>, key: T -> int, k: int)
    ensures KeyFilter([y] + t, key, k) == (if key(y) == k then [y] else []) + KeyFilter(t, key, k)
  {
    assert ([y] + t)[1..] == t;
  }

  /** The sorted copy holds the same elements. */
  lemma SortByKeyMembers<T>(s: seq<T>, key: T -> int)
    ensures forall x :: x in SortByKey(s, key) <==> x in s
  {
    var r := SortByKey(s, key);
    forall x ensures x in r <==> x in s {
      assert x in r <==> x in multiset(r);
      assert x in s <==> x in multiset(s);
    }
  }

  lemma {:induction false} InsertKeyFilter<T>(x: T, s: seq<T>, key: T -> int, k: int)
    ensures KeyFilter(InsertByKey(x, s, key), key, k)
         == (if key(x) == k then [x] else []) + KeyFilter(s, key, k)
  {
    if s == [] || key(x) <= key(s[0]) {
      KeyFilterCons(x, s, key, k);
    } else {
      InsertKeyFilter(x, s[1..], key, k);
      InsertKeyFilterPast(x, s, key, k);
    }
  }

  /** One step of `InsertKeyFilter`: `x` goes past the head, whose key is smaller, so the two filters commute. */
  lemma InsertKeyFilterPast<T>(x: T, s: seq<T>, key: T -> int, k: int)
    requires s != [] && key(x) > key(s[0])
    requires KeyFilter(InsertByKey(x, s[1..], key), key, k)
          == (if key(x) == k then [x] else []) + KeyFilter(s[1..], key, k)
    ensures KeyFilter(InsertByKey(x, s, key), key, k)
         == (if key(x) == k then [x] else []) + KeyFilter(s, key, k)
  {
    var rest := InsertByKey(x, s[1..], key);
    assert InsertByKey(x, s, key) == [s[0]] + rest;
    KeyFilterCons(s[0], rest, key, k);
    var f0 := if key(s[0]) == k then [s[0]] else [];
    var fx := if key(x) == k then [x] else [];
    SwapPrefix(f0, fx, KeyFilter(InsertByKey(x, s, key), key, k), KeyFilter(rest, key, k),
               KeyFilter(s[1..], key, k), KeyFilter(s, key, k));
  }

  /** Two prefixes commute when one of them is empty. */
  lemma SwapPrefix<T>(f0: seq<T>, fx: seq<T>, a: seq<T>, b: seq<T>, c: seq<T>, d: seq<T>)
    requires f0 == [] || fx == []
    requires a == f0 + b && b == fx + c && d == f0 + c
    ensures a == fx + d
  {
    if f0 == [] {
      assert a == b && d == c;
    } else {
      assert b == c && a == d;
    }
  }

  /** Stability: among equal keys the sort keeps the input order. */
  lemma {:induction false} SortByKeyStable<T>(s: seq<T>, key: T -> int, k: int)
    ensures KeyFilter(SortByKey(s, key), key, k) == KeyFilter(s, key, k)
  {
    if s != [] {
      SortByKeyStable(s[1..], key, k);
      InsertKeyFilter(s[0], SortByKey(s[1..], key), key, k);
    }
  }

  // ---------------------------------------------------------------- strings, default comparator

  /** `a` sorts before or equal to `b`: a prefix comes first, otherwise the first differing code unit decides. */
  predicate LexLe(a: string, b: string) {
    a == [] || (b != [] && (a[0] < b[0] || (a[0] == b[0] && LexLe(a[1..], b[1..]))))
  }

  lemma {:induction false} LexLeTotal(a: string, b: string)
    ensures LexLe(a, b) || LexLe(b, a)
  {
    if a != [] && b != [] && a[0] == b[0] { LexLeTotal(a[1..], b[1..]); }
  }

  lemma {:induction false} LexLeAntisymmetric(a: string, b: string)
    requires LexLe(a, b) && LexLe(b, a)
    ensures a == b
  {
    if a != [] && b != [] {
      LexLeAntisymmetric(a[1..], b[1..]);
      assert a == [a[0]] + a[1..] && b == [b[0]] + b[1..];
    }
  }

  lemma {:induction false} LexLeTransitive(a: string, b: string, c: string)
    requires LexLe(a, b) && LexLe(b, c)
    ensures LexLe(a, c)
  {
    if a != [] && b != [] && c != [] && a[0] == b[0] && b[0] == c[0] {
      LexLeTransitive(a[1..], b[1..], c[1..]);
    }
  }

  ghost predicate SortedLex(s: seq<string>) {
    forall i, j :: 0 <= i < j < |s| ==> LexLe(s[i], s[j])
  }

  function InsertLex(x: string, s: seq<string>): (r: seq<string>)
    ensures multiset(r) == multiset{x} + multiset(s)
    ensures |r| == |s| + 1
    ensures r[0] == x || (s != [] && r[0] == s[0])
  {
    if s == [] || LexLe(x, s[0]) then [x] + s
    else
      assert s == [s[0]] + s[1..];
      [s[0]] + InsertLex(x, s[1..])
  }

  lemma {:induction false} InsertLexSorted(x: string, s: seq<string>)
    requires SortedLex(s)
    ensures SortedLex(InsertLex(x, s))
  {
    var r := InsertLex(x, s);
    if s == [] || LexLe(x, s[0]) {
      forall i, j | 0 <= i < j < |r| ensures LexLe(r[i], r[j]) {
        if i == 0 && j > 1 { LexLeTransitive(x, s[0], s[j - 1]); }
      }
    } else {
      var rest := InsertLex(x, s[1..]);
      InsertLexSorted(x, s[1..]);
      LexLeTotal(x, s[0]);
      assert LexLe(s[0], rest[0]);
      forall i, j | 0 <= i < j < |r| ensures LexLe(r[i], r[j]) {
        if i == 0 && j > 1 { LexLeTransitive(s[0], rest[0], rest[j - 1]); }
      }
    }
  }

  /** `[...s].sort()` on strings. */
  function SortStrings(s: seq<string>): (r: seq<string>)
    ensures multiset(r) == multiset(s)
    ensures |r| == |s|
    ensures SortedLex(r)
  {
    if s == [] then []
    else
      assert s == [s[0]] + s[1..];
      var sorted := SortStrings(s[1..]);
      InsertLexSorted(s[0], sorted);
      InsertLex(s[0], sorted)
  }

  /** The first string of a sorted copy is the least string of the list. */
  lemma SortStringsHeadIsLeast(s: seq<string>)
    requires s != []
    ensures SortStrings(s)[0] in s
    ensures forall x :: x in s ==> LexLe(SortStrings(s)[0], x)
  {
    var r := SortStrings(s);
    assert r[0] in multiset(s);
    forall x | x in s ensures LexLe(r[0], x) {
      assert x in multiset(r);
      var j :| 0 <= j < |r| && r[j] == x;
      if j == 0 { LexLeRefl(x); }
    }
  }

  lemma {:induction false} LexLeRefl(a: string)
    ensures LexLe(a, a)
  {
    if a != [] { LexLeRefl(a[1..]); }
  }
}

=== FILE: store.dfy ===
/**
 * The server's stored records, as the controllers read and write them, and the database
 * that holds them. A document is a value; a handler that changes fields of a fetched
 * document and saves it replaces that document in the collection. Users, exchanges and
 * sessions are keyed by id; reviews are kept in their natural order, which the rating
 * aggregation walks. Defaults of the schemas are filled in where a handler creates a
 * record; the schemas' save-time validation is not part of this model.
 */
module Store {
  import opened Common

  /** An object id, by its hexadecimal text. */
  type Id = string

  /** The skill on either side of an exchange. */
  datatype SkillRef = SkillRef(name: string, level: Option<string>)

  datatype Progress = Progress(completedSessions: int, totalSessions: int)

  datatype Exchange = Exchange(
    requester: Id,
    recipient: Id,
    requesterSkill: SkillRef,
    recipientSkill: SkillRef,
    status: string,
    /** In weeks. */
    duration: int,
    frequency: string,
    preferredMeetingType: string,
    notes: Option<string>,
    progress: Progress,
    startDate: Option<int>,
    endDate: Option<int>)

  /** The requester or the recipient. */
  predicate IsParty(e: Exchange, user: Id) {
    e.requester == user || e.recipient == user
  }

  datatype Feedback = Feedback(rating: Option<int>, comment: Option<string>)

  datatype Session = Session(
    exchange: Id,
    teacher: Id,
    learner: Id,
    skill: string,
    /** Milliseconds since the epoch. */
    scheduledDate: int,
    /** In minutes. */
    duration: int,
    sessionType: string,
    location: Option<string>,
    agenda: Option<string>,
    status: string,
    teacherNotes: Option<string>,
    learnerNotes: Option<string>,
    teacherFeedback: Option<Feedback>,
    learnerFeedback: Option<Feedback>,
    reminderSent: bool,
    reminderSentAt: Option<int>)

  /** The teacher or the learner. */
  predicate Attends(s: Session, user: Id) {
    s.teacher == user || s.learner == user
  }

  datatype Categories = Categories(
    communication: Option<int>, knowledge: Option<int>, patience: Option<int>, reliability: Option<int>)

  datatype Review = Review(
    id: Id,
    reviewer: Id,
    reviewee: Id,
    exchange: Id,
    rating: int,
    skillTaught: string,
    categories: Option<Categories>,
    comment: Option<string>,
    isPublic: bool)

  datatype Skill = Skill(id: Id, name: string, level: string, description: Option<string>)

  datatype Location = Location(city: Option<string>, country: Option<string>)

  datatype DayAvailability = DayAvailability(day: string, slots: seq<(string, string)>)

  /** A user's rating: the average in tenths of a star (45 is 4.5) and the number of reviews. */
  datatype Rating = Rating(averageTenths: int, count: int)

  datatype User = User(
    name: string,
    bio: Option<string>,
    location: Option<Location>,
    timezone: string,
    availability: seq<DayAvailability>,
    profilePicture: string,
    skillsOffered: seq<Skill>,
    skillsDesired: seq<Skill>,
    rating: Rating)

  /** The position of the first review with this id, as `findById` finds it. */
  function FindReview(reviews: seq<Review>, id: Id): (r: Option<nat>)
    ensures r.Some? ==> r.value < |reviews| && reviews[r.value].id == id
    ensures r.Some? ==> forall i :: 0 <= i < r.value ==> reviews[i].id != id
    ensures r.None? <==> forall i :: 0 <= i < |reviews| ==> reviews[i].id != id
  {
    if reviews == [] then None
    else if reviews[0].id == id then Some(0)
    else
      match FindReview(reviews[1..], id)
      case None => None
      case Some(k) => Some(k + 1)
  }

  /** The collection without the review at position `i`. */
  function RemoveAt(reviews: seq<Review>, i: nat): (r: seq<Review>)
    requires i < |reviews|
    ensures |r| == |reviews| - 1
    ensures multiset(r) + multiset{reviews[i]} == multiset(reviews)
    ensures forall j :: 0 <= j < i ==> r[j] == reviews[j]
    ensures forall j :: i <= j < |r| ==> r[j] == reviews[j + 1]
  {
    assert reviews == reviews[..i] + [reviews[i]] + reviews[i + 1..];
    reviews[..i] + reviews[i + 1..]
  }

  /** The database: one collection per model the controllers use. */
  class Db {
    var users: map<Id, User>
    var exchanges: map<Id, Exchange>
    var sessions: map<Id, Session>
    var reviews: seq<Review>

    constructor()
      ensures users == map[] && exchanges == map[] && sessions == map[] && reviews == []
    {
      users := map[];
      exchanges := map[];
      sessions := map[];
      reviews := [];
    }
  }
}

=== FILE: user_controller.dfy ===
/**
 * The user handlers that change a profile: the field-by-field profile update, adding and
 * removing a skill on either list, and the threshold `getMatches` applies to the scored
 * candidates.
 */
module UserController {
  import opened Common
  import opened Store
  import JsString
  import Matching

  // ---------------------------------------------------------------- updateProfile

  /** The request body's profile fields (`None` when absent) and the uploaded file's path, if any. */
  datatype ProfileUpdate = ProfileUpdate(
    name: Option<string>,
    bio: Option<string>,
    location: Option<Location>,
    timezone: Option<string>,
    availability: Option<seq<DayAvailability>>,
    file: Option<string>)

  /** `a || b` on an optional text: the empty text is falsy like an absent one. */
  function OrText(v: Option<string>, old_: string): string {
    if v.Some? && v.value != "" then v.value else old_
  }

  /**
   * The profile after the update: a falsy text keeps the old value; a given location or
   * availability always replaces it. The schema trims a name as it is assigned.
   */
  function Updated(u: User, body: ProfileUpdate): (r: User)
    ensures r.name == (if body.name.Some? && body.name.value != "" then JsString.Trim(body.name.value) else u.name)
    ensures r.bio == (if body.bio.Some? && body.bio.value != "" then body.bio else u.bio)
    ensures r.location == (if body.location.Some? then body.location else u.location)
    ensures r.timezone == (if body.timezone.Some? && body.timezone.value != "" then body.timezone.value else u.timezone)
    ensures r.availability == (if body.availability.Some? then body.availability.value else u.availability)
    ensures r.profilePicture == (if body.file.Some? then body.file.value else u.profilePicture)
    ensures r.skillsOffered == u.skillsOffered && r.skillsDesired == u.skillsDesired && r.rating == u.rating
  {
    var r := u.(
      name := if body.name.Some? && body.name.value != "" then JsString.Trim(body.name.value) else u.name,
      bio := if body.bio.Some? && body.bio.value != "" then body.bio else u.bio,
      location := if body.location.Some? then body.location else u.location,
      timezone := OrText(body.timezone, u.timezone),
      availability := if body.availability.Some? then body.availability.value else u.availability);
    if body.file.Some? then r.(profilePicture := body.file.value) else r
  }

  /** A given name is stored without whitespace at either end, and is blank exactly when it was all whitespace. */
  lemma UpdatedNameTrimmed(u: User, body: ProfileUpdate)
    requires body.name.Some? && body.name.value != ""
    ensures var n := Updated(u, body).name;
      && (n == [] || (!JsString.IsWhitespace(n[0]) && !JsString.IsWhitespace(n[|n| - 1])))
      && (n == [] <==> forall i :: 0 <= i < |body.name.value| ==> JsString.IsWhitespace(body.name.value[i]))
  {
    JsString.TrimEmptyIff(body.name.value);
  }

  /** An empty body and no file leave the profile as it was, and sending the same update twice equals sending it once. */
  lemma UpdateProfileStable(u: User, body: ProfileUpdate)
    ensures Updated(u, ProfileUpdate(None, None, None, None, None, None)) == u
    ensures Updated(Updated(u, body), body) == Updated(u, body)
  {
  }

  /** The checks `save` runs on the changed profile: a name is required, and a bio has at most 500 code units. */
  predicate SavesProfile(u: User) {
    u.name != "" && (u.bio.Some? ==> |u.bio.value| <= 500)
  }

  /**
   * `updateProfile`: 404 when the caller's user is gone; otherwise the fields are
   * overwritten and saved, and a profile the schema refuses replies 500 with nothing saved.
   */
  method UpdateProfile(db: Db, caller: Id, body: ProfileUpdate) returns (reply: Reply)
    modifies db
    ensures caller !in old(db.users) ==> reply == NotFound && db.users == old(db.users)
    ensures caller in old(db.users) && SavesProfile(Updated(old(db.users)[caller], body)) ==>
      reply == Ok && db.users == old(db.users)[caller := Updated(old(db.users)[caller], body)]
    ensures caller in old(db.users) && !SavesProfile(Updated(old(db.users)[caller], body)) ==>
      reply == ServerError && db.users == old(db.users)
    ensures caller in old(db.users) && body.name.Some? && body.name.value != "" && JsString.Trim(body.name.value) == "" ==>
      reply == ServerError
    ensures db.exchanges == old(db.exchanges) && db.sessions == old(db.sessions) && db.reviews == old(db.reviews)
  {
    if caller !in db.users {
      return NotFound;
    }
    // The field-by-field assignments of the handler, then `save`.
    var user := Updated(db.users[caller], body);
    if !SavesProfile(user) {
      return ServerError;
    }
    db.users := db.users[caller := user];
    reply := Ok;
  }

  // ---------------------------------------------------------------- skills

  /** The skill `addSkill` pushes: the schema's default level is intermediate on the offered list and beginner on the desired one. */
  function NewSkill(id: Id, kind: string, name: string, level: Option<string>, description: Option<string>): (s: Skill)
    ensures s.id == id && s.name == name && s.description == description
    ensures level.Some? ==> s.level == level.value
    ensures level.None? && kind == "offered" ==> s.level == "intermediate"
    ensures level.None? && kind != "offered" ==> s.level == "beginner"
  {
    Skill(id, name, level.GetOr(if kind == "offered" then "intermediate" else "beginner"), description)
  }

  /** The list without the skills carrying this id, in their order. */
  function DropSkill(skills: seq<Skill>, id: Id): (r: seq<Skill>)
    ensures forall s :: s in r <==> s in skills && s.id != id
    ensures |r| <= |skills|
  {
    if skills == [] then []
    else
      var init := DropSkill(skills[..|skills| - 1], id);
      var last := skills[|skills| - 1];
      assert forall s :: s in skills <==> s in skills[..|skills| - 1] || s == last;
      if last.id != id then init + [last] else init
  }

  lemma {:induction false} DropSkillAppend(skills: seq<Skill>, more: seq<Skill>, id: Id)
    ensures DropSkill(skills + more, id) == DropSkill(skills, id) + DropSkill(more, id)
    decreases |more|
  {
    if more == [] {
      assert skills + more == skills;
    } else {
      var init := more[..|more| - 1];
      assert (skills + more)[..|skills + more| - 1] == skills + init;
      assert (skills + more)[|skills + more| - 1] == more[|more| - 1];
      DropSkillAppend(skills, init, id);
    }
  }

  lemma {:induction false} DropAbsent(skills: seq<Skill>, id: Id)
    requires forall i :: 0 <= i < |skills| ==> skills[i].id != id
    ensures DropSkill(skills, id) == skills
  {
    if skills != [] {
      DropAbsent(skills[..|skills| - 1], id);
      assert skills[..|skills| - 1] + [skills[|skills| - 1]] == skills;
    }
  }

  /**
   * Removing a skill just added under a fresh id gives the list back unchanged, and removing
   * twice is removing once.
   */
  lemma AddThenRemove(skills: seq<Skill>, s: Skill)
    requires forall i :: 0 <= i < |skills| ==> skills[i].id != s.id
    ensures DropSkill(skills + [s], s.id) == skills
    ensures DropSkill(DropSkill(skills + [s], s.id), s.id) == DropSkill(skills + [s], s.id)
  {
    DropSkillAppend(skills, [s], s.id);
    DropAbsent(skills, s.id);
    assert [s][..0] == [];
  }

  /** `addSkill`: 404 for a missing user; "offered" or "desired" appends to that list only; any other type is 400 with nothing saved. */
  method AddSkill(db: Db, caller: Id, kind: string, name: string, level: Option<string>, description: Option<string>, newSkillId: Id)
    returns (reply: Reply)
    modifies db
    ensures caller !in old(db.users) ==> reply == NotFound && db.users == old(db.users)
    ensures caller in old(db.users) && kind == "offered" ==>
      var u := old(db.users)[caller];
      reply == Created
      && db.users == old(db.users)[caller := u.(skillsOffered := u.skillsOffered + [NewSkill(newSkillId, kind, name, level, description)])]
    ensures caller in old(db.users) && kind == "desired" ==>
      var u := old(db.users)[caller];
      reply == Created
      && db.users == old(db.users)[caller := u.(skillsDesired := u.skillsDesired + [NewSkill(newSkillId, kind, name, level, description)])]
    ensures caller in old(db.users) && kind != "offered" && kind != "desired" ==> reply == BadRequest && db.users == old(db.users)
    ensures db.exchanges == old(db.exchanges) && db.sessions == old(db.sessions) && db.reviews == old(db.reviews)
  {
    if caller !in db.users {
      return NotFound;
    }
    var user := db.users[caller];
    var skill := NewSkill(newSkillId, kind, name, level, description);
    if kind == "offered" {
      user := user.(skillsOffered := user.skillsOffered + [skill]);
    } else if kind == "desired" {
      user := user.(skillsDesired := user.skillsDesired + [skill]);
    } else {
      return BadRequest;
    }
    db.users := db.users[caller := user];
    reply := Created;
  }

  /** `removeSkill`: 404 for a missing user; the chosen list loses every skill with the id; any other type is 400 with nothing saved. */
  method RemoveSkill(db: Db, caller: Id, kind: string, skillId: Id) returns (reply: Reply)
    modifies db
    ensures caller !in old(db.users) ==> reply == NotFound && db.users == old(db.users)
    ensures caller in old(db.users) && kind == "offered" ==>
      var u := old(db.users)[caller];
      reply == Ok && db.users == old(db.users)[caller := u.(skillsOffered := DropSkill(u.skillsOffered, skillId))]
    ensures caller in old(db.users) && kind == "desired" ==>
      var u := old(db.users)[caller];
      reply == Ok && db.users == old(db.users)[caller := u.(skillsDesired := DropSkill(u.skillsDesired, skillId))]
    ensures caller in old(db.users) && kind != "offered" && kind != "desired" ==> reply == BadRequest && db.users == old(db.users)
    ensures db.exchanges == old(db.exchanges) && db.sessions == old(db.sessions) && db.reviews == old(db.reviews)
  {
    if caller !in db.users {
      return NotFound;
    }
    var user := db.users[caller];
    if kind == "offered" {
      user := user.(skillsOffered := DropSkill(user.skillsOffered, skillId));
    } else if kind == "desired" {
      user := user.(skillsDesired := DropSkill(user.skillsDesired, skillId));
    } else {
      return BadRequest;
    }
    db.users := db.users[caller := user];
    reply := Ok;
  }

  // ---------------------------------------------------------------- getMatches

  /**
   * The threshold `percentage >= minScore` compares against: 30 when the query has none,
   * otherwise the query text converted to a number, `None` when it is not a number (every
   * comparison with NaN is false).
   */
  function Threshold(minScore: Option<string>): (r: Option<int>)
    ensures minScore.None? ==> r == Some(30)
  {
    if minScore.None? then Some(30) else JsString.ToNumber(minScore.value)
  }

  /** The matches `getMatches` answers with: those at or above the threshold, in the order `findMatches` gave. */
  function GetMatches(found: seq<Matching.Candidate>, minScore: Option<string>): (r: seq<Matching.Candidate>)
    ensures forall c :: c in r <==> c in found && Threshold(minScore).Some? && c.percentage >= Threshold(minScore).value
    ensures multiset(r) <= multiset(found)
    ensures Threshold(minScore).None? ==> r == []
  {
    match Threshold(minScore)
    case None => []
    case Some(t) => Matching.KeepAbove(found, t)
  }

  lemma {:induction false} KeepAboveAll(cs: seq<Matching.Candidate>, t: int)
    requires forall i :: 0 <= i < |cs| ==> cs[i].percentage >= t
    ensures Matching.KeepAbove(cs, t) == cs
  {
    if cs != [] {
      var init, last := cs[..|cs| - 1], cs[|cs| - 1];
      assert init + [last] == cs;
      KeepAboveAll(init, t);
      Matching.KeepAboveSnoc(init, last, t);
    }
  }

  predicate NonIncreasing(cs: seq<Matching.Candidate>) {
    forall i, j :: 0 <= i < j < |cs| ==> cs[i].percentage >= cs[j].percentage
  }

  lemma {:induction false} KeepAboveSorted(cs: seq<Matching.Candidate>, t: int)
    requires NonIncreasing(cs)
    ensures NonIncreasing(Matching.KeepAbove(cs, t))
  {
    if cs != [] {
      var init, last := cs[..|cs| - 1], cs[|cs| - 1];
      assert init + [last] == cs;
      KeepAboveSorted(init, t);
      Matching.KeepAboveSnoc(init, last, t);
      if last.percentage >= t {
        LastIsSmallest(cs);
        AppendSmallest(Matching.KeepAbove(init, t), last);
      }
    }
  }

  lemma LastIsSmallest(cs: seq<Matching.Candidate>)
    requires cs != [] && NonIncreasing(cs)
    ensures forall c :: c in cs[..|cs| - 1] ==> c.percentage >= cs[|cs| - 1].percentage
  {
    forall c | c in cs[..|cs| - 1] ensures c.percentage >= cs[|cs| - 1].percentage {
      var k :| 0 <= k < |cs| - 1 && cs[..|cs| - 1][k] == c;
      assert cs[k] == c;
    }
  }

  lemma AppendSmallest(r: seq<Matching.Candidate>, x: Matching.Candidate)
    requires NonIncreasing(r) && forall c :: c in r ==> c.percentage >= x.percentage
    ensures NonIncreasing(r + [x])
  {
    var r' := r + [x];
    forall i, j | 0 <= i < j < |r'| ensures r'[i].percentage >= r'[j].percentage {
      assert r'[i] == r[i] || i == |r|;
      if j == |r| {
        assert r[i] in r;
      } else {
        assert r'[j] == r[j];
      }
    }
  }

  /**
   * Without a `minScore` the filter keeps every match `findMatches` returned, since those are
   * already at 30% or more; with any threshold the answer stays ordered by non-increasing
   * percentage.
   */
  lemma GetMatchesOnFindMatches(cs: seq<Matching.Candidate>, minScore: Option<string>)
    ensures GetMatches(Matching.FindMatches(cs), None) == Matching.FindMatches(cs)
    ensures NonIncreasing(GetMatches(Matching.FindMatches(cs), minScore))
  {
    var found := Matching.FindMatches(cs);
    assert forall i :: 0 <= i < |found| ==> found[i] in found;
    KeepAboveAll(found, 30);
    if Threshold(minScore).Some? {
      KeepAboveSorted(found, Threshold(minScore).value);
    }
  }
}

=== FILE: validators.dfy ===
/**
 * The client's form schemas. Each schema is written as data, a list of fields with the
 * tests declared on them, and `Accepts` interprets a schema over the form's values the
 * way the schema library does: a field is first cast to its type (a number becomes its
 * decimal text in a text field, a numeric text becomes its number in a number field, and
 * a `.trim()` field is trimmed), an absent value passes every test but `required`, a
 * text `required` also refuses the empty string, and bounds are inclusive. A lemma per
 * schema spells out what acceptance means.
 */
module Validators {
  import opened Common
  import opened JsString
  import Helpers

  /** A form value: absent (`undefined`), a text, or a number (a date is its milliseconds). */
  datatype Value = Absent | Str(s: string) | Num(n: int)

  datatype Kind = Text(trim: bool) | Number | Date

  datatype Test =
    | Required
    | MinLength(n: nat)
    | MaxLength(n: nat)
    | OneOf(options: seq<string>)
    /** `oneOf([ref(path), null])`: equal to the value at `path`, a text field, after its cast. */
    | SameAs(path: string)
    | AtLeast(bound: int)
    | AtMost(bound: int)

  /** A field at a dotted path (`requesterSkill.name`) with its type and tests. */
  datatype Field = Field(path: string, kind: Kind, tests: seq<Test>)

  type Values = map<string, Value>

  function Lookup(values: Values, path: string): (v: Value)
    ensures path !in values ==> v.Absent?
  {
    if path in values then values[path] else Absent
  }

  /** `s.replace(/\s/g, '')`: every whitespace code unit removed. */
  function Unspaced(s: string): (r: string)
    ensures |r| <= |s|
    ensures forall i :: 0 <= i < |r| ==> !IsWhitespace(r[i])
  {
    if s == [] then []
    else if IsWhitespace(s[0]) then Unspaced(s[1..])
    else [s[0]] + Unspaced(s[1..])
  }

  predicate AllDigits(t: string) {
    forall i :: 0 <= i < |t| ==> IsDigit(t[i])
  }

  /**
   * Unary `+` on a text without whitespace, for an optional sign followed by decimal
   * digits; `None` stands for NaN, which the empty text also gives here.
   */
  function NumericText(t: string): (r: Option<int>)
    ensures t != [] && AllDigits(t) ==> r == Some(DigitsValue(t) as int)
    ensures |t| >= 2 && t[0] == '-' && AllDigits(t[1..]) ==> r == Some(-(DigitsValue(t[1..]) as int))
    ensures |t| >= 2 && t[0] == '+' && AllDigits(t[1..]) ==> r == Some(DigitsValue(t[1..]) as int)
    ensures r.Some? ==> t != [] && (AllDigits(t) || (|t| >= 2 && (t[0] == '-' || t[0] == '+') && AllDigits(t[1..])))
  {
    if |t| >= 2 && (t[0] == '-' || t[0] == '+') && AllDigits(t[1..]) then
      var v: int := DigitsValue(t[1..]);
      if t[0] == '-' then Some(-v) else Some(v)
    else if t != [] && AllDigits(t) then Some(DigitsValue(t))
    else None
  }

  /** The value as a text field reads it: a number becomes its decimal text (`toString`). */
  function AsText(v: Value): (r: Option<string>)
    ensures r.None? <==> v.Absent?
    ensures v.Str? ==> r == Some(v.s)
  {
    match v
    case Absent => None
    case Str(s) => Some(s)
    case Num(n) => Some(IntToString(n))
  }

  /** The value as a number field reads it: a text loses its whitespace and goes through unary `+`. */
  function AsNumber(v: Value): (r: Option<int>)
    ensures v.Num? ==> r == Some(v.n)
    ensures v.Absent? ==> r.None?
  {
    match v
    case Absent => None
    case Str(s) => NumericText(Unspaced(s))
    case Num(n) => Some(n)
  }

  /**
   * The cast before testing. A text field turns a number into text and `.trim()` trims;
   * a number field turns a numeric text into its number and keeps any other text, which
   * the type check then refuses (the library's NaN); a date is kept as given.
   */
  function Cast(kind: Kind, v: Value): (r: Value)
    ensures r.Absent? <==> v.Absent?
    ensures kind.Text? && !v.Absent? ==> r == Str(if kind.trim then Trim(AsText(v).value) else AsText(v).value)
    ensures kind.Number? && AsNumber(v).Some? ==> r == Num(AsNumber(v).value)
    ensures kind.Number? && AsNumber(v).None? ==> r == v
    ensures kind.Date? ==> r == v
  {
    match kind
    case Text(trim) =>
      if v.Absent? then Absent
      else
        var t := AsText(v).value;
        Str(if trim then Trim(t) else t)
    case Number =>
      if AsNumber(v).Some? then Num(AsNumber(v).value) else v
    case Date => v
  }

  /** A text without whitespace is kept whole by `Unspaced`. */
  lemma {:induction false} UnspacedKeeps(s: string)
    requires forall i :: 0 <= i < |s| ==> !IsWhitespace(s[i])
    ensures Unspaced(s) == s
  {
    if s != [] {
      UnspacedKeeps(s[1..]);
      assert s == [s[0]] + s[1..];
    }
  }

  /** A number typed into a form as its decimal text, with whitespace around it, is read back as that number. */
  lemma NumberTextReadBack(n: int, lead: string, trail: string)
    requires forall i :: 0 <= i < |lead| ==> IsWhitespace(lead[i])
    requires forall i :: 0 <= i < |trail| ==> IsWhitespace(trail[i])
    ensures AsNumber(Str(lead + IntToString(n) + trail)) == Some(n)
    ensures Cast(Number, Str(lead + IntToString(n) + trail)) == Num(n)
  {
    UnspacedPadded(lead, IntToString(n), trail);
    NumericOfIntText(n);
  }

  /** Unary `+` reads the decimal text of a number back as the number. */
  lemma NumericOfIntText(n: int)
    ensures NumericText(IntToString(n)) == Some(n)
  {
    if n < 0 {
      NumericOfNegativeText(-n);
    } else {
      DigitsOfNat(n);
    }
  }

  lemma NumericOfNegativeText(d: nat)
    ensures NumericText("-" + NatToString(d)) == Some(-(d as int))
  {
    var t := "-" + NatToString(d);
    DigitsOfNat(d);
    assert t[1..] == NatToString(d);
  }

  /** Removing whitespace from a padded text without whitespace gives the text back. */
  lemma UnspacedPadded(lead: string, t: string, trail: string)
    requires forall i :: 0 <= i < |lead| ==> IsWhitespace(lead[i])
    requires forall i :: 0 <= i < |t| ==> !IsWhitespace(t[i])
    requires forall i :: 0 <= i < |trail| ==> IsWhitespace(trail[i])
    ensures Unspaced(lead + t + trail) == t
  {
    UnspacedAppend(lead + t, trail);
    UnspacedAppend(lead, t);
    UnspacedBlank(lead);
    UnspacedBlank(trail);
    UnspacedKeeps(t);
  }

  lemma {:induction false} UnspacedAppend(a: string, b: string)
    ensures Unspaced(a + b) == Unspaced(a) + Unspaced(b)
  {
    if a != [] {
      assert (a + b)[1..] == a[1..] + b;
      UnspacedAppend(a[1..], b);
    } else {
      assert a + b == b;
    }
  }

  lemma {:induction false} UnspacedBlank(pad: string)
    requires forall i :: 0 <= i < |pad| ==> IsWhitespace(pad[i])
    ensures Unspaced(pad) == []
  {
    if pad != [] { UnspacedBlank(pad[1..]); }
  }

  /** A value of the wrong type fails the type check. */
  predicate OfKind(kind: Kind, v: Value) {
    v.Absent? || (kind.Text? && v.Str?) || (!kind.Text? && v.Num?)
  }

  predicate Passes(t: Test, v: Value, values: Values) {
    match t
    case Required => v.Num? || (v.Str? && v.s != [])
    case MinLength(n) => v.Str? ==> |v.s| >= n
    case MaxLength(n) => v.Str? ==> |v.s| <= n
    case OneOf(options) => v.Str? ==> v.s in options
    case SameAs(path) => v.Absent? || v == Cast(Text(false), Lookup(values, path))
    case AtLeast(bound) => v.Num? ==> v.n >= bound
    case AtMost(bound) => v.Num? ==> v.n <= bound
  }

  /** Every test of the list passes. */
  predicate AllPass(tests: seq<Test>, v: Value, values: Values) {
    tests == [] || (Passes(tests[0], v, values) && AllPass(tests[1..], v, values))
  }

  /** The field's value as its tests see it. */
  function FieldValue(f: Field, values: Values): Value {
    Cast(f.kind, Lookup(values, f.path))
  }

  predicate FieldOk(f: Field, values: Values) {
    OfKind(f.kind, FieldValue(f, values)) && AllPass(f.tests, FieldValue(f, values), values)
  }

  /** Every field of the schema is valid. */
  predicate Accepts(schema: seq<Field>, values: Values) {
    schema == [] || (FieldOk(schema[0], values) && Accepts(schema[1..], values))
  }

  /** Opens `Accepts` field by field. */
  lemma UnfoldFields(schema: seq<Field>, values: Values)
    ensures Accepts(schema, values) <==> Accepts(schema[0..], values)
    ensures forall k {:trigger schema[k..]} :: 0 <= k < |schema| ==>
      (Accepts(schema[k..], values) <==> FieldOk(schema[k], values) && Accepts(schema[k + 1..], values))
    ensures Accepts(schema[|schema|..], values)
  {
    assert schema[0..] == schema;
    forall k | 0 <= k < |schema| ensures schema[k..][1..] == schema[k + 1..] { }
  }

  /** Opens `AllPass` test by test. */
  lemma UnfoldTests(tests: seq<Test>, v: Value, values: Values)
    ensures AllPass(tests, v, values) <==> AllPass(tests[0..], v, values)
    ensures forall j {:trigger tests[j..]} :: 0 <= j < |tests| ==>
      (AllPass(tests[j..], v, values) <==> Passes(tests[j], v, values) && AllPass(tests[j + 1..], v, values))
    ensures AllPass(tests[|tests|..], v, values)
  {
    assert tests[0..] == tests;
    forall j | 0 <= j < |tests| ensures tests[j..][1..] == tests[j + 1..] { }
  }

  /** Opens a whole schema: every field and every test of it. */
  lemma Unfold(schema: seq<Field>, values: Values)
    ensures Accepts(schema, values) <==> Accepts(schema[0..], values)
    ensures forall k {:trigger schema[k..]} :: 0 <= k < |schema| ==>
      (Accepts(schema[k..], values) <==> FieldOk(schema[k], values) && Accepts(schema[k + 1..], values))
    ensures Accepts(schema[|schema|..], values)
    ensures forall k :: 0 <= k < |schema| ==>
      (AllPass(schema[k].tests, FieldValue(schema[k], values), values) <==>
       AllPass(schema[k].tests[0..], FieldValue(schema[k], values), values))
    ensures forall k, j {:trigger schema[k].tests[j..]} :: 0 <= k < |schema| && 0 <= j < |schema[k].tests| ==>
      (AllPass(schema[k].tests[j..], FieldValue(schema[k], values), values) <==>
       Passes(schema[k].tests[j], FieldValue(schema[k], values), values) &&
       AllPass(schema[k].tests[j + 1..], FieldValue(schema[k], values), values))
    ensures forall k :: 0 <= k < |schema| ==>
      AllPass(schema[k].tests[|schema[k].tests|..], FieldValue(schema[k], values), values)
  {
    UnfoldFields(schema, values);
    forall k | 0 <= k < |schema|
      ensures AllPass(schema[k].tests, FieldValue(schema[k], values), values) <==>
              AllPass(schema[k].tests[0..], FieldValue(schema[k], values), values)
      ensures forall j {:trigger schema[k].tests[j..]} :: 0 <= j < |schema[k].tests| ==>
        (AllPass(schema[k].tests[j..], FieldValue(schema[k], values), values) <==>
         Passes(schema[k].tests[j], FieldValue(schema[k], values), values) &&
         AllPass(schema[k].tests[j + 1..], FieldValue(schema[k], values), values))
      ensures AllPass(schema[k].tests[|schema[k].tests|..], FieldValue(schema[k], values), values)
    {
      UnfoldTests(schema[k].tests, FieldValue(schema[k], values), values);
    }
  }

  // ---------------------------------------------------------------- vocabulary of the lemmas

  /** A text field tested `required` alone accepts exactly a value whose text is non-empty. */
  lemma RequiredText(f: Field, values: Values)
    requires f.kind == Text(false) && f.tests == [Required]
    ensures FieldOk(f, values) <==> Filled(values, f.path)
  {
    assert f.tests[1..] == [];
    assert AllPass(f.tests, FieldValue(f, values), values) <==> Passes(Required, FieldValue(f, values), values);
  }

  /** A number field tested `min(lo).max(hi).required()` accepts exactly a value that reads as a number in `lo..hi`. */
  lemma NumberRangeField(f: Field, values: Values, lo: int, hi: int)
    requires f.kind == Number && f.tests == [AtLeast(lo), AtMost(hi), Required]
    ensures FieldOk(f, values) <==> NumberIn(values, f.path, lo, hi)
  {
    UnfoldTests(f.tests, FieldValue(f, values), values);
  }

  /** A number field tested `min(lo).max(hi)` alone accepts an absent value or one that reads as a number in `lo..hi`. */
  lemma OptionalRangeField(f: Field, values: Values, lo: int, hi: int)
    requires f.kind == Number && f.tests == [AtLeast(lo), AtMost(hi)]
    ensures FieldOk(f, values) <==> NumberUpTo(values, f.path, lo, hi)
  {
    UnfoldTests(f.tests, FieldValue(f, values), values);
  }

  /** A date field tested `min(bound).required()` accepts exactly a date no earlier than `bound`. */
  lemma DateFromField(f: Field, values: Values, bound: int)
    requires f.kind == Date && f.tests == [AtLeast(bound), Required]
    ensures FieldOk(f, values) <==> Lookup(values, f.path).Num? && Lookup(values, f.path).n >= bound
  {
    UnfoldTests(f.tests, FieldValue(f, values), values);
  }

  /** A text field with no test accepts every value: absent, a text, or a number read as text. */
  lemma AnyTextField(f: Field, values: Values)
    requires f.kind == Text(false) && f.tests == []
    ensures FieldOk(f, values)
  {
  }

  /** A text field tested `oneOf(options).required()` accepts exactly a value whose text is among the options. */
  lemma OneOfField(f: Field, values: Values, options: seq<string>)
    requires f.kind == Text(false) && f.tests == [OneOf(options), Required] && [] !in options
    ensures FieldOk(f, values) <==> TextIn(values, f.path, options)
  {
    UnfoldTests(f.tests, FieldValue(f, values), values);
  }

  /** A text field tested only `max(n)` accepts an absent value or one whose text has at most `n` code units. */
  lemma TextUpToField(f: Field, values: Values, n: nat)
    requires f.kind == Text(false) && f.tests == [MaxLength(n)]
    ensures FieldOk(f, values) <==> TextUpTo(values, f.path, n)
  {
    UnfoldTests(f.tests, FieldValue(f, values), values);
  }

  /** A trimmed text field tested `min(lo).max(hi).required()` accepts exactly a value whose trimmed text has `lo..hi` code units. */
  lemma TrimmedTextField(f: Field, values: Values, lo: nat, hi: nat)
    requires f.kind == Text(true) && f.tests == [MinLength(lo), MaxLength(hi), Required] && lo >= 1
    ensures FieldOk(f, values) <==> TextAt(values, f.path).Some? && lo <= |Trim(TextAt(values, f.path).value)| <= hi
  {
    var t := TextAt(values, f.path);
    if t.None? {
      assert FieldValue(f, values) == Absent;
      AllPassThree(MinLength(lo), MaxLength(hi), Required, Absent, values);
    } else {
      var w := Trim(t.value);
      assert FieldValue(f, values) == Str(w);
      AllPassThree(MinLength(lo), MaxLength(hi), Required, Str(w), values);
    }
  }

  /** Three tests pass together exactly when each one passes. */
  lemma AllPassThree(a: Test, b: Test, c: Test, v: Value, values: Values)
    ensures AllPass([a, b, c], v, values) <==> Passes(a, v, values) && Passes(b, v, values) && Passes(c, v, values)
  {
    assert [c][1..] == [];
    assert AllPass([c], v, values) <==> Passes(c, v, values);
    assert [b, c][1..] == [c];
    assert AllPass([b, c], v, values) <==> Passes(b, v, values) && AllPass([c], v, values);
    assert [a, b, c][1..] == [b, c];
  }

  /** The field's value as a text field reads it. */
  function TextAt(values: Values, path: string): Option<string> {
    AsText(Lookup(values, path))
  }

  /** A non-empty text. */
  predicate Filled(values: Values, path: string) {
    TextAt(values, path).Some? && TextAt(values, path).value != []
  }

  /** A text of at least `min` code units. */
  predicate TextAtLeast(values: Values, path: string, min: nat) {
    TextAt(values, path).Some? && |TextAt(values, path).value| >= min
  }

  /** Absent, or a text of at most `max` code units. */
  predicate TextUpTo(values: Values, path: string, max: nat) {
    TextAt(values, path).None? || |TextAt(values, path).value| <= max
  }

  predicate TextIn(values: Values, path: string, options: seq<string>) {
    TextAt(values, path).Some? && TextAt(values, path).value in options
  }

  /** A value that reads as a number in `lo..hi`, both ends included. */
  predicate NumberIn(values: Values, path: string, lo: int, hi: int) {
    AsNumber(Lookup(values, path)).Some? && lo <= AsNumber(Lookup(values, path)).value <= hi
  }

  predicate NumberUpTo(values: Values, path: string, lo: int, hi: int) {
    Lookup(values, path).Absent? || NumberIn(values, path, lo, hi)
  }

  // ---------------------------------------------------------------- the schemas

  const LoginSchema: seq<Field> := [
    Field("email", Text(false), [Required]),
    Field("password", Text(false), [Required])
  ]

  const RegisterSchema: seq<Field> := [
    Field("name", Text(false), [MinLength(2), Required]),
    Field("email", Text(false), [Required]),
    Field("password", Text(false), [MinLength(6), Required]),
    Field("confirmPassword", Text(false), [SameAs("password"), Required])
  ]

  const ProfileSchema: seq<Field> := [
    Field("name", Text(false), [MinLength(2), Required]),
    Field("bio", Text(false), [MaxLength(500)]),
    Field("location.city", Text(false), []),
    Field("location.country", Text(false), []),
    Field("timezone", Text(false), [])
  ]

  const SkillSchema: seq<Field> := [
    Field("name", Text(false), [Required]),
    Field("level", Text(false), [OneOf(["beginner", "intermediate", "advanced", "expert"]), Required]),
    Field("description", Text(false), [MaxLength(200)])
  ]

  const Frequencies: seq<string> := ["once", "weekly", "bi-weekly", "monthly"]

  const ExchangeSchema: seq<Field> := [
    Field("recipientId", Text(false), [Required]),
    Field("requesterSkill.name", Text(false), [Required]),
    Field("requesterSkill.level", Text(false), [Required]),
    Field("recipientSkill.name", Text(false), [Required]),
    Field("recipientSkill.level", Text(false), [Required]),
    Field("duration", Number, [AtLeast(1), AtMost(52), Required]),
    Field("frequency", Text(false), [OneOf(Frequencies), Required]),
    Field("notes", Text(false), [MaxLength(1000)])
  ]

  /** The session schema; its earliest date is the moment the schema was built, `builtAt` milliseconds. */
  function SessionSchema(builtAt: int): seq<Field> {
    [
      Field("scheduledDate", Date, [AtLeast(builtAt), Required]),
      Field("duration", Number, [AtLeast(15), AtMost(480), Required]),
      Field("type", Text(false), [OneOf(["virtual", "in-person"]), Required]),
      Field("location", Text(false), []),
      Field("agenda", Text(false), [MaxLength(500)])
    ]
  }

  const ReviewSchema: seq<Field> := [
    Field("rating", Number, [AtLeast(1), AtMost(5), Required]),
    Field("comment", Text(false), [MaxLength(500)]),
    Field("categories.communication", Number, [AtLeast(1), AtMost(5)]),
    Field("categories.knowledge", Number, [AtLeast(1), AtMost(5)]),
    Field("categories.patience", Number, [AtLeast(1), AtMost(5)]),
    Field("categories.reliability", Number, [AtLeast(1), AtMost(5)])
  ]

  const MessageSchema: seq<Field> := [
    Field("content", Text(true), [MinLength(1), MaxLength(1000), Required])
  ]

  // ---------------------------------------------------------------- what each schema accepts

  lemma LoginAccepts(values: Values)
    ensures Accepts(LoginSchema, values) <==> Filled(values, "email") && Filled(values, "password")
  {
    Unfold(LoginSchema, values);
  }

  /** Register: a name of 2 or more code units, an email, a password of 6 or more, and the same password again. */
  lemma RegisterAccepts(values: Values)
    ensures Accepts(RegisterSchema, values) <==>
      && TextAtLeast(values, "name", 2)
      && Filled(values, "email")
      && TextAtLeast(values, "password", 6)
      && Filled(values, "confirmPassword") && TextAt(values, "confirmPassword") == TextAt(values, "password")
  {
    Unfold(RegisterSchema, values);
  }

  /** An accepted registration carries a password the `validatePassword` helper accepts, typed twice. */
  lemma RegisterPasswordValid(values: Values)
    requires Accepts(RegisterSchema, values)
    ensures TextAt(values, "password").Some? && Helpers.ValidatePassword(TextAt(values, "password").value)
    ensures TextAt(values, "confirmPassword") == TextAt(values, "password")
  {
    RegisterAccepts(values);
  }

  /** Profile: a name of 2 or more code units and a bio of at most 500; city, country and timezone take any value. */
  lemma ProfileAccepts(values: Values)
    ensures Accepts(ProfileSchema, values) <==>
      && TextAtLeast(values, "name", 2)
      && TextUpTo(values, "bio", 500)
  {
    Unfold(ProfileSchema, values);
  }

  lemma SkillAccepts(values: Values)
    ensures Accepts(SkillSchema, values) <==>
      && Filled(values, "name")
      && TextAt(values, "level").Some? && TextAt(values, "level").value in Helpers.KnownLevels
      && TextUpTo(values, "description", 200)
  {
    Unfold(SkillSchema, values);
  }

  /** An accepted skill's level is shown capitalised and in its own colour. */
  lemma SkillLevelDisplayed(values: Values)
    requires Accepts(SkillSchema, values)
    ensures TextAt(values, "level").Some?
    ensures Helpers.FormatSkillLevel(TextAt(values, "level").value) == Helpers.CapitalizeFirst(TextAt(values, "level").value)
    ensures Helpers.SkillLevelColor(TextAt(values, "level").value) != Helpers.FallbackColor
  {
    SkillAccepts(values);
    Helpers.FormatSkillLevelCapitalises(TextAt(values, "level").value);
    Helpers.FallbackColorIffUnknown(TextAt(values, "level").value, "");
  }

  /** Exchange: every skill name and level given, 1 to 52 weeks, a known frequency, notes of at most 1000. */
  lemma ExchangeAccepts(values: Values)
    ensures Accepts(ExchangeSchema, values) <==>
      && Filled(values, "recipientId")
      && Filled(values, "requesterSkill.name") && Filled(values, "requesterSkill.level")
      && Filled(values, "recipientSkill.name") && Filled(values, "recipientSkill.level")
      && NumberIn(values, "duration", 1, 52)
      && TextIn(values, "frequency", Frequencies)
      && TextUpTo(values, "notes", 1000)
  {
    var s := ExchangeSchema;
    UnfoldFields(s, values);
    RequiredText(s[0], values);
    RequiredText(s[1], values);
    RequiredText(s[2], values);
    RequiredText(s[3], values);
    RequiredText(s[4], values);
    NumberRangeField(s[5], values, 1, 52);
    OneOfField(s[6], values, Frequencies);
    TextUpToField(s[7], values, 1000);
  }

  /** Session: a date no earlier than the schema, 15 to 480 minutes, a known type, an agenda of at most 500; any location. */
  lemma SessionAccepts(values: Values, builtAt: int)
    ensures Accepts(SessionSchema(builtAt), values) <==>
      && Lookup(values, "scheduledDate").Num? && Lookup(values, "scheduledDate").n >= builtAt
      && NumberIn(values, "duration", 15, 480)
      && TextIn(values, "type", ["virtual", "in-person"])
      && TextUpTo(values, "agenda", 500)
  {
    var s := SessionSchema(builtAt);
    UnfoldFields(s, values);
    DateFromField(s[0], values, builtAt);
    NumberRangeField(s[1], values, 15, 480);
    OneOfField(s[2], values, ["virtual", "in-person"]);
    AnyTextField(s[3], values);
    TextUpToField(s[4], values, 500);
  }

  /** Review: a rating of 1 to 5, each category score absent or 1 to 5, a comment of at most 500. */
  lemma ReviewAccepts(values: Values)
    ensures Accepts(ReviewSchema, values) <==>
      && NumberIn(values, "rating", 1, 5)
      && TextUpTo(values, "comment", 500)
      && NumberUpTo(values, "categories.communication", 1, 5)
      && NumberUpTo(values, "categories.knowledge", 1, 5)
      && NumberUpTo(values, "categories.patience", 1, 5)
      && NumberUpTo(values, "categories.reliability", 1, 5)
  {
    var s := ReviewSchema;
    UnfoldFields(s, values);
    NumberRangeField(s[0], values, 1, 5);
    TextUpToField(s[1], values, 500);
    OptionalRangeField(s[2], values, 1, 5);
    OptionalRangeField(s[3], values, 1, 5);
    OptionalRangeField(s[4], values, 1, 5);
    OptionalRangeField(s[5], values, 1, 5);
  }

  /** Message: after trimming, 1 to 1000 code units; the trimmed text is what the chat box sends. */
  lemma MessageAccepts(values: Values)
    ensures Accepts(MessageSchema, values) <==>
      TextAt(values, "content").Some? && 1 <= |Trim(TextAt(values, "content").value)| <= 1000
  {
    UnfoldFields(MessageSchema, values);
    TrimmedTextField(MessageSchema[0], values, 1, 1000);
  }

  /** Whitespace alone is refused, however long. */
  lemma BlankMessageRefused(values: Values)
    requires Lookup(values, "content").Str?
    requires forall i :: 0 <= i < |Lookup(values, "content").s| ==> IsWhitespace(Lookup(values, "content").s[i])
    ensures !Accepts(MessageSchema, values)
  {
    MessageAccepts(values);
    TrimEmptyIff(Lookup(values, "content").s);
  }
}

=== FILE: webrtc_service.dfy ===
/**
 * The client's peer-connection bookkeeping (the `WebRTCService` singleton): which media
 * tracks exist and whether they are enabled or stopped, which tracks the peer
 * connection's senders carry, the lazily created remote stream, the screen-share swap,
 * the offer/answer/candidate handlers and leaving.
 *
 * The browser is opaque: `getUserMedia`/`getDisplayMedia` are the `granted` flags and
 * the kinds of the tracks they give, `createOffer`/`createAnswer` are the SDP strings
 * passed in, and whether the browser accepts a description or candidate is the
 * `accepted` flag. A track is a record in the `tracks` table, named by an id.
 */
module WebRtc {
  import opened Common

  type TrackId = nat

  datatype Kind = Audio | Video

  datatype Track = Track(kind: Kind, enabled: bool, stopped: bool)

  datatype Signaling = Stable | HaveLocalOffer | HaveRemoteOffer

  datatype PeerState = New | Connecting | Connected | Disconnected | Failed | Closed

  /** An `RTCPeerConnection` as far as the service looks at it or changes it. */
  datatype Peer = Peer(senders: seq<Option<TrackId>>, signaling: Signaling, connection: PeerState,
                       remote: Option<string>, local: Option<string>, candidates: seq<string>)

  /** What the service emits on the signalling socket. */
  datatype Outgoing =
    | JoinRequest(sessionId: Option<string>, token: Option<string>)
    | OfferOut(sessionId: Option<string>, sdp: string)
    | AnswerOut(sessionId: Option<string>, sdp: string)
    | CandidateOut(sessionId: Option<string>, candidate: string)
    | ChatOut(sessionId: Option<string>, message: string)
    | LeaveOut(sessionId: Option<string>)

  /** How `startLocalMedia` ends: with the stream, refused by the browser, or a TypeError on a missing peer. */
  datatype MediaOutcome = MediaReady(stream: seq<TrackId>) | MediaDenied | NoPeer

  /** How `startScreenShare` ends; a share remembers the sender it swapped and on which peer connection. */
  datatype ShareOutcome = Shared(screen: TrackId, sender: Option<nat>, generation: nat) | ShareFailed

  function FreshPeer(): Peer {
    Peer([], Stable, New, None, None, [])
  }

  /** The tracks the senders carry, in sender order. */
  function SenderTracks(senders: seq<Option<TrackId>>): (r: seq<TrackId>)
    ensures forall t :: t in r <==> Some(t) in senders
  {
    if senders == [] then []
    else
      var rest := SenderTracks(senders[1..]);
      assert senders == [senders[0]] + senders[1..];
      if senders[0].Some? then [senders[0].value] + rest else rest
  }

  predicate IsVideoSender(s: Option<TrackId>, tracks: map<TrackId, Track>) {
    s.Some? && s.value in tracks && tracks[s.value].kind == Video
  }

  /** `pc.getSenders().find(s => s.track && s.track.kind === 'video')`, as an index. */
  function FirstVideoSender(senders: seq<Option<TrackId>>, tracks: map<TrackId, Track>): (r: Option<nat>)
    ensures r.Some? ==> r.value < |senders| && IsVideoSender(senders[r.value], tracks)
    ensures r.Some? ==> forall i :: 0 <= i < r.value ==> !IsVideoSender(senders[i], tracks)
    ensures r.None? <==> forall i :: 0 <= i < |senders| ==> !IsVideoSender(senders[i], tracks)
  {
    if senders == [] then None
    else if IsVideoSender(senders[0], tracks) then Some(0)
    else
      match FirstVideoSender(senders[1..], tracks)
      case None => None
      case Some(i) => Some(i + 1)
  }

  /** `stream.getVideoTracks()[0]`. */
  function FirstVideoTrack(ids: seq<TrackId>, tracks: map<TrackId, Track>): (r: Option<TrackId>)
    ensures r.Some? ==> r.value in ids && r.value in tracks && tracks[r.value].kind == Video
    ensures r.None? <==> forall t :: t in ids && t in tracks ==> tracks[t].kind != Video
  {
    if ids == [] then None
    else if ids[0] in tracks && tracks[ids[0]].kind == Video then Some(ids[0])
    else FirstVideoTrack(ids[1..], tracks)
  }

  function AsSenders(ids: seq<TrackId>): (r: seq<Option<TrackId>>)
    ensures |r| == |ids| && forall i :: 0 <= i < |ids| ==> r[i] == Some(ids[i])
  {
    seq(|ids|, i requires 0 <= i < |ids| => Some(ids[i]))
  }

  class Rtc {
    var tracks: map<TrackId, Track>
    var nextTrack: nat
    var pc: Option<Peer>
    /** How many peer connections `init` has created; tells a screen share's sender apart from a later peer's. */
    var pcGeneration: nat
    var localStream: Option<seq<TrackId>>
    var remoteStream: Option<seq<TrackId>>
    var sessionId: Option<string>
    var sent: seq<Outgoing>
    /**
     * How many times `init` has registered its socket listeners (offer, answer, ICE
     * candidate, participants, chat); nothing ever removes them.
     */
    var listeners: nat
    /** Whether `socketService` holds a socket; it has none until the app connects it. */
    var socketOpen: bool

    /** Every track a stream or a sender mentions exists, and fresh ids lie above all existing ones. */
    ghost predicate Valid()
      reads this
    {
      && (forall t :: t in tracks ==> t < nextTrack)
      && (localStream.Some? ==> forall t :: t in localStream.value ==> t in tracks)
      && (remoteStream.Some? ==> forall t :: t in remoteStream.value ==> t in tracks)
      && (pc.Some? ==> forall s :: s in pc.value.senders && s.Some? ==> s.value in tracks)
    }

    constructor ()
      ensures Valid()
      ensures tracks == map[] && pc.None? && localStream.None? && remoteStream.None?
      ensures sessionId.None? && sent == [] && pcGeneration == 0 && listeners == 0 && !socketOpen
    {
      tracks, nextTrack, pc, pcGeneration, listeners, socketOpen := map[], 0, None, 0, 0, false;
      localStream, remoteStream, sessionId, sent := None, None, None, [];
    }

    /**
     * `socketService.connect`: a socket that reports itself connected is kept; otherwise a
     * new socket replaces it, and the listeners registered on the old one are not on it.
     */
    method ConnectSocket(connected: bool)
      requires Valid()
      modifies this
      ensures Valid()
      ensures socketOpen
      ensures old(socketOpen) && connected ==> listeners == old(listeners)
      ensures !(old(socketOpen) && connected) ==> listeners == 0
      ensures tracks == old(tracks) && nextTrack == old(nextTrack) && pc == old(pc) && pcGeneration == old(pcGeneration)
      ensures localStream == old(localStream) && remoteStream == old(remoteStream)
      ensures sessionId == old(sessionId) && sent == old(sent)
    {
      if socketOpen && connected {
        return;
      }
      socketOpen := true;
      listeners := 0;
    }

    /**
     * `init`: remembers the session, creates a new peer connection and, when the service
     * has a socket, registers one more set of socket listeners beside those of earlier
     * calls (with no socket, the optional chaining registers nothing); the streams are kept.
     */
    method Init(sid: string)
      requires Valid()
      modifies this
      ensures Valid()
      ensures sessionId == Some(sid) && pc == Some(FreshPeer()) && pcGeneration == old(pcGeneration) + 1
      ensures listeners == old(listeners) + (if socketOpen then 1 else 0) && socketOpen == old(socketOpen)
      ensures tracks == old(tracks) && nextTrack == old(nextTrack) && sent == old(sent)
      ensures localStream == old(localStream) && remoteStream == old(remoteStream)
    {
      sessionId := Some(sid);
      pc := Some(FreshPeer());
      pcGeneration := pcGeneration + 1;
      if socketOpen {
        listeners := listeners + 1;
      }
    }

    /** A new media track, enabled and live. */
    method NewTrack(kind: Kind) returns (t: TrackId)
      requires Valid()
      modifies this
      ensures Valid()
      ensures t !in old(tracks) && tracks == old(tracks)[t := Track(kind, true, false)]
      ensures nextTrack == t + 1 && t == old(nextTrack)
      ensures pc == old(pc) && pcGeneration == old(pcGeneration) && sent == old(sent)
      ensures localStream == old(localStream) && remoteStream == old(remoteStream) && sessionId == old(sessionId) && listeners == old(listeners) && socketOpen == old(socketOpen)
    {
      t := nextTrack;
      tracks := tracks[t := Track(kind, true, false)];
      nextTrack := nextTrack + 1;
    }

    /** `ontrack`: the remote stream is created on the first incoming track, and every track is appended. */
    method OnTrack(kind: Kind) returns (t: TrackId)
      requires Valid()
      modifies this
      ensures Valid()
      ensures t !in old(tracks) && tracks == old(tracks)[t := Track(kind, true, false)]
      ensures old(remoteStream).None? ==> remoteStream == Some([t])
      ensures old(remoteStream).Some? ==> remoteStream == Some(old(remoteStream).value + [t])
      ensures pc == old(pc) && localStream == old(localStream) && sent == old(sent) && sessionId == old(sessionId) && listeners == old(listeners) && socketOpen == old(socketOpen)
    {
      t := NewTrack(kind);
      if remoteStream.None? {
        remoteStream := Some([t]);
      } else {
        remoteStream := Some(remoteStream.value + [t]);
      }
    }

    /** A local ICE candidate is sent to the session; the end-of-candidates event sends nothing. */
    method OnLocalCandidate(candidate: Option<string>)
      modifies this
      ensures candidate.None? ==> sent == old(sent)
      ensures candidate.Some? ==> sent == old(sent) + (if socketOpen then [CandidateOut(sessionId, candidate.value)] else [])
      ensures tracks == old(tracks) && pc == old(pc) && localStream == old(localStream) && remoteStream == old(remoteStream)
    {
      if candidate.Some? {
        if socketOpen {
          sent := sent + [CandidateOut(sessionId, candidate.value)];
        }
      }
    }

    /** The browser reports a new connection state. */
    method OnConnectionState(s: PeerState)
      requires Valid()
      modifies this
      ensures Valid()
      ensures pc == if old(pc).Some? then Some(old(pc).value.(connection := s)) else old(pc)
      ensures tracks == old(tracks) && sent == old(sent) && localStream == old(localStream) && remoteStream == old(remoteStream)
    {
      if pc.Some? {
        pc := Some(pc.value.(connection := s));
      }
    }

    /**
     * `startLocalMedia`: the stream from `getUserMedia` replaces the local stream (the old
     * one is not stopped) and each of its tracks is added to the peer connection. Without
     * a peer connection the first `addTrack` throws, after the stream was stored.
     */
    method StartLocalMedia(granted: bool, kinds: seq<Kind>) returns (r: MediaOutcome)
      requires Valid()
      modifies this
      ensures Valid()
      ensures !granted ==> r == MediaDenied && tracks == old(tracks) && localStream == old(localStream) && pc == old(pc)
      ensures granted ==>
        && localStream.Some? && |localStream.value| == |kinds|
        && (forall i :: 0 <= i < |kinds| ==>
              localStream.value[i] !in old(tracks) && localStream.value[i] in tracks
              && tracks[localStream.value[i]] == Track(kinds[i], true, false))
        && (forall t :: t in old(tracks) ==> t in tracks && tracks[t] == old(tracks[t]))
        && (old(pc).None? && kinds != [] ==> r == NoPeer && pc == old(pc))
        && (old(pc).Some? || kinds == [] ==> r == MediaReady(localStream.value))
        && (old(pc).Some? ==> pc == Some(old(pc).value.(senders := old(pc).value.senders + AsSenders(localStream.value))))
        && (old(pc).None? ==> pc.None?)
      ensures remoteStream == old(remoteStream) && sent == old(sent) && sessionId == old(sessionId) && listeners == old(listeners) && socketOpen == old(socketOpen)
    {
      if !granted {
        return MediaDenied;
      }
      var ids := CreateTracks(kinds);
      localStream := Some(ids);
      if ids == [] {
        assert pc.Some? ==> pc.value.senders + AsSenders(ids) == pc.value.senders;
        return MediaReady(ids);
      }
      if pc.None? {
        return NoPeer;
      }
      AddSenders(ids);
      r := MediaReady(ids);
    }

    /** The stream `getUserMedia` grants: one new, enabled track per requested kind, in order. */
    method CreateTracks(kinds: seq<Kind>) returns (ids: seq<TrackId>)
      requires Valid()
      modifies this
      ensures Valid() && |ids| == |kinds|
      ensures forall j :: 0 <= j < |kinds| ==>
        ids[j] !in old(tracks) && ids[j] in tracks && tracks[ids[j]] == Track(kinds[j], true, false)
      ensures forall t :: t in old(tracks) ==> t in tracks && tracks[t] == old(tracks[t])
      ensures forall t :: t in ids ==> t in tracks
      ensures pc == old(pc) && pcGeneration == old(pcGeneration) && localStream == old(localStream)
      ensures remoteStream == old(remoteStream) && sent == old(sent) && sessionId == old(sessionId) && listeners == old(listeners) && socketOpen == old(socketOpen)
    {
      ids := [];
      var i := 0;
      while i < |kinds|
        invariant 0 <= i <= |kinds| && |ids| == i
        invariant Valid() && pc == old(pc) && pcGeneration == old(pcGeneration) && localStream == old(localStream)
        invariant remoteStream == old(remoteStream) && sent == old(sent) && sessionId == old(sessionId) && listeners == old(listeners) && socketOpen == old(socketOpen)
        invariant forall t :: t in old(tracks) ==> t in tracks && tracks[t] == old(tracks[t])
        invariant forall j :: 0 <= j < i ==>
          ids[j] !in old(tracks) && ids[j] in tracks && tracks[ids[j]] == Track(kinds[j], true, false)
        invariant forall t :: t in ids ==> t in tracks
      {
        var t := NewTrack(kinds[i]);
        ids := ids + [t];
        i := i + 1;
      }
    }

    /** `stream.getTracks().forEach(track => pc.addTrack(track, stream))`: one sender per track, in order. */
    method AddSenders(ids: seq<TrackId>)
      requires Valid() && pc.Some? && forall t :: t in ids ==> t in tracks
      modifies this
      ensures Valid()
      ensures pc == Some(old(pc).value.(senders := old(pc).value.senders + AsSenders(ids)))
      ensures tracks == old(tracks) && nextTrack == old(nextTrack) && pcGeneration == old(pcGeneration)
      ensures localStream == old(localStream) && remoteStream == old(remoteStream)
      ensures sent == old(sent) && sessionId == old(sessionId) && listeners == old(listeners) && socketOpen == old(socketOpen)
    {
      var j := 0;
      while j < |ids|
        invariant 0 <= j <= |ids|
        invariant pc.Some? && pc.value == old(pc).value.(senders := old(pc).value.senders + AsSenders(ids[..j]))
        invariant Valid() && tracks == old(tracks) && nextTrack == old(nextTrack) && pcGeneration == old(pcGeneration)
        invariant localStream == old(localStream) && remoteStream == old(remoteStream)
        invariant sent == old(sent) && sessionId == old(sessionId) && listeners == old(listeners) && socketOpen == old(socketOpen)
      {
        assert AsSenders(ids[..j + 1]) == AsSenders(ids[..j]) + [Some(ids[j])];
        pc := Some(pc.value.(senders := pc.value.senders + [Some(ids[j])]));
        j := j + 1;
      }
      assert ids[..|ids|] == ids;
    }

    /** Sets `enabled` on the tracks of `ids` of the given kind; other tracks are untouched. */
    method SetEnabled(ids: seq<TrackId>, kind: Kind, on: bool)
      requires Valid() && forall t :: t in ids ==> t in tracks
      modifies this
      ensures Valid()
      ensures tracks.Keys == old(tracks).Keys
      ensures forall t :: t in tracks ==>
        tracks[t] == if t in ids && old(tracks[t]).kind == kind then old(tracks[t]).(enabled := on) else old(tracks[t])
      ensures pc == old(pc) && localStream == old(localStream) && remoteStream == old(remoteStream)
      ensures sent == old(sent) && sessionId == old(sessionId) && listeners == old(listeners) && socketOpen == old(socketOpen) && nextTrack == old(nextTrack)
    {
      var updated := tracks;
      var i := 0;
      while i < |ids|
        invariant 0 <= i <= |ids|
        invariant updated.Keys == tracks.Keys
        invariant forall t :: t in updated ==>
          updated[t] == if t in ids[..i] && tracks[t].kind == kind then tracks[t].(enabled := on) else tracks[t]
      {
        var t := ids[i];
        assert ids[..i + 1] == ids[..i] + [t];
        if updated[t].kind == kind {
          updated := updated[t := updated[t].(enabled := on)];
        }
        i := i + 1;
      }
      assert ids[..|ids|] == ids;
      tracks := updated;
    }

    /** `toggleMute(muted)`: no local stream, no change; otherwise every local audio track gets `enabled = !muted`. */
    method ToggleMute(muted: bool)
      requires Valid()
      modifies this
      ensures Valid()
      ensures localStream.None? ==> tracks == old(tracks)
      ensures localStream.Some? ==> tracks.Keys == old(tracks).Keys && forall t :: t in tracks ==>
        tracks[t] == if t in localStream.value && old(tracks[t]).kind == Audio then old(tracks[t]).(enabled := !muted) else old(tracks[t])
      ensures pc == old(pc) && localStream == old(localStream) && remoteStream == old(remoteStream) && sent == old(sent)
    {
      if localStream.None? {
        return;
      }
      SetEnabled(localStream.value, Audio, !muted);
    }

    /** `toggleCamera(off)`: no local stream, no change; otherwise every local video track gets `enabled = !off`. */
    method ToggleCamera(off: bool)
      requires Valid()
      modifies this
      ensures Valid()
      ensures localStream.None? ==> tracks == old(tracks)
      ensures localStream.Some? ==> tracks.Keys == old(tracks).Keys && forall t :: t in tracks ==>
        tracks[t] == if t in localStream.value && old(tracks[t]).kind == Video then old(tracks[t]).(enabled := !off) else old(tracks[t])
      ensures pc == old(pc) && localStream == old(localStream) && remoteStream == old(remoteStream) && sent == old(sent)
    {
      if localStream.None? {
        return;
      }
      SetEnabled(localStream.value, Video, !off);
    }

    /**
     * `startScreenShare`: the screen's video track replaces the track of the first sender
     * that carries a video track (if any). Refused capture or a missing peer connection
     * ends in the rethrown error.
     */
    method StartScreenShare(granted: bool) returns (r: ShareOutcome)
      requires Valid()
      modifies this
      ensures Valid()
      ensures !granted ==> r == ShareFailed && tracks == old(tracks) && pc == old(pc)
      ensures granted ==> old(nextTrack) !in old(tracks) && tracks == old(tracks)[old(nextTrack) := Track(Video, true, false)]
      ensures granted && old(pc).None? ==> r == ShareFailed && pc == old(pc)
      ensures granted && old(pc).Some? ==>
        var sender := FirstVideoSender(old(pc).value.senders, old(tracks));
        && r.Shared? && r.screen in tracks && r.screen !in old(tracks) && r.sender == sender
        && r.generation == pcGeneration
        && (sender.None? ==> pc == old(pc))
        && (sender.Some? ==> pc == Some(old(pc).value.(senders := old(pc).value.senders[sender.value := Some(r.screen)])))
      ensures pcGeneration == old(pcGeneration) && localStream == old(localStream) && remoteStream == old(remoteStream)
      ensures sent == old(sent)
    {
      if !granted {
        return ShareFailed;
      }
      var screen := NewTrack(Video);
      if pc.None? {
        return ShareFailed;
      }
      var sender := FirstVideoSender(pc.value.senders, tracks);
      assert forall i :: 0 <= i < |pc.value.senders| ==>
        (IsVideoSender(pc.value.senders[i], tracks) <==> IsVideoSender(pc.value.senders[i], old(tracks)));
      assert sender == FirstVideoSender(old(pc).value.senders, old(tracks)) by {
        FirstVideoSenderFrame(pc.value.senders, old(tracks), tracks);
      }
      if sender.Some? {
        pc := Some(pc.value.(senders := pc.value.senders[sender.value := Some(screen)]));
      }
      r := Shared(screen, sender, pcGeneration);
    }

    /**
     * The screen track ends: the first local video track goes back on the remembered
     * sender, when both exist and that sender still belongs to the current peer connection.
     */
    method OnScreenShareEnded(share: ShareOutcome)
      requires Valid() && share.Shared?
      modifies this
      ensures Valid()
      ensures var cam := if localStream.Some? then FirstVideoTrack(localStream.value, tracks) else None;
        if cam.Some? && share.sender.Some? && old(pc).Some? && share.generation == pcGeneration
           && share.sender.value < |old(pc).value.senders|
        then pc == Some(old(pc).value.(senders := old(pc).value.senders[share.sender.value := cam]))
        else pc == old(pc)
      ensures tracks == old(tracks) && localStream == old(localStream) && remoteStream == old(remoteStream)
      ensures sent == old(sent) && pcGeneration == old(pcGeneration)
    {
      var cam := if localStream.Some? then FirstVideoTrack(localStream.value, tracks) else None;
      if cam.Some? && share.sender.Some? && pc.Some? && share.generation == pcGeneration
         && share.sender.value < |pc.value.senders| {
        pc := Some(pc.value.(senders := pc.value.senders[share.sender.value := cam]));
      }
    }

    /** `joinSession`: asks the server to join, with the stored token (if any). */
    method JoinSession(token: Option<string>)
      modifies this
      ensures sent == old(sent) + (if socketOpen then [JoinRequest(sessionId, token)] else [])
      ensures tracks == old(tracks) && pc == old(pc) && localStream == old(localStream) && remoteStream == old(remoteStream)
      ensures sessionId == old(sessionId) && listeners == old(listeners) && socketOpen == old(socketOpen) && pcGeneration == old(pcGeneration) && nextTrack == old(nextTrack)
    {
      if socketOpen {
        sent := sent + [JoinRequest(sessionId, token)];
      }
    }

    /** `makeOffer`: the created offer becomes the local description and is sent. */
    method MakeOffer(offer: string)
      requires Valid()
      modifies this
      ensures Valid()
      ensures old(pc).None? ==> pc == old(pc) && sent == old(sent)
      ensures old(pc).Some? ==>
        && pc == Some(old(pc).value.(local := Some(offer), signaling := HaveLocalOffer))
        && sent == old(sent) + (if socketOpen then [OfferOut(sessionId, offer)] else [])
      ensures tracks == old(tracks) && localStream == old(localStream) && remoteStream == old(remoteStream)
      ensures sessionId == old(sessionId) && listeners == old(listeners) && socketOpen == old(socketOpen) && pcGeneration == old(pcGeneration)
    {
      if pc.None? {
        return;
      }
      pc := Some(pc.value.(local := Some(offer), signaling := HaveLocalOffer));
      if socketOpen {
        sent := sent + [OfferOut(sessionId, pc.value.local.value)];
      }
    }

    /**
     * An incoming offer, answered in sequence: remote description, answer, local
     * description, then the local description is sent. A rejected offer stops the chain.
     */
    method OnOffer(sdp: string, answer: string, accepted: bool)
      requires Valid()
      modifies this
      ensures Valid()
      ensures old(pc).None? || !accepted ==> pc == old(pc) && sent == old(sent)
      ensures old(pc).Some? && accepted ==>
        && pc == Some(old(pc).value.(remote := Some(sdp), local := Some(answer), signaling := Stable))
        && sent == old(sent) + (if socketOpen then [AnswerOut(sessionId, pc.value.local.value)] else [])
      ensures tracks == old(tracks) && localStream == old(localStream) && remoteStream == old(remoteStream)
      ensures sessionId == old(sessionId) && listeners == old(listeners) && socketOpen == old(socketOpen) && pcGeneration == old(pcGeneration)
    {
      if pc.None? || !accepted {
        return;
      }
      pc := Some(pc.value.(remote := Some(sdp), signaling := HaveRemoteOffer));
      pc := Some(pc.value.(local := Some(answer), signaling := Stable));
      if socketOpen {
        sent := sent + [AnswerOut(sessionId, pc.value.local.value)];
      }
    }

    /** An incoming answer becomes the remote description. */
    method OnAnswer(sdp: string, accepted: bool)
      requires Valid()
      modifies this
      ensures Valid()
      ensures old(pc).None? || !accepted ==> pc == old(pc)
      ensures old(pc).Some? && accepted ==> pc == Some(old(pc).value.(remote := Some(sdp), signaling := Stable))
      ensures tracks == old(tracks) && localStream == old(localStream) && remoteStream == old(remoteStream)
      ensures sent == old(sent) && sessionId == old(sessionId) && listeners == old(listeners) && socketOpen == old(socketOpen) && pcGeneration == old(pcGeneration)
    {
      if pc.None? || !accepted {
        return;
      }
      pc := Some(pc.value.(remote := Some(sdp), signaling := Stable));
    }

    /**
     * An incoming ICE candidate is applied at once. The browser refuses it while there is
     * no remote description (and whenever `valid` is false); the error is swallowed and
     * the candidate is gone: nothing is kept for later.
     */
    method OnRemoteCandidate(candidate: string, valid: bool)
      requires Valid()
      modifies this
      ensures Valid()
      ensures old(pc).Some? && old(pc).value.remote.Some? && valid ==>
        pc == Some(old(pc).value.(candidates := old(pc).value.candidates + [candidate]))
      ensures old(pc).None? || old(pc).value.remote.None? || !valid ==> pc == old(pc)
      ensures tracks == old(tracks) && localStream == old(localStream) && remoteStream == old(remoteStream)
      ensures sent == old(sent) && sessionId == old(sessionId) && listeners == old(listeners) && socketOpen == old(socketOpen) && pcGeneration == old(pcGeneration)
    {
      if pc.Some? && pc.value.remote.Some? && valid {
        pc := Some(pc.value.(candidates := pc.value.candidates + [candidate]));
      }
    }

    /** `sendChat`: the message goes to the session as given. */
    method SendChat(message: string)
      requires Valid()
      modifies this
      ensures Valid()
      ensures sent == old(sent) + (if socketOpen then [ChatOut(sessionId, message)] else [])
      ensures tracks == old(tracks) && pc == old(pc) && localStream == old(localStream) && remoteStream == old(remoteStream)
      ensures sessionId == old(sessionId) && listeners == old(listeners) && socketOpen == old(socketOpen) && pcGeneration == old(pcGeneration) && nextTrack == old(nextTrack)
    {
      if socketOpen {
        sent := sent + [ChatOut(sessionId, message)];
      }
    }

    /** Stops every track of `ids`; nothing else about any track changes. */
    method StopTracks(ids: seq<TrackId>)
      requires Valid() && forall t :: t in ids ==> t in tracks
      modifies this
      ensures Valid()
      ensures tracks.Keys == old(tracks).Keys
      ensures forall t :: t in tracks ==> tracks[t] == if t in ids then old(tracks[t]).(stopped := true) else old(tracks[t])
      ensures pc == old(pc) && localStream == old(localStream) && remoteStream == old(remoteStream)
      ensures sent == old(sent) && sessionId == old(sessionId) && listeners == old(listeners) && socketOpen == old(socketOpen) && nextTrack == old(nextTrack) && pcGeneration == old(pcGeneration)
    {
      var i := 0;
      while i < |ids|
        invariant 0 <= i <= |ids|
        invariant tracks.Keys == old(tracks).Keys && Valid()
        invariant pc == old(pc) && localStream == old(localStream) && remoteStream == old(remoteStream)
        invariant sent == old(sent) && sessionId == old(sessionId) && listeners == old(listeners) && socketOpen == old(socketOpen) && nextTrack == old(nextTrack) && pcGeneration == old(pcGeneration)
        invariant forall t :: t in tracks ==> tracks[t] == if t in ids[..i] then old(tracks[t]).(stopped := true) else old(tracks[t])
      {
        tracks := tracks[ids[i] := tracks[ids[i]].(stopped := true)];
        i := i + 1;
      }
      assert ids[..|ids|] == ids;
    }

    /**
     * `leave`: announces the leave, stops the senders', local and remote tracks, closes
     * the peer connection and forgets it and both streams. A second call stops nothing.
     */
    method Leave()
      requires Valid()
      modifies this
      ensures Valid()
      ensures sent == old(sent) + (if socketOpen then [LeaveOut(sessionId)] else [])
      ensures pc.None? && localStream.None? && remoteStream.None?
      ensures tracks.Keys == old(tracks).Keys
      ensures forall t :: t in tracks ==>
        tracks[t] == (if (old(pc).Some? && Some(t) in old(pc).value.senders)
                         || (old(localStream).Some? && t in old(localStream).value)
                         || (old(remoteStream).Some? && t in old(remoteStream).value)
                      then old(tracks[t]).(stopped := true) else old(tracks[t]))
      ensures sessionId == old(sessionId) && listeners == old(listeners) && socketOpen == old(socketOpen) && pcGeneration == old(pcGeneration)
    {
      if socketOpen {
        sent := sent + [LeaveOut(sessionId)];
      }
      if pc.Some? {
        StopTracks(SenderTracks(pc.value.senders));
      }
      if localStream.Some? {
        StopTracks(localStream.value);
      }
      if remoteStream.Some? {
        StopTracks(remoteStream.value);
      }
      pc := None;
      localStream := None;
      remoteStream := None;
    }
  }

  /** Which senders carry a video track depends only on the kinds of the tracks they carry. */
  lemma FirstVideoSenderFrame(senders: seq<Option<TrackId>>, t1: map<TrackId, Track>, t2: map<TrackId, Track>)
    requires forall i :: 0 <= i < |senders| ==> (IsVideoSender(senders[i], t1) <==> IsVideoSender(senders[i], t2))
    ensures FirstVideoSender(senders, t1) == FirstVideoSender(senders, t2)
  {
  }
}
